=== FILE: README.md ===
# IntelliCode planning core in Dafny

IntelliCode is a set of LLM agents that plan a program before writing it.
A planner answers with numbered plan steps ("Step 1:Create a class called
Parser.This class will be responsible for ..."). These parts are modelled:

- **Checker.** Decides line by line whether a plan follows the step
  template, and files an issue for each line that does not.
- **ContentExtractor.** Turns an accepted step into a `CodeEntity`.
- **DependencyGraph.** Links the entities through usage edges. It orders
  them with Kahn's algorithm so that dependencies are defined before the
  code that uses them.
- **Containers around the agents.** The message queue, the
  question/answer examples, the chat history of the console front end and
  its prompt and input.
- **`ConfigSource` and `LLMModuleConfig`.** Layered configuration: the
  in-memory store, then the environment, then the JSON file, then the
  default.

Modules follow the source files:

| module | file | models |
|---|---|---|
| `Wrappers` | wrappers.dfy | `Option` and `Result` |
| `PyList` | pylist.dfy | Python list indexing, including negative indices and `IndexError` (as `None`) |
| `Text` | text.dfy | `str.isspace`, `strip`, `splitlines`, `join`, `lower` and `upper` on ASCII letters, decimal rendering |
| `CodeGraph` | codegraph.dfy | `Edge`, `CodeEntity` and their mutators from `utils/DependencyGraph.py` |
| `Kahn`, `TopSort` | kahn.dfy, toposort.dfy | `DependencyGraph.top_sort_entities`, with a functional reference run of Kahn's algorithm |
| `StepParser` | step_parser.dfy | `ContentExtractor` from `utils/util.py`: the step pattern as an explicit matcher |
| `Planning` | planning.dfy | `append_entity`, `create_entities_from_steps`, `_code_entities_to_dict` |
| `PlanChecker` | plan_checker.dfy | `IssueReport`, `Checker.check_one_line` and `Checker.check` |
| `Messages` | messages.dfy | `Message`, `MessageQueue`, `QAExample`, `QAExamples` |
| `Config` | config.dfy | `ConfigSource` and `LLMModuleConfig._configure` from `llm/config.py` |
| `Cli` | cli.dfy | `ChatItem`, `ChatHistory` and the history side of `Cli` |

Object identity is modelled as an index. The entities of a graph live in
`Graph.entities`, its edges in `Graph.edges`, and an entity's in- and
out-lists hold edge indices. Mutating methods become functions that return
the new graph, configuration source or history.

Two behaviours of the code are worth knowing, and the model keeps both:

- `top_sort_entities` does not report cycles. When some entities lie on
  or behind a cycle it returns a shorter order without them. The model
  returns the same order and proves that the missing entities are exactly
  those on or behind a cycle (`TopSort.CycleOmitted`,
  `TopSort.OmittedImpliesCycle`, `TopSort.CompleteIffAcyclic`).
- `STEP_PATTERN` and `check_one_line` accept different step grammars.
  - `STEP_PATTERN` takes a single digit and the sentence "This class will
    be responsible for", ignoring case. Its description group is only the
    first word.
  - `check_one_line` is case-sensitive. It takes any number of digits and
    both "This class" and "This function", but the noun must be the same
    as in "Create a ...".
  - Both are proved as written (`StepParser.SingleDigitStep`,
    `PlanChecker.TemplateLineChecked`).

## Model

| member | source | states |
|---|---|---|
| PyList.Get | cli/Cli.py:40-41 | Python indexing: defined exactly for `-n <= i < n`; a negative index counts from the end |
| PyList.Delete | cli/Cli.py:37-38 | `del s[i]` removes exactly the addressed element: the rest keep their order, and the multiset loses one copy of it |
| PyList.DeleteInsertRoundTrip | utils/util.py:72-73 | putting a deleted element back where it was gives the list back |
| CodeGraph.Unlinked | utils/DependencyGraph.py:36-50 | a fresh entity carries its name, kind, description and parent, and no children, edges, definition or body |
| CodeGraph.AddInEdge | utils/DependencyGraph.py:52-56 | the edge is appended to this entity's in-list only; other entities and the out-list are unchanged; graph validity is kept |
| CodeGraph.AddOutEdge | utils/DependencyGraph.py:58-62 | the edge is appended to this entity's out-list only; everything else is unchanged; validity is kept |
| CodeGraph.AddToEntity | utils/DependencyGraph.py:64-65 | one new edge from this entity to the target, recorded on this entity's out-list only (not on the target's in-list) |
| CodeGraph.AddFromEntity | utils/DependencyGraph.py:67-68 | one new edge from the source to this entity, recorded on this entity's in-list only |
| CodeGraph.GetToEntityByIndex | utils/DependencyGraph.py:94-95 | defined exactly for Python-valid indices of the out-list; the result is the target of the out-edge at that index, counted from the end when negative |
| CodeGraph.GetFromEntityByIndex | utils/DependencyGraph.py:97-98 | defined exactly for Python-valid indices of the in-list; the result is the source of the in-edge at that index, counted from the end when negative |
| CodeGraph.DelToEntityByIndex | utils/DependencyGraph.py:100-101 | exactly the addressed out-edge leaves, and re-inserting it restores the list; nothing else changes |
| CodeGraph.DelFromEntityByIndex | utils/DependencyGraph.py:103-104 | exactly the addressed in-edge leaves, and the in-degree drops by one; nothing else changes |
| CodeGraph.AddSubEntity | utils/DependencyGraph.py:120-124 | the child is appended to this entity's children; edges and other entities are unchanged |
| CodeGraph.AddToEntityUndo | utils/DependencyGraph.py:64-65 | deleting the last out-edge undoes `add_to_entity` on the entity lists |
| CodeGraph.AddFromEntityUndo | utils/DependencyGraph.py:67-68 | deleting the last in-edge undoes `add_from_entity` on the entity lists |
| CodeGraph.AddToEntityThenGet | utils/DependencyGraph.py:64-65 | after `add_to_entity`, `get_to_entity_by_index(-1)` gives the entity just linked |
| CodeGraph.AddFromEntityThenGet | utils/DependencyGraph.py:67-68 | after `add_from_entity`, `get_from_entity_by_index(-1)` gives the entity just linked |
| CodeGraph.InDegreeLinks | utils/DependencyGraph.py:64-71 | the in-degree counts the in-list only: `add_from_entity` raises it by one, and `add_to_entity` never changes it, even on the entity it points at |
| Planning.AppendEntity | utils/DependencyGraph.py:143-144 | the entity goes last; earlier entities and their in-degrees are unchanged |
| TopSort.TopSortEntities | utils/DependencyGraph.py:146-163 | the order equals the reference Kahn run; it is duplicate-free (each list position being one entity) and starts with the zero in-degree entities in list order; it holds exactly the entities whose in-degree is covered by edges from earlier entities; when in- and out-lists agree, every edge's source comes before its target |
| TopSort.ComputeDegrees | utils/DependencyGraph.py:150-151 | each entity's starting counter is the length of its in-list |
| TopSort.CollectSeeds | utils/DependencyGraph.py:152-154 | the starting queue holds exactly the entities with no in-edges, in list order |
| TopSort.ReleaseTargets | utils/DependencyGraph.py:158-162 | walking an entity's out-edges decrements each target's counter and enqueues a target when it reaches zero, keeping the loop invariant |
| Kahn.SeedsBelow | utils/DependencyGraph.py:152-154 | the seeds are exactly the zero in-degree entities, in increasing list order |
| Kahn.Targets | utils/DependencyGraph.py:158-159 | the targets of an entity's out-edges, one per edge, in order |
| TopSort.EdgesRespected | utils/DependencyGraph.py:155-162 | when in-degrees agree with the out-edges, any duplicate-free order that places each entity after out-edges of earlier entities covering its in-degree has every edge between its members going forward |
| TopSort.CycleOmitted | utils/DependencyGraph.py:155-163 | no entity on a cycle is ever emitted |
| TopSort.OmittedImpliesCycle | utils/DependencyGraph.py:155-163 | every entity left out of the order lies behind a cycle of entities that are all left out |
| TopSort.CompleteIffAcyclic | utils/DependencyGraph.py:146-163 | the order contains every entity if and only if the graph has no cycle, and then it is as long as the entity list |
| StepParser.MatchStepSound | utils/util.py:163-164 | what the matcher returns is a match of `STEP_PATTERN` at the start of the line, with the third group ending at a non-word character |
| StepParser.MatchStepComplete | utils/util.py:163-164 | whenever the pattern matches, the matcher finds a match with the same head and kind, and a name at least as long as the match's |
| StepParser.MatchStepNoneIff | utils/util.py:180-184 | the matcher fails exactly when no match of the pattern exists |
| StepParser.GroupsAreWords | utils/util.py:163 | each of the three `(\w+)` groups is a non-empty run of word characters |
| StepParser.SingleDigitStep | utils/util.py:163 | a match has exactly one digit as its step number |
| StepParser.KindOf | utils/util.py:166-175 | the kind word is recognised exactly when its lower-case form is `package`, `class` or `function`; anything else is an unsupported-kind error |
| StepParser.ExtractCodeEntity | utils/util.py:178-187 | errors are a format error on the stripped step or an unsupported kind; a result is an unlinked entity whose name and description are words |
| StepParser.ExtractFormatErrorIff | utils/util.py:179-184 | the format error happens exactly when the stripped step has no match of the pattern |
| StepParser.ExtractStepLine | utils/util.py:178-187 | a well-formed step line gives back the entity built from its kind, name and description |
| Planning.MapUntilError | utils/DependencyGraph.py:195-197 | succeeds exactly when every element converts, keeping order; otherwise it reports the first failure |
| Planning.CreateEntitiesFromSteps | utils/DependencyGraph.py:189-198 | one entity per step, in order, when every step parses; otherwise the error of the first step that does not |
| Planning.PlanEntitiesValid | utils/DependencyGraph.py:189-198 | freshly parsed entities form a valid graph with no edges |
| Planning.EntitiesByDefinition | utils/DependencyGraph.py:200-205 | the keys are exactly the entities' definitions, and each key maps to the position of the last entity with that definition |
| Planning.DefinitionIndexed | utils/DependencyGraph.py:200-205 | every entity's definition is a key, mapped to the last position at or after it that holds the same definition |
| PlanChecker.ClearIssueReport | Agents/Checker.py:15-16 | the cleared report is empty |
| PlanChecker.AppendIssue | Agents/Checker.py:18-19 | the issue goes last and earlier issues are unchanged |
| PlanChecker.GetIssueByIndex | Agents/Checker.py:21-22 | Python indexing into the issues, `IndexError` as None |
| PlanChecker.DelIssueByIndex | Agents/Checker.py:24-25 | exactly the addressed issue leaves; re-inserting it restores the report |
| PlanChecker.AppendIssueLast | Agents/Checker.py:18-25 | an appended issue is the last one, and deleting index -1 gives the report back |
| PlanChecker.CheckOneLine | Agents/Checker.py:58-69 | an accepted line starts with `Step ` followed by a digit |
| PlanChecker.MatchTemplateSound | Agents/Checker.py:60-67 | when the matcher accepts, the class or function template matches at the start of the line |
| PlanChecker.MatchTemplateComplete | Agents/Checker.py:60-67 | whenever the template matches at the start of the line, the matcher accepts |
| PlanChecker.CheckOneLineIff | Agents/Checker.py:59-69 | a line is accepted if and only if one of the two templates matches at its start |
| PlanChecker.AnchoredAtStart | Agents/Checker.py:60-67 | `re.match` anchors only at the start: anything may follow an accepted line |
| PlanChecker.TemplateLineChecked | Agents/Checker.py:60-67 | a step line is accepted exactly when "Create a <noun>" and "This <noun>" name the same noun, whatever the digits, identifier and text |
| PlanChecker.Check | Agents/Checker.py:71-78 | earlier issues are kept; one issue is appended per rejected line, with its index and text, in line order; the verdict is true exactly when every line is accepted, which is exactly when nothing was appended |
| PlanChecker.ReportsUnique | Agents/Checker.py:74-77 | the issues a check files are determined by the lines alone |
| Messages.SetContent | utils/util.py:94-95 | the content is replaced and the agents are unchanged |
| Messages.SetSender | utils/util.py:97-98 | the sender is replaced and the receiver and content are unchanged |
| Messages.SetReceiver | utils/util.py:99-100 | the receiver is replaced and the sender and content are unchanged |
| Messages.SettersAgree | utils/util.py:91-106 | setting what a getter returned changes nothing, and setters of different fields commute |
| Messages.Push | utils/util.py:114-115 | the message joins at the back; the others stay in order |
| Messages.Pop | utils/util.py:117-120 | an empty queue gives None and stays unchanged; otherwise the front message leaves and is returned |
| Messages.PopPush | utils/util.py:114-120 | on a non-empty queue, push and pop commute |
| Messages.Drain | utils/util.py:117-120 | popping until None yields the messages in push order and leaves the queue empty |
| Messages.CreateQAExample | utils/util.py:22-23 | the question and answer are the dictionary's `Q` and `A` entries, None where the key is absent |
| Messages.ShowQA | utils/util.py:29-30 | the text is `Q:`, the question (or `None`), a newline, `A:`, and the answer (or `None`), each at its place |
| Messages.ReadShownQA | utils/util.py:29-30 | a question without a newline and its answer can be read back from their text |
| Messages.CreateQAExamples | utils/util.py:47-51 | one example per dictionary, in order |
| Messages.GetExample | utils/util.py:66-67 | Python indexing into the examples, negative indices from the end, `IndexError` as None |
| Messages.SetExample | utils/util.py:69-70 | only the addressed example changes; defined exactly for Python-valid indices |
| Messages.SetThenGet | utils/util.py:66-70 | an example set at an index is what is then got there |
| Messages.DelExample | utils/util.py:72-73 | exactly the addressed example leaves; re-inserting it restores the list |
| Messages.AddThenDelete | utils/util.py:72-76 | deleting the example just added gives the examples back |
| Messages.AddExample | utils/util.py:75-76 | the example goes last; earlier examples are unchanged |
| Messages.ShowQAs | utils/util.py:63-64 | no examples show as the empty text, and one example as its own text |
| Messages.ShowQAsAdd | utils/util.py:63-64 | adding an example appends a blank line and its text to the shown examples |
| Config.WithoutSource | llm/config.py:115 | the kept entries are exactly those whose source differs |
| Config.SetConfigValue | llm/config.py:99-117 | only the named item changes; its value is the new one; its type is set only on creation; its last source entry is the new one, after the old entries from other sources, which are the filtered old history |
| Config.WithoutSourceKeepsOrder | llm/config.py:115 | entries from other sources keep their relative order |
| Config.SetKeepsOrder | llm/config.py:111-117 | a known key's entries from other sources stay in their relative order, before the new entry |
| Config.SetKeepsOnePerSource | llm/config.py:99-117 | setting a value keeps the item's sources at one entry per source |
| Config.SetConfigValueIdempotent | llm/config.py:99-117 | setting the same value from the same source twice is setting it once |
| Config.EnvKey | llm/config.py:84 | the environment key has the name's length, no dot and no lower-case letter, and upper-cases every character but the dots |
| Config.EnvKeyOfModuleKey | llm/config.py:82-84 | `llm.api_base` is read from `LLM_API_BASE` |
| Config.Resolve | llm/config.py:70-97 | the only failure is "not found", and it happens exactly when neither the in-memory store (a non-None value), the environment, the JSON file nor the default (non-None) offers a value |
| Config.ResolveFirst | llm/config.py:76-95 | the value found is the one offered by the highest-precedence store that offers one: memory (non-None values), environment (null words giving None), JSON file, default (non-None) |
| Config.ResolveNotFound | llm/config.py:94-97 | lookup fails with "not found" exactly when no store offers a value |
| Config.GetConfigValue | llm/config.py:70-97 | every lookup first records the default under the name, as the default source's entry; the stores are untouched |
| Config.UnsetResolvesToDefault | llm/config.py:94-97 | a name set nowhere resolves to its default, or fails when the default is None |
| Config.ToBoolString | llm/config.py:125-133 | a string converts exactly when its lower-case form is one of the six boolean words, to that word's truth value |
| Config.ToBoolIgnoresCase | llm/config.py:127-128 | upper-casing a string does not change whether or to what it converts |
| Config.ToBoolRendered | llm/config.py:125-128 | a boolean rendered as text converts back to itself |
| Config.ToBool | llm/config.py:124-133 | a boolean is itself; None and lists are rejected; a string converts exactly when its lower-case form is a boolean word; an int converts exactly when it is 0 or 1, to False or True; a failure names the value |
| Config.GetBool | llm/config.py:119-133 | succeeds exactly when lookup succeeds and the value converts; the stores are untouched |
| Config.ToStr | llm/config.py:135-141 | fails exactly on None without a default, or on a list; a string comes back unchanged, a bool as `True`/`False`, an int as its decimal, and None with a default as `None` |
| Config.GetStr | llm/config.py:135-141 | succeeds exactly when lookup succeeds and the value converts |
| Config.GetStrDefault | llm/config.py:135-141 | a string set nowhere reads as its default |
| Config.GetStrNullEnv | llm/config.py:84-88 | a null word in the environment wins over the default: the string read is `None` |
| Config.ToEnum | llm/config.py:150-152 | a value is accepted exactly when it is one of the options, and then it is returned |
| Config.GetEnum | llm/config.py:143-152 | any result is one of the options; succeeds exactly when lookup succeeds and the value is an option |
| Config.SplitCommaJoin | llm/config.py:159 | splitting on commas with surrounding blanks gives back the items joined by commas, for items without commas or edge blanks |
| Config.ToList | llm/config.py:156-163 | rejected exactly for booleans and integers; a list comes back unchanged; None is the empty list; a string is its comma split, a non-empty list of comma-free parts |
| Config.SplitCommaBlanks | llm/config.py:159 | the white space on both sides of a comma belongs to the separator: a part not ending in white space, blanks, a comma and blanks are followed by the split of the rest |
| Config.SplitCommaPair | llm/config.py:159 | two items with any blanks around the comma between them split into exactly those two items |
| Config.SplitCommaSpaced | llm/config.py:159 | `p , q` splits into `p` and `q` |
| Config.GetList | llm/config.py:154-163 | succeeds exactly when lookup succeeds and the value converts |
| Config.GetListFromEnv | llm/config.py:154-163 | a comma-joined environment value reads back as its items |
| Config.ConfigKey | llm/config.py:269-270 | an unnamed module uses the key as is; a named one prefixes the name and a dot |
| Config.ConfigKeyInjective | llm/config.py:269-270 | different keys of one module never collide |
| Config.ApiStage | llm/config.py:300-309 | a configured API type is one of openai, azure and azure_ad |
| Config.ApiKeyRequired | llm/config.py:306-309 | with no API key configured, the key reads as empty for azure_ad and is an error otherwise |
| Config.NothingConfigured | llm/config.py:300-309 | with nothing configured, configuration stops at the missing API key |
| Config.ApiTypeDefault | llm/config.py:300-304 | with no API type configured, it reads as openai |
| Config.BackupModelIsModel | llm/config.py:311-312 | with no backup model configured, the backup model is the model |
| Config.AadStage | llm/config.py:316-335 | a configured AAD login mode is device_login or aad_app |
| Config.AadClientStep | llm/config.py:336-348 | the client stage keeps the login mode it was given |
| Config.Configure | llm/config.py:298-357 | a successful configuration has a response format of json_object, text or None |
| Cli.RoleName | cli/Cli.py:4-5 | every role is written as a non-empty word of lower-case letters and underscores |
| Cli.RoleNameInjective | cli/Cli.py:4-5 | different roles are written differently |
| Cli.ShowItemInjective | cli/Cli.py:25-26 | an item's text determines the item |
| Cli.ShowItem | cli/Cli.py:25-26 | the text is the role's name, ` >>> `, then the content, each at its place |
| Cli.ItemNoLineBreak | cli/Cli.py:25-26 | an item whose content has no line break is shown on one line |
| Cli.AppendItem | cli/Cli.py:34-35 | the item goes last; earlier items are unchanged |
| Cli.GetItem | cli/Cli.py:40-41 | Python indexing into the history, `IndexError` as None |
| Cli.DelItem | cli/Cli.py:37-38 | exactly the addressed item leaves, and the others keep their order |
| Cli.AppendThenDelete | cli/Cli.py:34-41 | the appended item is at index -1, and deleting it gives the history back |
| Cli.ShowHistory | cli/Cli.py:46-47 | the transcript opens with a rule of twenty `=` and a line break, and closes with a line break and the rule; an empty history shows one empty line between the rules |
| Cli.ShowHistoryLines | cli/Cli.py:46-47 | when no content holds a line break, the transcript's lines are a rule, each item on its own line (or one empty line), and a rule |
| Cli.Prompt | cli/Cli.py:61-63 | one item, from the session's role and with the message, is added at the end; nothing else changes |
| Cli.Input | cli/Cli.py:65-67 | the line read becomes one item from the human at the end; nothing else changes |
| Cli.PromptShown | cli/Cli.py:61-63 | a prompt adds its item's text as one more line of the transcript |

## Left out

- Console I/O and printing: `Cli.prompt` prints and `Cli.input` reads a
  line. Only their effect on the history is modelled, and the line read
  is a parameter.
- The process environment is a parameter (`Config.Env`). The JSON file
  store is a map given to the source; `_load_config_from_json`, its
  existence assert and JSON parsing are not modelled.
- `get_float`, `get_int`, `get_path` and path normalisation. The same
  goes for `aad_token_cache_full_path`, which is an `os.path.join` onto the
  working directory. JSON float and dictionary values are not modelled.
- Config.ToStr: `str()` of a list value (Python's list repr) is not
  modelled; the model reports a list where a string is expected as an
  invalid-string error.
- Config.ToEnum: Python's `1 == True` equality between option values is
  not modelled. Options are strings or None, compared exactly.
- Character classes: `\w`, `\d` and `\s` and `lower`/`upper` are taken over
  ASCII (plus Python's whitespace set for `\s` and `strip`). Unicode word
  characters, digits and case mappings are not modelled.
- StepParser.ExtractStepLine: stated only for lines whose trailing text
  does not end in whitespace, so that `strip` leaves the line unchanged.
- `CodeEntity` edge and child lists that are `None` are modelled as empty
  lists. So `get_in_degree` on an entity without in-edges gives 0 where
  the source fails on `len(None)`.
- TopSort.TopSortEntities: the `TypeError`s that `None` edge lists raise
  are not modelled. The source fails at utils/DependencyGraph.py:151
  (through `len(None)` at line 71) for any entity whose in-list was never
  set, and at line 158 when a dequeued entity's out-list is `None`. Every
  graph built from freshly parsed entities has such lists, so there the
  source raises where the model returns an order.
- TopSort.TopSortEntities: `Valid` requires every edge to point into the
  entity list. An edge to an object outside the list makes the source
  raise `KeyError` at utils/DependencyGraph.py:160; that error path is not
  modelled.
- TopSort.TopSortEntities: an entity is a list position, so one object
  appended twice by `append_entity` becomes two entities here. In the
  source, `in_degrees` is keyed by the object, so such an object with
  in-degree 0 is queued and emitted twice, and its targets are
  decremented twice. The duplicate-free promise holds for the model, not
  for such a list.
- Message senders and receivers are agent numbers. `Agent`, `LLMApi`,
  `CodePlanner` and `Checker.revise` (which calls the LLM) are not part of
  this model.
- `create_graph_from_json` has no body in the source, and
  `CodeEntity.set_` at utils/DependencyGraph.py:106 is unfinished
  syntax; neither is modelled.
- `graph_visualize` draws with Graphviz and writes a file; not modelled.
- `YamlReader`, `Logger` and the file-existence and `.yaml` asserts of
  `create_entities_from_steps`. The steps are given as a list of strings.
- The `__iter__`/`__next__` pairs of `IssueReport`, `QAExamples` and
  `ChatHistory` are not modelled, nor `IssueReport.__str__`. The plain
  getters and setters are field reads and record updates.
- TopSort.TopSortEntities: the reference function `Kahn.KahnOrder` runs on
  fuel equal to the number of entities. This is enough because each
  entity is dequeued at most once; the method's loop itself has no bound.

=== FILE: cli.dfy ===
/** The chat transcript a console session keeps: `ChatItem`, `ChatHistory`
    and the history side of `Cli.prompt` and `Cli.input`. What the
    console prints and reads is outside the model; the line `input` reads
    is a parameter. */
module Cli {
  import opened Wrappers
  import opened Text
  import PyList

  /** `RoleType` */
  datatype Role =
    | CodeExecutor | CodeGenerator | CodeIntegrator | CodePlanner
    | CodeReviewer | TestCaseGenerator | FormatChecker | Human

  /** The role as it is written. */
  function RoleName(r: Role): (w: string)
    ensures |w| > 0 && forall k :: 0 <= k < |w| ==> IsRoleChar(w[k])
  {
    match r
    case CodeExecutor => "code_executor"
    case CodeGenerator => "code_generator"
    case CodeIntegrator => "code_integrator"
    case CodePlanner => "code_planner"
    case CodeReviewer => "code_reviewer"
    case TestCaseGenerator => "test_case_generator"
    case FormatChecker => "format_checker"
    case Human => "human"
  }

  /** The letters role names are written in. */
  predicate IsRoleChar(c: char) {
    'a' <= c <= 'z' || c == '_'
  }

  /** `ChatItem` */
  datatype ChatItem = ChatItem(role: Role, content: string)

  /** `ChatItem.__str__`: the role, ` >>> `, the content. */
  function ShowItem(item: ChatItem): (s: string)
    ensures var n := |RoleName(item.role)|;
      && |s| == n + 5 + |item.content|
      && s[..n] == RoleName(item.role) && s[n..n + 5] == " >>> " && s[n + 5..] == item.content
  {
    var w := RoleName(item.role);
    var s := w + " >>> " + item.content;
    assert s == w + (" >>> " + item.content);
    s
  }

  /** Different roles are written differently. */
  lemma RoleNameInjective(a: Role, b: Role)
    requires RoleName(a) == RoleName(b)
    ensures a == b
  {
  }

  /** An item's text gives the item back: the role ends at the first
      space, and the content follows the separator. */
  lemma ShowItemInjective(x: ChatItem, y: ChatItem)
    requires ShowItem(x) == ShowItem(y)
    ensures x == y
  {
    ReadItem(x);
    ReadItem(y);
    RoleNameInjective(x.role, y.role);
  }

  /** Where the parts of an item's text are. */
  lemma ReadItem(x: ChatItem)
    ensures var s := ShowItem(x); var n := |RoleName(x.role)|;
      && RunEnd(s, 0, NotSpaceChar) == n && n + 5 <= |s|
      && s[..n] == RoleName(x.role) && s[n + 5..] == x.content
  {
    var s := ShowItem(x);
    var w := RoleName(x.role);
    assert s == w + (" >>> " + x.content);
    forall k | 0 <= k < |w|
      ensures w[k] != ' '
    {
      assert IsRoleChar(w[k]);
    }
    FirstSpace(s, w, " >>> " + x.content);
    Skip(s, 0, |w|, s[0..], w, " >>> " + x.content);
    Skip(s, |w|, |w| + 5, s[|w|..], " >>> ", x.content);
  }

  /** A word without spaces followed by a text starting with a space: the
      first space of the whole is where the word ends. */
  lemma FirstSpace(s: string, w: string, t: string)
    requires s == w + t && |t| > 0 && t[0] == ' '
    requires forall k :: 0 <= k < |w| ==> w[k] != ' '
    ensures RunEnd(s, 0, NotSpaceChar) == |w| && s[..|w|] == w
  {
    var p: char -> bool := NotSpaceChar;
    forall k | 0 <= k < |w|
      ensures p(w[k])
    {
    }
    RunPiece(s, 0, |w|, w, t, p);
    assert s[|w|] == t[0];
    RunEndUnique(s, 0, |w|, p);
  }

  predicate NotSpaceChar(c: char) {
    c != ' '
  }

  /** `ChatHistory` */
  datatype ChatHistory = ChatHistory(items: seq<ChatItem>)

  /** `__len__` */
  function Len(h: ChatHistory): nat {
    |h.items|
  }

  /** `append_item`: the item goes to the end. */
  function AppendItem(h: ChatHistory, item: ChatItem): (r: ChatHistory)
    ensures Len(r) == Len(h) + 1 && r.items[Len(h)] == item
    ensures r.items[..Len(h)] == h.items
  {
    ChatHistory(h.items + [item])
  }

  /** `get_item_by_index`, `IndexError` being None. */
  function GetItem(h: ChatHistory, index: int): (r: Option<ChatItem>)
    ensures r.Some? <==> -(Len(h) as int) <= index < Len(h)
    ensures 0 <= index < Len(h) ==> r == Some(h.items[index])
    ensures -(Len(h) as int) <= index < 0 ==> r == Some(h.items[Len(h) as int + index])
  {
    PyList.Get(h.items, index)
  }

  /** `del_item_by_index`: exactly the addressed item leaves and the others
      keep their order. */
  function DelItem(h: ChatHistory, index: int): (r: Option<ChatHistory>)
    ensures r.Some? <==> -(Len(h) as int) <= index < Len(h)
    ensures r.Some? ==> Len(r.value) == Len(h) - 1
    ensures r.Some? ==> var k := PyList.Normalize(Len(h), index).value;
      && (forall j :: 0 <= j < k ==> r.value.items[j] == h.items[j])
      && (forall j :: k <= j < Len(r.value) ==> r.value.items[j] == h.items[j + 1])
  {
    match PyList.Delete(h.items, index)
    case None => None
    case Some(s) => Some(ChatHistory(s))
  }

  /** Appending then deleting the last item gives the history back, and
      the appended item is the last one until then. */
  lemma AppendThenDelete(h: ChatHistory, item: ChatItem)
    ensures GetItem(AppendItem(h, item), -1) == Some(item)
    ensures DelItem(AppendItem(h, item), -1) == Some(h)
  {
    var a := AppendItem(h, item);
    var d := DelItem(a, -1).value;
    assert PyList.Normalize(Len(a), -1) == Some(Len(h));
    assert d.items == h.items;
  }

  /** The rule around the transcript: twenty `=`. */
  function Rule(): string {
    Repeat('=', 20)
  }

  /** The items' texts, in order. */
  function ShownItems(h: ChatHistory): (lines: seq<string>)
    ensures |lines| == Len(h)
    ensures forall i :: 0 <= i < Len(h) ==> lines[i] == ShowItem(h.items[i])
  {
    seq(|h.items|, i requires 0 <= i < |h.items| => ShowItem(h.items[i]))
  }

  /** `ChatHistory.__str__`: a rule, the items one per line, a rule. */
  function ShowHistory(h: ChatHistory): (s: string)
    ensures |s| >= 42 && s[..21] == Rule() + "\n" && s[|s| - 21..] == "\n" + Rule()
    ensures Len(h) == 0 ==> s == Rule() + "\n\n" + Rule()
  {
    Rule() + "\n" + Join("\n", ShownItems(h)) + "\n" + Rule()
  }

  /** The lines of the transcript: the rule, the items (or one empty line
      when there are none), the rule. */
  function TranscriptLines(h: ChatHistory): seq<string> {
    [Rule()] + (if Len(h) == 0 then [""] else ShownItems(h)) + [Rule()]
  }

  /** Joining a list framed by two extra lines is framing the join. */
  lemma JoinFramed(sep: string, a: string, mid: seq<string>, z: string)
    requires |mid| > 0
    ensures Join(sep, [a] + mid + [z]) == a + sep + Join(sep, mid) + sep + z
  {
    JoinAppend(sep, [a] + mid, z);
    assert ([a] + mid)[1..] == mid;
  }

  /** When no content holds a line break, splitting the transcript at its
      line breaks gives its lines back: each item on a line of its own,
      between the two rules. */
  lemma ShowHistoryLines(h: ChatHistory)
    requires forall i :: 0 <= i < Len(h) ==> NoLineBreak(h.items[i].content)
    ensures SplitLines(ShowHistory(h)) == TranscriptLines(h)
  {
    TranscriptJoin(h);
    TranscriptNoLineBreak(h);
    SplitLinesJoin(TranscriptLines(h));
  }

  /** The transcript is its lines joined by line breaks. */
  lemma TranscriptJoin(h: ChatHistory)
    ensures ShowHistory(h) == Join("\n", TranscriptLines(h))
  {
    var mid := if Len(h) == 0 then [""] else ShownItems(h);
    assert Join("\n", ShownItems(h)) == Join("\n", mid);
    JoinFramed("\n", Rule(), mid, Rule());
    assert TranscriptLines(h) == [Rule()] + mid + [Rule()];
  }

  /** No line of the transcript holds a line break when no content does. */
  lemma TranscriptNoLineBreak(h: ChatHistory)
    requires forall i :: 0 <= i < Len(h) ==> NoLineBreak(h.items[i].content)
    ensures forall j :: 0 <= j < |TranscriptLines(h)| ==> NoLineBreak(TranscriptLines(h)[j])
  {
    var lines := TranscriptLines(h);
    forall j | 0 <= j < |lines|
      ensures NoLineBreak(lines[j])
    {
      if 0 < j < |lines| - 1 && Len(h) > 0 {
        assert lines[j] == ShownItems(h)[j - 1] == ShowItem(h.items[j - 1]);
        ItemNoLineBreak(h.items[j - 1]);
      } else if Len(h) == 0 && j == 1 {
        assert lines[j] == "";
      } else {
        assert lines[j] == Rule();
      }
    }
  }

  /** An item whose content has no line break shows on one line. */
  lemma ItemNoLineBreak(item: ChatItem)
    requires NoLineBreak(item.content)
    ensures NoLineBreak(ShowItem(item))
  {
    var w := RoleName(item.role);
    var s := ShowItem(item);
    forall k | 0 <= k < |s|
      ensures !IsLineBreak(s[k])
    {
      if k < |w| {
        assert s[k] == w[k] && IsRoleChar(w[k]);
      } else if k >= |w| + 5 {
        assert s[k] == item.content[k - |w| - 5];
      }
    }
  }

  /** `Cli`: the role it speaks as and the history it writes to. */
  datatype Cli = Cli(role: Role, history: ChatHistory)

  /** `Cli.prompt`, history side: one item, from the session's role, with
      the message, at the end; nothing else changes. */
  function Prompt(c: Cli, msg: string): (r: Cli)
    ensures r.role == c.role && Len(r.history) == Len(c.history) + 1
    ensures GetItem(r.history, -1) == Some(ChatItem(c.role, msg))
    ensures r.history.items[..Len(c.history)] == c.history.items
  {
    Cli(c.role, AppendItem(c.history, ChatItem(c.role, msg)))
  }

  /** `Cli.input`, history side: the line read becomes one item from the
      human at the end. */
  function Input(c: Cli, line: string): (r: Cli)
    ensures r.role == c.role && Len(r.history) == Len(c.history) + 1
    ensures GetItem(r.history, -1) == Some(ChatItem(Human, line))
    ensures r.history.items[..Len(c.history)] == c.history.items
  {
    Cli(c.role, AppendItem(c.history, ChatItem(Human, line)))
  }

  /** A prompt adds one line to the transcript, after the earlier ones. */
  lemma PromptShown(c: Cli, msg: string)
    requires Len(c.history) > 0
    ensures Join("\n", ShownItems(Prompt(c, msg).history))
         == Join("\n", ShownItems(c.history)) + "\n" + ShowItem(ChatItem(c.role, msg))
  {
    var h := Prompt(c, msg).history;
    assert ShownItems(h) == ShownItems(c.history) + [ShowItem(ChatItem(c.role, msg))];
    JoinAppend("\n", ShownItems(c.history), ShowItem(ChatItem(c.role, msg)));
  }
}

=== FILE: codegraph.dfy ===
/** The entity model of the dependency graph: `CodeEntityType`, `Edge` and
    `CodeEntity`, with the edge and sub-entity bookkeeping of a
    `CodeEntity`.

    Python object identity becomes index identity: a `Graph` is an arena
    holding every `CodeEntity` (the graph's `entities` list) and every
    `Edge` object; an entity refers to edges by their position in
    `edges`, and an edge, a sub-entity or a parent refers to an entity by
    its position in `entities`. */
module CodeGraph {
  import opened Wrappers
  import PyList

  /** `CodeEntityType` */
  datatype Kind = Package | Class | Function

  type EntityId = nat
  type EdgeId = nat

  /** `Edge(from_entity, to_entity, desc)` */
  datatype Edge = Edge(from: EntityId, to: EntityId, desc: Option<string>)

  /** `CodeEntity`; an absent optional field is Python's `None`, and an
      absent edge or sub-entity list is the empty sequence. */
  datatype CodeEntity = CodeEntity(
    name: string,
    kind: Option<Kind>,
    definition: Option<string>,
    desc: Option<string>,
    body: Option<string>,
    subEntities: seq<EntityId>,
    inEdges: seq<EdgeId>,
    outEdges: seq<EdgeId>,
    parent: Option<EntityId>)

  /** An entity as `CodeEntity(entity_type=..., entity_name=..., code_desc=...,
      parent_code_entity=...)` creates it: no definition, body, edges or
      sub-entities. */
  function Unlinked(name: string, kind: Kind, desc: string, parent: Option<EntityId>): (e: CodeEntity)
    ensures e.name == name && e.kind == Some(kind) && e.desc == Some(desc) && e.parent == parent
    ensures e.definition.None? && e.body.None?
    ensures e.subEntities == [] && e.inEdges == [] && e.outEdges == []
  {
    CodeEntity(name, Some(kind), None, Some(desc), None, [], [], [], parent)
  }

  datatype Graph = Graph(entities: seq<CodeEntity>, edges: seq<Edge>)

  predicate ValidEntity(g: Graph, e: CodeEntity) {
    && (forall k :: 0 <= k < |e.inEdges| ==> e.inEdges[k] < |g.edges|)
    && (forall k :: 0 <= k < |e.outEdges| ==> e.outEdges[k] < |g.edges|)
    && (forall k :: 0 <= k < |e.subEntities| ==> e.subEntities[k] < |g.entities|)
    && (e.parent.Some? ==> e.parent.value < |g.entities|)
  }

  /** Every reference points at an object of the arena. */
  predicate Valid(g: Graph) {
    && (forall k :: 0 <= k < |g.edges| ==> g.edges[k].from < |g.entities| && g.edges[k].to < |g.entities|)
    && (forall i :: 0 <= i < |g.entities| ==> ValidEntity(g, g.entities[i]))
  }

  /** Only entity `i` may differ between `g` and `r`, and the edge arena is
      the same. */
  predicate OthersUnchanged(g: Graph, r: Graph, i: EntityId) {
    && |r.entities| == |g.entities|
    && r.edges == g.edges
    && forall j :: 0 <= j < |g.entities| && j != i ==> r.entities[j] == g.entities[j]
  }

  /** `get_in_degree`: the length of the in-edge list. */
  function InDegree(g: Graph, i: EntityId): nat
    requires i < |g.entities|
  {
    |g.entities[i].inEdges|
  }

  /** `add_in_edge`: the edge goes to the end of the in-edge list (which is
      created when it was empty), so the in-degree grows by one. */
  function AddInEdge(g: Graph, i: EntityId, edge: EdgeId): (r: Graph)
    requires i < |g.entities|
    ensures OthersUnchanged(g, r, i)
    ensures InDegree(r, i) == InDegree(g, i) + 1
    ensures r.entities[i].inEdges[..InDegree(g, i)] == g.entities[i].inEdges
    ensures r.entities[i].inEdges[InDegree(g, i)] == edge
    ensures r.entities[i].outEdges == g.entities[i].outEdges
    ensures Valid(g) && edge < |g.edges| ==> Valid(r)
  {
    var e := g.entities[i];
    g.(entities := g.entities[i := e.(inEdges := e.inEdges + [edge])])
  }

  /** `add_out_edge`: the edge goes to the end of the out-edge list. */
  function AddOutEdge(g: Graph, i: EntityId, edge: EdgeId): (r: Graph)
    requires i < |g.entities|
    ensures OthersUnchanged(g, r, i)
    ensures |r.entities[i].outEdges| == |g.entities[i].outEdges| + 1
    ensures r.entities[i].outEdges[..|g.entities[i].outEdges|] == g.entities[i].outEdges
    ensures r.entities[i].outEdges[|g.entities[i].outEdges|] == edge
    ensures r.entities[i].inEdges == g.entities[i].inEdges
    ensures Valid(g) && edge < |g.edges| ==> Valid(r)
  {
    var e := g.entities[i];
    g.(entities := g.entities[i := e.(outEdges := e.outEdges + [edge])])
  }

  /** `add_to_entity`: a fresh `Edge(self, to)` is recorded on `self`'s
      out-edges only; the target's in-edges are left alone. */
  function AddToEntity(g: Graph, i: EntityId, to: EntityId): (r: Graph)
    requires i < |g.entities|
    ensures |r.entities| == |g.entities|
    ensures r.edges == g.edges + [Edge(i, to, None)]
    ensures forall j :: 0 <= j < |g.entities| && j != i ==> r.entities[j] == g.entities[j]
    ensures r.entities[i].outEdges == g.entities[i].outEdges + [|g.edges|]
    ensures r.entities[i].inEdges == g.entities[i].inEdges
    ensures Valid(g) && to < |g.entities| ==> Valid(r)
  {
    var e := g.entities[i];
    Graph(g.entities[i := e.(outEdges := e.outEdges + [|g.edges|])], g.edges + [Edge(i, to, None)])
  }

  /** `add_from_entity`: a fresh `Edge(from, self)` is recorded on `self`'s
      in-edges only; the source's out-edges are left alone. */
  function AddFromEntity(g: Graph, i: EntityId, from: EntityId): (r: Graph)
    requires i < |g.entities|
    ensures |r.entities| == |g.entities|
    ensures r.edges == g.edges + [Edge(from, i, None)]
    ensures forall j :: 0 <= j < |g.entities| && j != i ==> r.entities[j] == g.entities[j]
    ensures r.entities[i].inEdges == g.entities[i].inEdges + [|g.edges|]
    ensures r.entities[i].outEdges == g.entities[i].outEdges
    ensures Valid(g) && from < |g.entities| ==> Valid(r)
  {
    var e := g.entities[i];
    Graph(g.entities[i := e.(inEdges := e.inEdges + [|g.edges|])], g.edges + [Edge(from, i, None)])
  }

  /** `get_to_entity_by_index`: the target of the addressed out-edge, or
      `IndexError` (None). */
  function GetToEntityByIndex(g: Graph, i: EntityId, index: int): (r: Option<EntityId>)
    requires Valid(g) && i < |g.entities|
    ensures r.Some? <==> -|g.entities[i].outEdges| <= index < |g.entities[i].outEdges|
    ensures r.Some? ==> r.value < |g.entities|
    ensures r.Some? ==> r.value == g.edges[g.entities[i].outEdges[PyList.Normalize(|g.entities[i].outEdges|, index).value]].to
  {
    match PyList.Get(g.entities[i].outEdges, index)
    case None => None
    case Some(edge) => Some(g.edges[edge].to)
  }

  /** `get_from_entity_by_index`: the source of the addressed in-edge. */
  function GetFromEntityByIndex(g: Graph, i: EntityId, index: int): (r: Option<EntityId>)
    requires Valid(g) && i < |g.entities|
    ensures r.Some? <==> -|g.entities[i].inEdges| <= index < |g.entities[i].inEdges|
    ensures r.Some? ==> r.value < |g.entities|
    ensures r.Some? ==> r.value == g.edges[g.entities[i].inEdges[PyList.Normalize(|g.entities[i].inEdges|, index).value]].from
  {
    match PyList.Get(g.entities[i].inEdges, index)
    case None => None
    case Some(edge) => Some(g.edges[edge].from)
  }

  /** `del_to_entity_by_index`: the addressed out-edge leaves this entity's
      list; the edge object and the target are untouched. */
  function DelToEntityByIndex(g: Graph, i: EntityId, index: int): (r: Option<Graph>)
    requires i < |g.entities|
    ensures r.Some? <==> -|g.entities[i].outEdges| <= index < |g.entities[i].outEdges|
    ensures r.Some? ==> (
      && OthersUnchanged(g, r.value, i)
      && |r.value.entities[i].outEdges| == |g.entities[i].outEdges| - 1
      && (var k := PyList.Normalize(|g.entities[i].outEdges|, index).value;
          PyList.Insert(r.value.entities[i].outEdges, k, g.entities[i].outEdges[k]) == g.entities[i].outEdges)
      && r.value.entities[i].inEdges == g.entities[i].inEdges
      && (Valid(g) ==> Valid(r.value)))
  {
    var e := g.entities[i];
    match PyList.Delete(e.outEdges, index)
    case None => None
    case Some(outs) =>
      PyList.DeleteInsertRoundTrip(e.outEdges, index);
      Some(g.(entities := g.entities[i := e.(outEdges := outs)]))
  }

  /** `del_from_entity_by_index`: the addressed in-edge leaves this entity's
      list, so the in-degree drops by one. */
  function DelFromEntityByIndex(g: Graph, i: EntityId, index: int): (r: Option<Graph>)
    requires i < |g.entities|
    ensures r.Some? <==> -(InDegree(g, i) as int) <= index < InDegree(g, i)
    ensures r.Some? ==> (
      && OthersUnchanged(g, r.value, i)
      && InDegree(r.value, i) == InDegree(g, i) - 1
      && (var k := PyList.Normalize(|g.entities[i].inEdges|, index).value;
          PyList.Insert(r.value.entities[i].inEdges, k, g.entities[i].inEdges[k]) == g.entities[i].inEdges)
      && r.value.entities[i].outEdges == g.entities[i].outEdges
      && (Valid(g) ==> Valid(r.value)))
  {
    var e := g.entities[i];
    match PyList.Delete(e.inEdges, index)
    case None => None
    case Some(ins) =>
      PyList.DeleteInsertRoundTrip(e.inEdges, index);
      Some(g.(entities := g.entities[i := e.(inEdges := ins)]))
  }

  /** `add_sub_entity`: the child goes to the end of the sub-entity list;
      the child's own record (its parent field included) is untouched. */
  function AddSubEntity(g: Graph, i: EntityId, child: EntityId): (r: Graph)
    requires i < |g.entities|
    ensures OthersUnchanged(g, r, i)
    ensures r.entities[i].subEntities == g.entities[i].subEntities + [child]
    ensures r.entities[i].inEdges == g.entities[i].inEdges
    ensures r.entities[i].outEdges == g.entities[i].outEdges
    ensures Valid(g) && child < |g.entities| ==> Valid(r)
  {
    var e := g.entities[i];
    g.(entities := g.entities[i := e.(subEntities := e.subEntities + [child])])
  }

  /** `del lst[-1]` after `lst.append(x)` gives the list back. */
  lemma DeleteLast(s: seq<EdgeId>, x: EdgeId)
    ensures PyList.Delete(s + [x], -1) == Some(s)
  {
    var t := s + [x];
    assert PyList.Normalize(|t|, -1) == Some(|s|);
    var r := PyList.Delete(t, -1).value;
    assert forall j :: 0 <= j < |s| ==> r[j] == t[j];
    assert r == s;
  }

  /** Deleting the last out-edge undoes `add_to_entity` on the entities;
      only the (now unreferenced) edge object stays in the arena. */
  lemma AddToEntityUndo(g: Graph, i: EntityId, to: EntityId)
    requires i < |g.entities|
    ensures DelToEntityByIndex(AddToEntity(g, i, to), i, -1) == Some(Graph(g.entities, g.edges + [Edge(i, to, None)]))
  {
    var r := AddToEntity(g, i, to);
    var e := g.entities[i];
    DeleteLast(e.outEdges, |g.edges|);
    assert r.entities[i].(outEdges := e.outEdges) == e;
    assert r.entities[i := e] == g.entities;
  }

  /** Deleting the last in-edge undoes `add_from_entity` on the entities. */
  lemma AddFromEntityUndo(g: Graph, i: EntityId, from: EntityId)
    requires i < |g.entities|
    ensures DelFromEntityByIndex(AddFromEntity(g, i, from), i, -1) == Some(Graph(g.entities, g.edges + [Edge(from, i, None)]))
  {
    var r := AddFromEntity(g, i, from);
    var e := g.entities[i];
    DeleteLast(e.inEdges, |g.edges|);
    assert r.entities[i].(inEdges := e.inEdges) == e;
    assert r.entities[i := e] == g.entities;
  }

  /** The entity just linked by `add_to_entity` is the last target read
      back by `get_to_entity_by_index(-1)`. */
  lemma AddToEntityThenGet(g: Graph, i: EntityId, to: EntityId)
    requires Valid(g) && i < |g.entities| && to < |g.entities|
    ensures GetToEntityByIndex(AddToEntity(g, i, to), i, -1) == Some(to)
  {
    var r := AddToEntity(g, i, to);
    assert PyList.Normalize(|r.entities[i].outEdges|, -1) == Some(|g.entities[i].outEdges|);
  }

  /** The entity just linked by `add_from_entity` is the last source read
      back by `get_from_entity_by_index(-1)`. */
  lemma AddFromEntityThenGet(g: Graph, i: EntityId, from: EntityId)
    requires Valid(g) && i < |g.entities| && from < |g.entities|
    ensures GetFromEntityByIndex(AddFromEntity(g, i, from), i, -1) == Some(from)
  {
    var r := AddFromEntity(g, i, from);
    assert PyList.Normalize(|r.entities[i].inEdges|, -1) == Some(|g.entities[i].inEdges|);
  }

  /** `get_in_degree` counts the in-list only: `add_from_entity` raises
      the entity's in-degree by one, while `add_to_entity` on another
      entity, even one pointing at this entity, leaves it unchanged. */
  lemma InDegreeLinks(g: Graph, i: EntityId, j: EntityId, x: EntityId)
    requires i < |g.entities| && j < |g.entities| && j != i
    ensures InDegree(AddFromEntity(g, i, x), i) == InDegree(g, i) + 1
    ensures InDegree(AddToEntity(g, j, i), i) == InDegree(g, i)
    ensures InDegree(AddToEntity(g, i, x), i) == InDegree(g, i)
  {
  }
}

=== FILE: config.dfy ===
/** `ConfigSource`: where a configuration value comes from, and how the
    typed getters turn it into a bool, a string, an enum member or a list.
    A value is looked up, in order of precedence, in the in-memory store,
    the process environment, the JSON file and the caller's default; every
    lookup first records the default in the source's history. The
    environment is a parameter: `os.environ` is read, never written. */
module Config {
  import opened Wrappers
  import opened Text

  /** A configuration value, as far as the getters tell kinds apart. */
  datatype Value =
    | NoneValue
    | BoolValue(b: bool)
    | IntValue(i: int)
    | StrValue(s: string)
    | ListValue(items: seq<string>)

  /** `ConfigValueType` */
  datatype ValueType = StrType | IntType | FloatType | BoolType | ListType | EnumType | PathType

  /** `ConfigSourceType` */
  datatype SourceType = EnvSource | JsonSource | AppSource | DefaultSource

  /** `ConfigSourceValue` */
  datatype SourceValue = SourceValue(source: SourceType, value: Value)

  /** `ConfigItem`: the latest value of a key and, per source, the last
      value that source gave it. */
  datatype ConfigItem = ConfigItem(name: string, value: Value, valueType: ValueType, sources: seq<SourceValue>)

  /** `ConfigSource`: the recorded items, the in-memory store (which may
      be absent) and the contents of the JSON file. */
  datatype ConfigSource = ConfigSource(
    config: map<string, ConfigItem>,
    inMemory: Option<map<string, Value>>,
    jsonStore: map<string, Value>)

  /** The `ValueError`s the getters raise. */
  datatype ConfigError =
    | NotFound(name: string)
    | InvalidBool(value: Value)
    | InvalidStr(value: Value)
    | InvalidEnum(value: Value)
    | InvalidList(value: Value)

  /** The environment: `os.environ`. */
  type Env = map<string, string>

  // ---------------------------------------------------------------------
  // The history of a key: `set_config_value`
  // ---------------------------------------------------------------------

  /** The entries of `sources` not given by `source`, in their order. */
  function WithoutSource(sources: seq<SourceValue>, source: SourceType): (r: seq<SourceValue>)
    ensures forall x :: x in r <==> x in sources && x.source != source
  {
    if sources == [] then []
    else (if sources[0].source == source then [] else [sources[0]]) + WithoutSource(sources[1..], source)
  }

  /** Removing a source's entries from two lists one after the other is
      removing them from each: the remaining entries keep their order. */
  lemma {:induction false} WithoutSourceConcat(a: seq<SourceValue>, b: seq<SourceValue>, source: SourceType)
    ensures WithoutSource(a + b, source) == WithoutSource(a, source) + WithoutSource(b, source)
  {
    if a != [] {
      WithoutSourceConcat(a[1..], b, source);
      WithoutSourceConcatStep(a, b, source);
    } else {
      assert a + b == b;
    }
  }

  /** The inductive step of `WithoutSourceConcat`: the first entry of `a`
      is kept or dropped alike on both sides. */
  lemma WithoutSourceConcatStep(a: seq<SourceValue>, b: seq<SourceValue>, source: SourceType)
    requires a != []
    requires WithoutSource(a[1..] + b, source) == WithoutSource(a[1..], source) + WithoutSource(b, source)
    ensures WithoutSource(a + b, source) == WithoutSource(a, source) + WithoutSource(b, source)
  {
    var head := if a[0].source == source then [] else [a[0]];
    ConcatTail(a, b);
    WithoutSourceHead(a + b, source);
    WithoutSourceHead(a, source);
    SeqAssoc(head, WithoutSource(a[1..], source), WithoutSource(b, source));
  }

  /** `WithoutSource` looks at the first entry, then at the rest. */
  lemma WithoutSourceHead(s: seq<SourceValue>, source: SourceType)
    requires s != []
    ensures WithoutSource(s, source) == (if s[0].source == source then [] else [s[0]]) + WithoutSource(s[1..], source)
  {
  }

  /** A non-empty list before another starts the same, and its tail goes
      before the other. */
  lemma ConcatTail<T>(a: seq<T>, b: seq<T>)
    requires a != []
    ensures (a + b)[0] == a[0] && (a + b)[1..] == a[1..] + b
  {
  }

  /** Concatenation is associative. */
  lemma SeqAssoc<T>(x: seq<T>, y: seq<T>, z: seq<T>)
    ensures x + (y + z) == (x + y) + z
  {
  }

  /** `a` occurs in `w` before `b` does. */
  ghost predicate Before<T>(w: seq<T>, a: T, b: T) {
    exists i, j :: 0 <= i < j < |w| && w[i] == a && w[j] == b
  }

  /** The entries `WithoutSource` keeps stay in their relative order. */
  lemma {:induction false} WithoutSourceKeepsOrder(sources: seq<SourceValue>, source: SourceType, k: nat, l: nat)
    requires k < l < |sources| && sources[k].source != source && sources[l].source != source
    ensures Before(WithoutSource(sources, source), sources[k], sources[l])
    decreases k
  {
    var tail := WithoutSource(sources[1..], source);
    WithoutSourceHead(sources, source);
    assert sources[1..][l - 1] == sources[l];
    if k == 0 {
      assert sources[l] in tail;
      BeforeHead(sources[0], tail, sources[l]);
    } else {
      assert sources[1..][k - 1] == sources[k];
      WithoutSourceKeepsOrder(sources[1..], source, k - 1, l - 1);
      if sources[0].source != source {
        BeforeCons(sources[0], tail, sources[k], sources[l]);
      } else {
        assert WithoutSource(sources, source) == tail;
      }
    }
  }

  /** An element goes before everything in the list it heads, */
  lemma BeforeHead<T>(x: T, tail: seq<T>, b: T)
    requires b in tail
    ensures Before([x] + tail, x, b)
  {
    var j :| 0 <= j < |tail| && tail[j] == b;
    assert ([x] + tail)[0] == x && ([x] + tail)[j + 1] == b;
  }

  /** and putting an element in front keeps the order of the rest. */
  lemma BeforeCons<T>(x: T, tail: seq<T>, a: T, b: T)
    requires Before(tail, a, b)
    ensures Before([x] + tail, a, b)
  {
    var i, j :| 0 <= i < j < |tail| && tail[i] == a && tail[j] == b;
    assert ([x] + tail)[i + 1] == a && ([x] + tail)[j + 1] == b;
  }

  /** `set_config_value` keeps the other sources' entries of a known key
      in their relative order, before the new one. */
  lemma SetKeepsOrder(c: ConfigSource, name: string, t: ValueType, value: Value, source: SourceType, k: nat, l: nat)
    requires name in c.config && k < l < |c.config[name].sources|
    requires c.config[name].sources[k].source != source && c.config[name].sources[l].source != source
    ensures var s := SetConfigValue(c, name, t, value, source).config[name].sources;
      Before(s[..|s| - 1], c.config[name].sources[k], c.config[name].sources[l])
  {
    WithoutSourceKeepsOrder(c.config[name].sources, source, k, l);
  }

  /** No two entries of a history come from the same source. */
  predicate OnePerSource(sources: seq<SourceValue>) {
    forall k, l :: 0 <= k < l < |sources| ==> sources[k].source != sources[l].source
  }

  /** `set_config_value`: the key takes the new value; its history keeps
      one entry per source, the one for `source` moving to the end. A key
      seen for the first time gets the type given here, a known key keeps
      its type. */
  function SetConfigValue(c: ConfigSource, name: string, t: ValueType, value: Value, source: SourceType): (r: ConfigSource)
    ensures r.inMemory == c.inMemory && r.jsonStore == c.jsonStore
    ensures r.config.Keys == c.config.Keys + {name}
    ensures forall n :: n in c.config && n != name ==> r.config[n] == c.config[n]
    ensures r.config[name].value == value
    ensures r.config[name].valueType == if name in c.config then c.config[name].valueType else t
    ensures var s := r.config[name].sources;
      && |s| > 0 && s[|s| - 1] == SourceValue(source, value)
      && forall x :: x in s[..|s| - 1] <==> (name in c.config && x in c.config[name].sources && x.source != source)
    ensures name in c.config ==> var s := r.config[name].sources;
      s[..|s| - 1] == WithoutSource(c.config[name].sources, source)
  {
    if name !in c.config then
      c.(config := c.config[name := ConfigItem(name, value, t, [SourceValue(source, value)])])
    else
      var item := c.config[name];
      var sources := WithoutSource(item.sources, source) + [SourceValue(source, value)];
      assert sources[..|sources| - 1] == WithoutSource(item.sources, source);
      c.(config := c.config[name := item.(value := value, sources := sources)])
  }

  /** Dropping a source's entries keeps a history with one entry per
      source so. */
  lemma {:induction false} WithoutSourceOnePerSource(sources: seq<SourceValue>, source: SourceType)
    requires OnePerSource(sources)
    ensures OnePerSource(WithoutSource(sources, source))
  {
    if sources != [] {
      var tail := WithoutSource(sources[1..], source);
      WithoutSourceOnePerSource(sources[1..], source);
      if sources[0].source != source {
        forall x | x in tail
          ensures x.source != sources[0].source
        {
          var j :| 0 <= j < |sources[1..]| && sources[1..][j] == x;
          assert sources[j + 1] == x;
        }
        var w := [sources[0]] + tail;
        forall k, l | 0 <= k < l < |w|
          ensures w[k].source != w[l].source
        {
          assert w[l] == tail[l - 1];
          if k > 0 {
            assert w[k] == tail[k - 1];
          }
        }
      }
    }
  }

  /** A history with one entry per source keeps that shape. */
  lemma SetKeepsOnePerSource(c: ConfigSource, name: string, t: ValueType, value: Value, source: SourceType)
    requires name in c.config ==> OnePerSource(c.config[name].sources)
    ensures OnePerSource(SetConfigValue(c, name, t, value, source).config[name].sources)
  {
    var s := SetConfigValue(c, name, t, value, source).config[name].sources;
    if name in c.config {
      var w := WithoutSource(c.config[name].sources, source);
      WithoutSourceOnePerSource(c.config[name].sources, source);
      assert s == w + [SourceValue(source, value)];
      forall k | 0 <= k < |w|
        ensures w[k].source != source
      {
        assert w[k] in w;
      }
    }
  }

  /** Setting the same value from the same source twice is setting it once. */
  lemma SetConfigValueIdempotent(c: ConfigSource, name: string, t: ValueType, value: Value, source: SourceType)
    ensures var once := SetConfigValue(c, name, t, value, source);
      SetConfigValue(once, name, t, value, source) == once
  {
    var once := SetConfigValue(c, name, t, value, source);
    var item := once.config[name];
    var s := item.sources;
    assert s[|s| - 1] == SourceValue(source, value);
    SourceMovedLast(s, source);
    assert item.(value := value, sources := s) == item;
    MapUpdateSame(once.config, name);
  }

  /** A history whose only entry from `source` is its last is what
      recording that entry again gives. */
  lemma SourceMovedLast(s: seq<SourceValue>, source: SourceType)
    requires |s| > 0 && s[|s| - 1].source == source
    requires forall x :: x in s[..|s| - 1] ==> x.source != source
    ensures WithoutSource(s, source) + [s[|s| - 1]] == s
  {
    var pre := s[..|s| - 1];
    var sv := s[|s| - 1];
    assert s == pre + [sv];
    WithoutSourceNone(pre, source);
    WithoutSourceConcat(pre, [sv], source);
    assert WithoutSource([sv], source) == [];
  }

  lemma MapUpdateSame<K, V>(m: map<K, V>, k: K)
    requires k in m
    ensures m[k := m[k]] == m
  {
  }

  /** A history without entries from `source` is left alone. */
  lemma {:induction false} WithoutSourceNone(sources: seq<SourceValue>, source: SourceType)
    requires forall x :: x in sources ==> x.source != source
    ensures WithoutSource(sources, source) == sources
  {
    if sources != [] {
      assert sources[0] in sources;
      assert forall x :: x in sources[1..] ==> x in sources;
      WithoutSourceNone(sources[1..], source);
      assert sources == [sources[0]] + sources[1..];
    }
  }

  // ---------------------------------------------------------------------
  // Where a value comes from: `_get_config_value`
  // ---------------------------------------------------------------------

  /** The environment variable a key is read from: the key in upper case,
      with `.` written `_`. */
  function EnvKey(name: string): (r: string)
    ensures |r| == |name|
    ensures forall k :: 0 <= k < |r| ==> r[k] != '.' && !('a' <= r[k] <= 'z')
    ensures forall k :: 0 <= k < |r| && name[k] != '.' ==> r[k] == UpperChar(name[k])
  {
    ReplaceChar(Upper(name), '.', '_')
  }

  /** The words that, in any case, make an environment variable mean None. */
  const NullWords: set<string> := {"null", "none", "nil"}

  /** The four places a value can come from, in order of precedence. */
  datatype Origin = InMemory | Environment | JsonFile | Default

  function Rank(o: Origin): nat {
    match o
    case InMemory => 0
    case Environment => 1
    case JsonFile => 2
    case Default => 3
  }

  /** The value origin `o` offers for `name`, if it offers one: the
      in-memory store only a value other than None, the environment a
      string or None, the JSON file whatever it holds under the key, and
      the default only a value other than None. */
  function Offered(c: ConfigSource, env: Env, name: string, default: Value, o: Origin): Option<Value> {
    match o
    case InMemory =>
      if c.inMemory.Some? && name in c.inMemory.value && c.inMemory.value[name] != NoneValue
      then Some(c.inMemory.value[name]) else None
    case Environment =>
      var key := EnvKey(name);
      if key !in env then None
      else if Lower(env[key]) in NullWords then Some(NoneValue)
      else Some(StrValue(env[key]))
    case JsonFile =>
      if name in c.jsonStore then Some(c.jsonStore[name]) else None
    case Default =>
      if default != NoneValue then Some(default) else None
  }

  /** `o` offers a value and no origin of higher precedence does. */
  predicate First(c: ConfigSource, env: Env, name: string, default: Value, o: Origin) {
    && Offered(c, env, name, default, o).Some?
    && forall p :: Rank(p) < Rank(o) ==> Offered(c, env, name, default, p).None?
  }

  /** The lookup of `_get_config_value`, written as the code asks: the
      in-memory store, then the environment, then the JSON file, then the
      default, else `ValueError`. */
  function Resolve(c: ConfigSource, env: Env, name: string, default: Value): (r: Result<Value, ConfigError>)
    ensures r.Err? ==> r.error == NotFound(name)
    ensures r.Err? <==>
      && Offered(c, env, name, default, InMemory).None? && Offered(c, env, name, default, Environment).None?
      && Offered(c, env, name, default, JsonFile).None? && Offered(c, env, name, default, Default).None?
  {
    var key := EnvKey(name);
    if c.inMemory.Some? && name in c.inMemory.value && c.inMemory.value[name] != NoneValue then
      Ok(c.inMemory.value[name])
    else if key in env then
      if Lower(env[key]) in NullWords then Ok(NoneValue) else Ok(StrValue(env[key]))
    else if name in c.jsonStore then
      Ok(c.jsonStore[name])
    else if default != NoneValue then
      Ok(default)
    else
      Err(NotFound(name))
  }

  /** The lookup returns the value of the first origin that offers one, */
  lemma ResolveFirst(c: ConfigSource, env: Env, name: string, default: Value, o: Origin)
    requires First(c, env, name, default, o)
    ensures Resolve(c, env, name, default) == Ok(Offered(c, env, name, default, o).value)
  {
    assert Rank(InMemory) == 0 && Rank(Environment) == 1 && Rank(JsonFile) == 2;
  }

  /** and fails exactly when none offers one. */
  lemma ResolveNotFound(c: ConfigSource, env: Env, name: string, default: Value)
    ensures Resolve(c, env, name, default).Err? <==> forall o :: Offered(c, env, name, default, o).None?
  {
    if Resolve(c, env, name, default).Err? {
      forall o ensures Offered(c, env, name, default, o).None? {
        match o
        case InMemory =>
        case Environment =>
        case JsonFile =>
        case Default =>
      }
    } else {
      assert Offered(c, env, name, default, InMemory).Some? || Offered(c, env, name, default, Environment).Some?
        || Offered(c, env, name, default, JsonFile).Some? || Offered(c, env, name, default, Default).Some?;
    }
  }

  /** A looked-up value and the source it leaves behind. */
  datatype Lookup<T> = Lookup(source: ConfigSource, result: Result<T, ConfigError>)

  /** `_get_config_value`: the default is recorded under the key, with
      source `"default"`, before the lookup; the item then holds the
      default whatever the lookup returns. */
  function GetConfigValue(c: ConfigSource, env: Env, name: string, t: ValueType, default: Value): (r: Lookup<Value>)
    ensures r.source.inMemory == c.inMemory && r.source.jsonStore == c.jsonStore
    ensures r.source.config.Keys == c.config.Keys + {name}
    ensures r.source.config[name].value == default
    ensures var s := r.source.config[name].sources; |s| > 0 && s[|s| - 1] == SourceValue(DefaultSource, default)
    ensures r.result == Resolve(c, env, name, default)
  {
    Lookup(SetConfigValue(c, name, t, default, DefaultSource), Resolve(c, env, name, default))
  }

  // ---------------------------------------------------------------------
  // The typed getters
  // ---------------------------------------------------------------------

  /** `str(val)`, for the values whose rendering the model writes out. */
  function Render(v: Value): (r: Option<string>)
    ensures r.None? <==> v.ListValue?
  {
    match v
    case NoneValue => Some("None")
    case BoolValue(b) => Some(if b then "True" else "False")
    case IntValue(i) => Some(IntToString(i))
    case StrValue(s) => Some(s)
    case ListValue(_) => None
  }

  /** `_bool_str_map` */
  const BoolWords: map<string, bool> :=
    map["true" := true, "false" := false, "yes" := true, "no" := false, "1" := true, "0" := false]

  /** The conversion in `get_bool`. */
  function ToBool(v: Value): (r: Result<bool, ConfigError>)
    ensures r.Err? ==> r.error == InvalidBool(v)
    ensures v.BoolValue? ==> r == Ok(v.b)
    ensures v.NoneValue? || v.ListValue? ==> r.Err?
    ensures v.StrValue? ==> (r.Ok? <==> Lower(v.s) in BoolWords)
    ensures v.IntValue? ==> (r.Ok? <==> v.i == 0 || v.i == 1) && (r.Ok? ==> r.value == (v.i == 1))
  {
    NoneIsNoBool();
    IntBoolWord(v);
    if v.BoolValue? then Ok(v.b)
    else match Render(v)
      case Some(t) => if Lower(t) in BoolWords then Ok(BoolWords[Lower(t)]) else Err(InvalidBool(v))
      case None => Err(InvalidBool(v))
  }

  /** A string converts exactly when its lower case is one of the six
      words, and then to that word's meaning, */
  lemma ToBoolString(s: string)
    ensures ToBool(StrValue(s)).Ok? <==> Lower(s) in BoolWords
    ensures ToBool(StrValue(s)).Ok? ==> ToBool(StrValue(s)).value == BoolWords[Lower(s)]
  {
  }

  /** whatever the case of its letters, */
  lemma ToBoolIgnoresCase(s: string)
    ensures ToBool(StrValue(Upper(s))).Ok? <==> ToBool(StrValue(s)).Ok?
    ensures ToBool(StrValue(s)).Ok? ==> ToBool(StrValue(Upper(s))).value == ToBool(StrValue(s)).value
  {
    var u := Upper(s);
    forall k | 0 <= k < |s|
      ensures LowerChar(u[k]) == LowerChar(s[k])
    {
    }
    assert Lower(u) == Lower(s);
  }

  /** and `str(b)` of a bool reads back as `b`. */
  lemma ToBoolRendered(b: bool)
    ensures ToBool(StrValue(Render(BoolValue(b)).value)) == Ok(b)
  {
    var t := Render(BoolValue(b)).value;
    if b {
      assert Lower(t) == "true";
    } else {
      assert Lower(t) == "false";
    }
  }

  /** `str(i).lower()` of an int is a word of the table exactly for 0 and
      1, which read as False and True. */
  lemma IntBoolWord(v: Value)
    ensures v.IntValue? ==> (Lower(IntToString(v.i)) in BoolWords <==> v.i == 0 || v.i == 1)
    ensures v.IntValue? && (v.i == 0 || v.i == 1) ==> BoolWords[Lower(IntToString(v.i))] == (v.i == 1)
  {
    if v.IntValue? {
      IntWord(v.i);
    }
  }

  /** The same, on the integer itself. */
  lemma IntWord(i: int)
    ensures Lower(IntToString(i)) in BoolWords <==> i == 0 || i == 1
    ensures i == 0 || i == 1 ==> BoolWords[Lower(IntToString(i))] == (i == 1)
  {
    var r := IntToString(i);
    var t := Lower(r);
    assert t[0] == LowerChar(r[0]);
    if 0 <= i < 10 {
      assert r == [DigitChar(i)] && t == r;
      if i == 0 {
        assert t == "0";
      } else if i == 1 {
        assert t == "1";
      } else {
        assert |t| == 1 && t != "0" && t != "1";
      }
    } else if i < 0 {
      assert t[0] == '-';
    } else {
      assert IsDigit(r[0]) && |t| > 1 && IsDigit(t[0]);
    }
  }

  /** `str(None)` is not a boolean word. */
  lemma NoneIsNoBool()
    ensures Lower(Render(NoneValue).value) !in BoolWords
  {
    assert Lower("None") == "none";
  }

  /** The default of a getter as a value. */
  function OrNone<T>(default: Option<T>, wrap: T -> Value): Value {
    match default
    case None => NoneValue
    case Some(d) => wrap(d)
  }

  /** `get_bool` */
  function GetBool(c: ConfigSource, env: Env, name: string, default: Option<bool>): (r: Lookup<bool>)
    ensures var v := OrNone(default, b => BoolValue(b));
      && r.source.inMemory == c.inMemory && r.source.jsonStore == c.jsonStore
      && (r.result.Ok? <==> Resolve(c, env, name, v).Ok? && ToBool(Resolve(c, env, name, v).value).Ok?)
  {
    var l := GetConfigValue(c, env, name, BoolType, OrNone(default, b => BoolValue(b)));
    Lookup(l.source, if l.result.Err? then Err(l.result.error) else ToBool(l.result.value))
  }

  /** The conversion in `get_str`: `str(val)`, unless both the value and
      the default are None. */
  function ToStr(v: Value, default: Option<string>): (r: Result<string, ConfigError>)
    ensures r.Err? <==> (v == NoneValue && default.None?) || v.ListValue?
    ensures r.Ok? && v.StrValue? ==> r.value == v.s
    ensures v.BoolValue? ==> r == Ok(if v.b then "True" else "False")
    ensures v.IntValue? ==> r == Ok(IntToString(v.i))
    ensures v == NoneValue && default.Some? ==> r == Ok("None")
  {
    if v == NoneValue && default.None? then Err(InvalidStr(v))
    else match Render(v)
      case Some(t) => Ok(t)
      case None => Err(InvalidStr(v))
  }

  /** `get_str` */
  function GetStr(c: ConfigSource, env: Env, name: string, default: Option<string>): (r: Lookup<string>)
    ensures var v := OrNone(default, s => StrValue(s));
      && r.source.inMemory == c.inMemory && r.source.jsonStore == c.jsonStore
      && (r.result.Ok? <==> Resolve(c, env, name, v).Ok? && ToStr(Resolve(c, env, name, v).value, default).Ok?)
  {
    var l := GetConfigValue(c, env, name, StrType, OrNone(default, s => StrValue(s)));
    Lookup(l.source, if l.result.Err? then Err(l.result.error) else ToStr(l.result.value, default))
  }

  /** No store sets `name`: the in-memory store holds no value other than
      None for it, and neither the environment nor the JSON file has it. */
  predicate Unset(c: ConfigSource, env: Env, name: string) {
    && (c.inMemory.Some? && name in c.inMemory.value ==> c.inMemory.value[name] == NoneValue)
    && EnvKey(name) !in env
    && name !in c.jsonStore
  }

  /** An unset key resolves to its default, and fails without one. */
  lemma UnsetResolvesToDefault(c: ConfigSource, env: Env, name: string, default: Value)
    requires Unset(c, env, name)
    ensures default != NoneValue ==> Resolve(c, env, name, default) == Ok(default)
    ensures default == NoneValue ==> Resolve(c, env, name, default) == Err(NotFound(name))
  {
    if default != NoneValue {
      assert First(c, env, name, default, Default);
      ResolveFirst(c, env, name, default, Default);
    } else {
      ResolveNotFound(c, env, name, default);
    }
  }

  /** A string getter with a default and nothing configured returns the
      default. */
  lemma GetStrDefault(c: ConfigSource, env: Env, name: string, d: string)
    requires Unset(c, env, name)
    ensures GetStr(c, env, name, Some(d)).result == Ok(d)
  {
    UnsetResolvesToDefault(c, env, name, StrValue(d));
  }

  /** A null word in the environment beats the default of a string
      getter: the text read is "None", not the default. */
  lemma GetStrNullEnv(c: ConfigSource, env: Env, name: string, d: string)
    requires Offered(c, env, name, StrValue(d), InMemory).None?
    requires EnvKey(name) in env && Lower(env[EnvKey(name)]) in NullWords
    ensures GetStr(c, env, name, Some(d)).result == Ok("None")
  {
    assert Resolve(c, env, name, StrValue(d)) == Ok(NoneValue);
  }

  /** A value as an enum option: a string or None; anything else equals
      no option. */
  function AsOption(v: Value): Option<Option<string>> {
    match v
    case NoneValue => Some(None)
    case StrValue(s) => Some(Some(s))
    case _ => None
  }

  /** The check in `get_enum`. */
  function ToEnum(v: Value, options: seq<Option<string>>): (r: Result<Option<string>, ConfigError>)
    ensures r.Ok? <==> AsOption(v).Some? && AsOption(v).value in options
    ensures r.Ok? ==> r.value in options && r.value == AsOption(v).value
    ensures r.Err? ==> r.error == InvalidEnum(v)
  {
    match AsOption(v)
    case Some(o) => if o in options then Ok(o) else Err(InvalidEnum(v))
    case None => Err(InvalidEnum(v))
  }

  /** `get_enum` */
  function GetEnum(c: ConfigSource, env: Env, key: string, options: seq<Option<string>>, default: Option<string>): (r: Lookup<Option<string>>)
    ensures r.result.Ok? ==> r.result.value in options
    ensures var v := OrNone(default, s => StrValue(s));
      && r.source.inMemory == c.inMemory && r.source.jsonStore == c.jsonStore
      && (r.result.Ok? <==> Resolve(c, env, key, v).Ok? && ToEnum(Resolve(c, env, key, v).value, options).Ok?)
  {
    var l := GetConfigValue(c, env, key, EnumType, OrNone(default, s => StrValue(s)));
    Lookup(l.source, if l.result.Err? then Err(l.result.error) else ToEnum(l.result.value, options))
  }

  predicate NotComma(c: char) {
    c != ','
  }

  predicate NoComma(s: string) {
    forall k :: 0 <= k < |s| ==> s[k] != ','
  }

  /** `re.split(r"\s*,\s*", s)`: the text between commas, white space next
      to a comma dropped; white space at either end of the whole string
      stays. */
  function SplitComma(s: string): (parts: seq<string>)
    ensures |parts| > 0
    ensures forall j :: 0 <= j < |parts| ==> NoComma(parts[j])
    ensures NoComma(s) ==> parts == [s]
    decreases |s|
  {
    var c := RunEnd(s, 0, NotComma);
    FirstComma(s);
    if c == |s| then [s]
    else
      var head := RStrip(s[..c]);
      var tail := SplitComma(LStrip(s[c + 1..]));
      NoCommaParts(head, tail);
      [head] + tail
  }

  /** The text before the first comma has none. */
  lemma FirstComma(s: string)
    ensures var c := RunEnd(s, 0, NotComma);
      NoComma(s[..c]) && (c < |s| ==> s[c] == ',') && (NoComma(s) ==> c == |s|)
  {
    var c := RunEnd(s, 0, NotComma);
    var p: char -> bool := NotComma;
    forall k | 0 <= k < c
      ensures s[..c][k] != ','
    {
      assert p(s[k]);
    }
  }

  /** A comma-free part in front of comma-free parts. */
  lemma NoCommaParts(head: string, tail: seq<string>)
    requires NoComma(head) && forall j :: 0 <= j < |tail| ==> NoComma(tail[j])
    ensures forall j :: 0 <= j < |tail| + 1 ==> NoComma(([head] + tail)[j])
  {
    forall j | 0 <= j < |tail| + 1
      ensures NoComma(([head] + tail)[j])
    {
      if j > 0 {
        assert ([head] + tail)[j] == tail[j - 1];
      }
    }
  }

  /** No white space at either end. */
  predicate Trimmed(s: string) {
    |s| > 0 ==> !IsSpace(s[0]) && !IsSpace(s[|s| - 1])
  }

  /** A comma-joined list whose first item has no leading white space has
      none either. */
  lemma JoinLStripped(parts: seq<string>)
    requires |parts| > 0 && Trimmed(parts[0])
    ensures LStrip(Join(",", parts)) == Join(",", parts)
  {
    var s := Join(",", parts);
    if |parts| > 1 {
      assert s == parts[0] + "," + Join(",", parts[1..]);
      if parts[0] != [] {
        assert s[0] == parts[0][0];
      } else {
        assert s[0] == ',';
      }
    }
    if s != [] {
      assert !IsSpace(s[0]);
    }
  }

  /** Splitting `p + "," + rest` takes `p` off the front when `p` has no
      comma and no white space before the comma, and `rest` none after. */
  lemma SplitCommaStep(s: string, p: string, rest: string)
    requires s == p + ("," + rest) && NoComma(p) && Trimmed(p) && LStrip(rest) == rest
    ensures SplitComma(s) == [p] + SplitComma(rest)
  {
    var n := CommaAt(s, p, rest);
    assert RStrip(p) == p;
  }

  /** Every character of `w` is white space. */
  predicate Blank(w: string) {
    forall k :: 0 <= k < |w| ==> IsSpace(w[k])
  }

  /** The separator `\s*,\s*` swallows the white space on both sides of a
      comma: a part that does not end in white space, any blanks, a comma,
      any blanks and text that does not start with white space split into
      the part and the split of that text. */
  lemma SplitCommaBlanks(p: string, w1: string, w2: string, rest: string)
    requires NoComma(p) && (|p| > 0 ==> !IsSpace(p[|p| - 1]))
    requires Blank(w1) && Blank(w2) && (|rest| > 0 ==> !IsSpace(rest[0]))
    ensures SplitComma(p + w1 + ("," + (w2 + rest))) == [p] + SplitComma(rest)
  {
    var s := p + w1 + ("," + (w2 + rest));
    BlankNoComma(p, w1);
    var n := CommaAt(s, p + w1, w2 + rest);
    RStripBlanks(p, w1);
    LStripBlanks(w2, rest);
  }

  /** White space holds no comma. */
  lemma BlankNoComma(p: string, w: string)
    requires NoComma(p) && Blank(w)
    ensures NoComma(p + w)
  {
    forall k | 0 <= k < |p + w|
      ensures (p + w)[k] != ','
    {
      if k >= |p| {
        assert (p + w)[k] == w[k - |p|] && IsSpace(w[k - |p|]);
      }
    }
  }

  /** `rstrip` removes trailing blanks and stops at the text before them. */
  lemma {:induction false} RStripBlanks(p: string, w: string)
    requires (|p| > 0 ==> !IsSpace(p[|p| - 1])) && Blank(w)
    ensures RStrip(p + w) == p
    decreases |w|
  {
    if w == [] {
      assert p + w == p;
    } else {
      var w' := w[..|w| - 1];
      assert (p + w)[..|p + w| - 1] == p + w';
      assert (p + w)[|p + w| - 1] == w[|w| - 1];
      RStripBlanks(p, w');
    }
  }

  /** `lstrip` removes leading blanks and stops at text that does not start
      with white space. */
  lemma LStripBlanks(w: string, rest: string)
    requires Blank(w) && (|rest| > 0 ==> !IsSpace(rest[0]))
    ensures LStrip(w + rest) == rest
  {
    var s := w + rest;
    var q: char -> bool := IsSpace;
    if rest != [] {
      assert s[|w|] == rest[0];
    }
    forall k | 0 <= k < |w|
      ensures q(s[k])
    {
      assert s[k] == w[k];
    }
    RunEndUnique(s, 0, |w|, q);
    assert s[|w|..] == rest;
  }

  /** So two items with blanks around the comma between them split into
      those two items, */
  lemma SplitCommaPair(p: string, w1: string, w2: string, q: string)
    requires ListItem(p) && ListItem(q) && Blank(w1) && Blank(w2)
    ensures SplitComma(p + w1 + ("," + (w2 + q))) == [p, q]
  {
    assert NoComma(p) && (|p| > 0 ==> !IsSpace(p[|p| - 1]));
    assert |q| > 0 ==> !IsSpace(q[0]);
    SplitCommaBlanks(p, w1, w2, q);
    PairParts(p, q, SplitComma(p + w1 + ("," + (w2 + q))));
  }

  /** A part in front of the split of a comma-free item is a pair. */
  lemma PairParts(p: string, q: string, parts: seq<string>)
    requires NoComma(q) && parts == [p] + SplitComma(q)
    ensures parts == [p, q]
  {
    assert SplitComma(q) == [q];
  }

  /** for instance `p , q`. */
  lemma SplitCommaSpaced(p: string, q: string)
    requires ListItem(p) && ListItem(q)
    ensures SplitComma(p + " , " + q) == [p, q]
  {
    SpacedComma(p, q);
    OneBlank();
    SplitCommaPair(p, " ", " ", q);
  }

  /** A single space is white space. */
  lemma OneBlank()
    ensures Blank(" ")
  {
    var sp: char -> bool := IsSpace;
    assert sp(" "[0]);
  }

  /** `p , q` is `p`, a blank, a comma, a blank and `q`. */
  lemma SpacedComma(p: string, q: string)
    ensures p + " , " + q == p + " " + ("," + (" " + q))
  {
    assert " , " == " " + ("," + " ");
    SeqAssoc(p, " ", "," + " ");
    SeqAssoc(",", " ", q);
    SeqAssoc(" ", ",", " " + q);
    SeqAssoc(" " + ",", " ", q);
    SeqAssoc(p + " ", ", ", q);
  }

  /** Where the first comma of `p + "," + rest` is, and what surrounds it. */
  lemma CommaAt(s: string, p: string, rest: string) returns (n: nat)
    requires s == p + ("," + rest) && NoComma(p)
    ensures n == |p| && n < |s| && RunEnd(s, 0, NotComma) == n
    ensures s[..n] == p && s[n + 1..] == rest
  {
    n := |p|;
    var q: char -> bool := NotComma;
    forall k | 0 <= k < n
      ensures q(p[k])
    {
    }
    RunPiece(s, 0, n, p, "," + rest, q);
    Piece(s, 0, n, s[0..], p, "," + rest);
    Skip(s, 0, n, s[0..], p, "," + rest);
    CharAt(s, n, s[n..], ',', rest);
    Skip(s, n, n + 1, s[n..], ",", rest);
    RunEndUnique(s, 0, n, q);
  }

  /** An item that survives a round trip through a comma-separated
      string: no comma in it, no white space at its ends. */
  predicate ListItem(w: string) {
    NoComma(w) && Trimmed(w)
  }

  /** Splitting a comma-joined list of such items gives the items back. */
  lemma {:induction false} SplitCommaJoin(parts: seq<string>)
    requires |parts| > 0
    requires forall j :: 0 <= j < |parts| ==> ListItem(parts[j])
    ensures SplitComma(Join(",", parts)) == parts
    decreases |parts|
  {
    if |parts| > 1 {
      var rest := Join(",", parts[1..]);
      JoinFront(parts);
      TailItems(parts);
      JoinLStripped(parts[1..]);
      SplitCommaStep(Join(",", parts), parts[0], rest);
      SplitCommaJoin(parts[1..]);
      ConsTail(parts);
    } else {
      assert ListItem(parts[0]);
    }
  }

  /** A comma-joined list of two or more is its first item, a comma and
      the join of the rest. */
  lemma JoinFront(parts: seq<string>)
    requires |parts| > 1
    ensures Join(",", parts) == parts[0] + ("," + Join(",", parts[1..]))
  {
  }

  /** The items after the first of a list of items are items. */
  lemma TailItems(parts: seq<string>)
    requires |parts| > 1
    requires forall j :: 0 <= j < |parts| ==> ListItem(parts[j])
    ensures ListItem(parts[0]) && ListItem(parts[1..][0])
    ensures forall j :: 0 <= j < |parts[1..]| ==> ListItem(parts[1..][j])
  {
    forall j | 0 <= j < |parts| - 1
      ensures ListItem(parts[1..][j])
    {
      assert parts[1..][j] == parts[j + 1];
    }
  }

  /** A non-empty list is its head before its tail. */
  lemma ConsTail(parts: seq<string>)
    requires |parts| > 0
    ensures [parts[0]] + parts[1..] == parts
  {
  }

  /** The conversion in `get_list`: a list as it is, a string split at its
      commas, None as the empty list. */
  function ToList(v: Value): (r: Result<seq<string>, ConfigError>)
    ensures r.Err? <==> v.BoolValue? || v.IntValue?
    ensures r.Err? ==> r.error == InvalidList(v)
    ensures v == NoneValue ==> r == Ok([])
    ensures v.StrValue? ==> r.Ok? && |r.value| > 0 && forall j :: 0 <= j < |r.value| ==> NoComma(r.value[j])
    ensures v.ListValue? ==> r == Ok(v.items)
    ensures v.StrValue? ==> r == Ok(SplitComma(v.s))
  {
    match v
    case ListValue(items) => Ok(items)
    case StrValue(s) => Ok(SplitComma(s))
    case NoneValue => Ok([])
    case _ => Err(InvalidList(v))
  }

  /** `get_list` */
  function GetList(c: ConfigSource, env: Env, key: string, default: Option<seq<string>>): (r: Lookup<seq<string>>)
    ensures var v := OrNone(default, items => ListValue(items));
      && r.source.inMemory == c.inMemory && r.source.jsonStore == c.jsonStore
      && (r.result.Ok? <==> Resolve(c, env, key, v).Ok? && ToList(Resolve(c, env, key, v).value).Ok?)
  {
    var l := GetConfigValue(c, env, key, ListType, OrNone(default, items => ListValue(items)));
    Lookup(l.source, if l.result.Err? then Err(l.result.error) else ToList(l.result.value))
  }

  /** A list set in the environment as `a,b,c` is read back as the list. */
  lemma GetListFromEnv(c: ConfigSource, env: Env, key: string, parts: seq<string>)
    requires |parts| > 0 && forall j :: 0 <= j < |parts| ==> ListItem(parts[j])
    requires c.inMemory.None? && EnvKey(key) in env && env[EnvKey(key)] == Join(",", parts)
    requires Lower(Join(",", parts)) !in NullWords
    ensures GetList(c, env, key, None).result == Ok(parts)
  {
    var v := Join(",", parts);
    assert Resolve(c, env, key, NoneValue) == Ok(StrValue(v));
    SplitCommaJoin(parts);
    assert ToList(StrValue(v)) == Ok(parts);
  }

  // ---------------------------------------------------------------------
  // Module configurations
  // ---------------------------------------------------------------------

  /** `ModuleConfig._config_key`: the key under the module's name. */
  function ConfigKey(moduleName: string, key: string): (r: string)
    ensures moduleName == "" ==> r == key
    ensures moduleName != "" ==> |r| == |moduleName| + 1 + |key| && r[|moduleName|] == '.' && r[|moduleName| + 1..] == key
  {
    if moduleName != "" then moduleName + "." + key else key
  }

  /** Different keys of one module are different configuration names. */
  lemma ConfigKeyInjective(moduleName: string, k1: string, k2: string)
    requires ConfigKey(moduleName, k1) == ConfigKey(moduleName, k2)
    ensures k1 == k2
  {
  }

  /** The environment variable for `llm.api_base` is `LLM_API_BASE`. */
  lemma EnvKeyOfModuleKey()
    ensures EnvKey(ConfigKey("llm", "api_base")) == "LLM_API_BASE"
  {
    assert ConfigKey("llm", "api_base") == "llm.api_base";
    UpperApiBase();
    DotApiBase();
  }

  /** The key `llm.api_base` in upper case, */
  lemma UpperApiBase()
    ensures Upper("llm.api_base") == "LLM.API_BASE"
  {
    var u := Upper("llm.api_base");
    assert u[..4] == "LLM.";
    assert u[4..] == "API_BASE";
    assert u == u[..4] + u[4..];
  }

  /** and with its `.` written `_`. */
  lemma DotApiBase()
    ensures ReplaceChar("LLM.API_BASE", '.', '_') == "LLM_API_BASE"
  {
  }

  // ---------------------------------------------------------------------
  // `LLMModuleConfig._configure`
  // ---------------------------------------------------------------------

  /** The key of an `llm` setting. */
  function LLMKey(key: string): string {
    ConfigKey("llm", key)
  }

  /** The connection settings: `api_type`, `api_base`, `api_key`. */
  datatype ApiPart = ApiPart(apiType: Option<string>, apiBase: string, apiKey: string)

  /** The model settings: `model`, `backup_model`, `api_version`. */
  datatype ModelPart = ModelPart(model: string, backupModel: string, apiVersion: string)

  /** The Azure AD settings, `aad_auth_mode` to `aad_token_cache_path`. */
  datatype AadPart = AadPart(
    authMode: Option<string>, tenantId: string, apiResource: string, apiScope: string,
    clientId: string, clientSecret: string, useTokenCache: bool, tokenCachePath: string)

  /** The settings of an `LLMModuleConfig`. */
  datatype LLMSettings = LLMSettings(api: ApiPart, model: ModelPart, aad: AadPart, responseFormat: Option<string>)

  /** A failed lookup, passed on with the source it left behind. */
  function Failed<A, B>(l: Lookup<A>): Lookup<B>
    requires l.result.Err?
  {
    Lookup(l.source, Err(l.result.error))
  }

  /** The `api_key` default: the empty string under Azure AD login, else none. */
  function ApiKeyDefault(apiType: Option<string>): Option<string> {
    if apiType == Some("azure_ad") then Some("") else None
  }

  /** `api_type` and `api_base`, then the key. */
  function ApiStage(c: ConfigSource, env: Env): (r: Lookup<ApiPart>)
    ensures r.result.Ok? ==> r.result.value.apiType in [Some("openai"), Some("azure"), Some("azure_ad")]
  {
    var t := GetEnum(c, env, LLMKey("api_type"), [Some("openai"), Some("azure"), Some("azure_ad")], Some("openai"));
    if t.result.Err? then Failed(t) else
    var b := GetStr(t.source, env, LLMKey("api_base"), Some("https://api.openai.com/v1"));
    if b.result.Err? then Failed(b) else
    ApiKeyStep(b.source, env, t.result.value, b.result.value)
  }

  /** `api_key`, whose default depends on the API type read before. */
  function ApiKeyStep(c: ConfigSource, env: Env, apiType: Option<string>, apiBase: string): (r: Lookup<ApiPart>)
    ensures r.result.Ok? ==> r.result.value.apiType == apiType
  {
    var k := GetStr(c, env, LLMKey("api_key"), ApiKeyDefault(apiType));
    if k.result.Err? then Failed(k) else
    Lookup(k.source, Ok(ApiPart(apiType, apiBase, k.result.value)))
  }

  function ModelStage(c: ConfigSource, env: Env): (r: Lookup<ModelPart>) {
    var m := GetStr(c, env, LLMKey("model"), Some("gpt-4"));
    if m.result.Err? then Failed(m) else BackupStage(m.source, env, m.result.value)
  }

  /** The settings read once the model is known. */
  function BackupStage(c: ConfigSource, env: Env, model: string): (r: Lookup<ModelPart>) {
    var b := GetStr(c, env, LLMKey("backup_model"), Some(model));
    if b.result.Err? then Failed(b) else
    var v := GetStr(b.source, env, LLMKey("api_version"), Some("2023-07-01-preview"));
    if v.result.Err? then Failed(v) else
    Lookup(v.source, Ok(ModelPart(model, b.result.value, v.result.value)))
  }

  /** A default that applies unless the login is an Azure AD app login. */
  function UnlessAppLogin(appLogin: bool, d: string): Option<string> {
    if appLogin then None else Some(d)
  }

  /** The Azure AD login settings, then the client settings. */
  function AadStage(c: ConfigSource, env: Env, azureAd: bool): (r: Lookup<AadPart>)
    ensures r.result.Ok? ==> r.result.value.authMode in [Some("device_login"), Some("aad_app")]
  {
    var m := GetEnum(c, env, LLMKey("aad_auth_mode"), [Some("device_login"), Some("aad_app")],
                     if azureAd then None else Some("device_login"));
    if m.result.Err? then Failed(m) else
    var app := azureAd && m.result.value == Some("aad_app");
    var t := GetStr(m.source, env, LLMKey("aad_tenant_id"), UnlessAppLogin(app, "common"));
    if t.result.Err? then Failed(t) else
    var res := GetStr(t.source, env, LLMKey("aad_api_resource"), UnlessAppLogin(app, "https://cognitiveservices.azure.com/"));
    if res.result.Err? then Failed(res) else
    var sc := GetStr(res.source, env, LLMKey("aad_api_scope"), UnlessAppLogin(app, ".default"));
    if sc.result.Err? then Failed(sc) else
    AadClientStep(sc.source, env, app, m.result.value, t.result.value, res.result.value, sc.result.value)
  }

  /** `aad_client_id` to `aad_token_cache_path`. */
  function AadClientStep(c: ConfigSource, env: Env, app: bool, mode: Option<string>, tenant: string, resource: string, scope: string): (r: Lookup<AadPart>)
    ensures r.result.Ok? ==> r.result.value.authMode == mode
  {
    var id := GetStr(c, env, LLMKey("aad_client_id"), UnlessAppLogin(app, ""));
    if id.result.Err? then Failed(id) else
    var sec := GetStr(id.source, env, LLMKey("aad_client_secret"), UnlessAppLogin(app, ""));
    if sec.result.Err? then Failed(sec) else
    var u := GetBool(sec.source, env, LLMKey("aad_use_token_cache"), Some(true));
    if u.result.Err? then Failed(u) else
    var p := GetStr(u.source, env, LLMKey("aad_token_cache_path"), Some("cache/token_cache.bin"));
    if p.result.Err? then Failed(p) else
    Lookup(p.source, Ok(AadPart(mode, tenant, resource, scope, id.result.value, sec.result.value, u.result.value, p.result.value)))
  }

  /** `LLMModuleConfig._configure`: the settings read in the order the
      code reads them, the first failing lookup ending the configuration. */
  function Configure(c: ConfigSource, env: Env): (r: Lookup<LLMSettings>)
    ensures r.result.Ok? ==> r.result.value.responseFormat in [Some("json_object"), Some("text"), None]
  {
    var a := ApiStage(c, env);
    if a.result.Err? then Failed(a) else
    var m := ModelStage(a.source, env);
    if m.result.Err? then Failed(m) else
    var d := AadStage(m.source, env, a.result.value.apiType == Some("azure_ad"));
    if d.result.Err? then Failed(d) else
    var f := GetEnum(d.source, env, LLMKey("response_format"), [Some("json_object"), Some("text"), None], Some("text"));
    if f.result.Err? then Failed(f) else
    Lookup(f.source, Ok(LLMSettings(a.result.value, m.result.value, d.result.value, f.result.value)))
  }

  /** Unless `backup_model` is set, it is the model. */
  lemma BackupModelIsModel(c: ConfigSource, env: Env)
    requires Unset(c, env, LLMKey("backup_model"))
    requires ModelStage(c, env).result.Ok?
    ensures ModelStage(c, env).result.value.backupModel == ModelStage(c, env).result.value.model
  {
    var m := GetStr(c, env, LLMKey("model"), Some("gpt-4"));
    BackupDefault(m.source, env, m.result.value);
  }

  /** The backup model defaults to the model. */
  lemma BackupDefault(c: ConfigSource, env: Env, model: string)
    requires Unset(c, env, LLMKey("backup_model"))
    requires BackupStage(c, env, model).result.Ok?
    ensures BackupStage(c, env, model).result.value.backupModel == model
  {
    GetStrDefault(c, env, LLMKey("backup_model"), model);
  }

  /** With no API key configured, the key reads only under Azure AD login,
      as the empty key; */
  lemma ApiKeyRequired(c: ConfigSource, env: Env, apiType: Option<string>, apiBase: string)
    requires Unset(c, env, LLMKey("api_key"))
    ensures ApiKeyStep(c, env, apiType, apiBase).result.Ok? <==> apiType == Some("azure_ad")
    ensures ApiKeyStep(c, env, apiType, apiBase).result.Ok? ==> ApiKeyStep(c, env, apiType, apiBase).result.value.apiKey == ""
  {
    UnsetResolvesToDefault(c, env, LLMKey("api_key"), OrNone(ApiKeyDefault(apiType), s => StrValue(s)));
  }

  /** so with none of the connection settings configured, configuring
      fails on `llm.api_key`. */
  lemma NothingConfigured(c: ConfigSource, env: Env)
    requires Unset(c, env, LLMKey("api_type")) && Unset(c, env, LLMKey("api_base")) && Unset(c, env, LLMKey("api_key"))
    ensures ApiStage(c, env).result == Err(NotFound(LLMKey("api_key")))
    ensures Configure(c, env).result == Err(NotFound(LLMKey("api_key")))
  {
    var t := ApiTypeDefault(c, env);
    var b := GetStr(t.source, env, LLMKey("api_base"), Some("https://api.openai.com/v1"));
    GetStrDefault(t.source, env, LLMKey("api_base"), "https://api.openai.com/v1");
    ApiKeyRequired(b.source, env, Some("openai"), "https://api.openai.com/v1");
    UnsetResolvesToDefault(b.source, env, LLMKey("api_key"), NoneValue);
  }

  /** An unset API type reads as `openai`. */
  lemma ApiTypeDefault(c: ConfigSource, env: Env) returns (t: Lookup<Option<string>>)
    requires Unset(c, env, LLMKey("api_type"))
    ensures t == GetEnum(c, env, LLMKey("api_type"), [Some("openai"), Some("azure"), Some("azure_ad")], Some("openai"))
    ensures t.result == Ok(Some("openai"))
    ensures t.source.inMemory == c.inMemory && t.source.jsonStore == c.jsonStore
  {
    t := GetEnum(c, env, LLMKey("api_type"), [Some("openai"), Some("azure"), Some("azure_ad")], Some("openai"));
    UnsetResolvesToDefault(c, env, LLMKey("api_type"), StrValue("openai"));
  }
}

=== FILE: kahn.dfy ===
/** The vocabulary of `DependencyGraph.top_sort_entities`: the targets of an
    entity's out-edges, how many out-edge slots of a group of entities
    point at an entity, the initial zero-in-degree entities, and a
    functional reference definition of the queue-and-cursor loop. */
module Kahn {
  import opened CodeGraph

  /** Every element is an entity of the graph. */
  predicate InRange(g: Graph, s: seq<EntityId>) {
    forall k :: 0 <= k < |s| ==> s[k] < |g.entities|
  }

  predicate Distinct(s: seq<EntityId>) {
    forall i, j :: 0 <= i < j < |s| ==> s[i] != s[j]
  }

  function Elems(s: seq<EntityId>): set<EntityId> {
    set x | x in s
  }

  function Range(n: nat): (r: set<EntityId>)
    ensures forall v: EntityId :: v in r <==> v < n
  {
    if n == 0 then {} else Range(n - 1) + {n - 1}
  }

  /** The `to_entity` of each of `u`'s out-edges, in out-edge order. */
  function Targets(g: Graph, u: EntityId): (ts: seq<EntityId>)
    requires Valid(g) && u < |g.entities|
    ensures |ts| == |g.entities[u].outEdges|
    ensures InRange(g, ts)
    ensures forall k :: 0 <= k < |ts| ==> ts[k] == g.edges[g.entities[u].outEdges[k]].to
  {
    var outs := g.entities[u].outEdges;
    seq(|outs|, k requires 0 <= k < |outs| => g.edges[outs[k]].to)
  }

  /** `u` has an out-edge to `v`. */
  predicate HasEdge(g: Graph, u: EntityId, v: EntityId)
    requires Valid(g) && u < |g.entities|
  {
    v in Targets(g, u)
  }

  /** The number of occurrences of `v` in `s`. */
  function Count(s: seq<EntityId>, v: EntityId): nat {
    if s == [] then 0 else Count(s[..|s| - 1], v) + (if s[|s| - 1] == v then 1 else 0)
  }

  /** The number of out-edge slots of the entities in `s` whose target is
      `v`: how far Kahn's loop has decremented `v` once it has dequeued `s`. */
  function Hits(g: Graph, s: seq<EntityId>, v: EntityId): nat
    requires Valid(g) && InRange(g, s)
  {
    if s == [] then 0 else Hits(g, s[..|s| - 1], v) + Count(Targets(g, s[|s| - 1]), v)
  }

  /** The number of out-edge slots targeting `v` among the entities below
      `k` that are not in `done`. */
  function HitsOutside(g: Graph, k: nat, done: set<EntityId>, v: EntityId): nat
    requires Valid(g) && k <= |g.entities|
  {
    if k == 0 then 0
    else HitsOutside(g, k - 1, done, v) + (if k - 1 in done then 0 else Count(Targets(g, k - 1), v))
  }

  /** Every entity's in-degree equals the number of out-edge slots, over
      the whole graph, that target it: in-edge and out-edge lists describe
      the same edges. */
  predicate Consistent(g: Graph) {
    && Valid(g)
    && forall v :: 0 <= v < |g.entities| ==> InDegree(g, v) == HitsOutside(g, |g.entities|, {}, v)
  }

  /** The entities below `k` whose in-degree is zero, in `entities` order. */
  function SeedsBelow(g: Graph, k: nat): (r: seq<EntityId>)
    requires k <= |g.entities|
    ensures InRange(g, r)
    ensures forall v: EntityId :: v in r <==> v < k && InDegree(g, v) == 0
    ensures forall i, j :: 0 <= i < j < |r| ==> r[i] < r[j]
  {
    if k == 0 then []
    else
      var prev := SeedsBelow(g, k - 1);
      assert forall i :: 0 <= i < |prev| ==> prev[i] in prev;
      prev + (if InDegree(g, k - 1) == 0 then [k - 1] else [])
  }

  function Seeds(g: Graph): seq<EntityId> {
    SeedsBelow(g, |g.entities|)
  }

  function InitialDegrees(g: Graph): (deg: seq<int>)
    ensures |deg| == |g.entities|
    ensures forall v :: 0 <= v < |g.entities| ==> deg[v] == InDegree(g, v)
  {
    seq(|g.entities|, v requires 0 <= v < |g.entities| => InDegree(g, v))
  }

  /** One pass of the inner `for out_edge in from_entity.out_edges` loop over
      the targets `ts`: decrement each, and enqueue the ones that reach
      exactly zero. */
  function Release(g: Graph, deg: seq<int>, queue: seq<EntityId>, ts: seq<EntityId>): (r: (seq<int>, seq<EntityId>))
    requires |deg| == |g.entities| && InRange(g, ts) && InRange(g, queue)
    ensures |r.0| == |g.entities| && InRange(g, r.1)
    decreases |ts|
  {
    if ts == [] then (deg, queue)
    else
      var v := ts[0];
      var d := deg[v := deg[v] - 1];
      Release(g, d, if d[v] == 0 then queue + [v] else queue, ts[1..])
  }

  /** The `while head < len(entities_queue)` loop, run for at most `fuel`
      iterations. */
  function Run(g: Graph, deg: seq<int>, queue: seq<EntityId>, head: nat, fuel: nat): seq<EntityId>
    requires Valid(g) && |deg| == |g.entities| && InRange(g, queue)
    decreases fuel
  {
    if fuel == 0 || head >= |queue| then queue
    else
      var r := Release(g, deg, queue, Targets(g, queue[head]));
      Run(g, r.0, r.1, head + 1, fuel - 1)
  }

  /** The result of `top_sort_entities`, with the loop bounded by the
      number of entities; the method proves the bound is never reached. */
  function KahnOrder(g: Graph): seq<EntityId>
    requires Valid(g)
  {
    Run(g, InitialDegrees(g), Seeds(g), 0, |g.entities|)
  }

  /** The entity at position `p` has an in-degree no larger than the number
      of out-edges into it from the entities before it. */
  predicate CoveredAt(g: Graph, order: seq<EntityId>, p: nat)
    requires Valid(g) && InRange(g, order) && p < |order|
  {
    InDegree(g, order[p]) <= Hits(g, order[..p], order[p])
  }

  /** Each returned entity is distinct and is placed only after enough
      out-edges of earlier returned entities to cover its in-degree. */
  predicate EmittedAfterCover(g: Graph, order: seq<EntityId>)
    requires Valid(g)
  {
    && InRange(g, order)
    && Distinct(order)
    && (forall p :: 0 <= p < |order| ==> CoveredAt(g, order, p))
  }

  /** The returned entities are exactly those whose in-degree is covered by
      the out-edges of the returned entities. */
  predicate CoveredMembers(g: Graph, order: seq<EntityId>)
    requires Valid(g) && InRange(g, order)
  {
    forall v :: 0 <= v < |g.entities| ==> (v in order <==> InDegree(g, v) <= Hits(g, order, v))
  }

  /** What the returned sequence is, independently of the loop that builds
      it: distinct entities, at most all of them, the zero-in-degree ones
      first and in `entities` order, exactly the covered entities, each
      placed after what covers it. */
  predicate KahnOutput(g: Graph, order: seq<EntityId>)
    requires Valid(g)
  {
    && EmittedAfterCover(g, order)
    && |order| <= |g.entities|
    && Seeds(g) <= order
    && CoveredMembers(g, order)
  }

  /** Every edge between two returned entities goes forward. */
  predicate RespectsEdges(g: Graph, order: seq<EntityId>)
    requires Valid(g) && InRange(g, order)
  {
    forall i, j :: 0 <= i < |order| && 0 <= j < |order| && HasEdge(g, order[i], order[j]) ==> i < j
  }

  // ---- counting facts ----

  lemma {:induction false} CountPositive(s: seq<EntityId>, v: EntityId)
    ensures Count(s, v) > 0 <==> v in s
  {
    if s != [] {
      CountPositive(s[..|s| - 1], v);
      assert s == s[..|s| - 1] + [s[|s| - 1]];
    }
  }

  lemma {:induction false} CountPrefix(s: seq<EntityId>, a: nat, v: EntityId)
    requires a < |s|
    ensures Count(s[..a + 1], v) == Count(s[..a], v) + (if s[a] == v then 1 else 0)
    ensures Count(s[..a], v) <= Count(s, v)
    decreases |s| - a
  {
    assert s[..a + 1][..a] == s[..a];
    if a + 1 < |s| {
      CountPrefix(s, a + 1, v);
    } else {
      assert s[..a + 1] == s;
    }
  }

  lemma {:induction false} HitsPrefixMono(g: Graph, s: seq<EntityId>, a: nat, b: nat, v: EntityId)
    requires Valid(g) && InRange(g, s) && a <= b <= |s|
    ensures Hits(g, s[..a], v) <= Hits(g, s[..b], v)
    decreases b - a
  {
    if a < b {
      HitsPrefixMono(g, s, a, b - 1, v);
      assert s[..b][..b - 1] == s[..b - 1];
    }
  }

  lemma {:induction false} HitsOutsideRemove(g: Graph, k: nat, done: set<EntityId>, u: EntityId, v: EntityId)
    requires Valid(g) && k <= |g.entities| && u < k && u !in done
    ensures HitsOutside(g, k, done + {u}, v) + Count(Targets(g, u), v) == HitsOutside(g, k, done, v)
  {
    if u < k - 1 {
      HitsOutsideRemove(g, k - 1, done, u, v);
    } else {
      HitsOutsideSame(g, k - 1, done, done + {u}, v);
    }
  }

  lemma {:induction false} HitsOutsideSame(g: Graph, k: nat, a: set<EntityId>, b: set<EntityId>, v: EntityId)
    requires Valid(g) && k <= |g.entities|
    requires forall x :: x < k ==> (x in a <==> x in b)
    ensures HitsOutside(g, k, a, v) == HitsOutside(g, k, b, v)
  {
    if k > 0 {
      HitsOutsideSame(g, k - 1, a, b, v);
    }
  }

  /** The hits of a set of distinct entities and the hits of all the others
      add up to the hits of the whole graph. */
  lemma {:induction false} HitsSplit(g: Graph, s: seq<EntityId>, v: EntityId)
    requires Valid(g) && InRange(g, s) && Distinct(s)
    ensures Hits(g, s, v) + HitsOutside(g, |g.entities|, Elems(s), v) == HitsOutside(g, |g.entities|, {}, v)
  {
    if s == [] {
      HitsOutsideSame(g, |g.entities|, Elems(s), {}, v);
    } else {
      var s' := s[..|s| - 1];
      var x := s[|s| - 1];
      assert Elems(s) == Elems(s') + {x} by {
        assert s == s' + [x];
      }
      assert x !in Elems(s');
      HitsSplit(g, s', v);
      HitsOutsideRemove(g, |g.entities|, Elems(s'), x, v);
    }
  }

  /** Some entity outside `done` contributes to a positive count. */
  lemma {:induction false} HitsOutsideWitness(g: Graph, k: nat, done: set<EntityId>, v: EntityId) returns (u: EntityId)
    requires Valid(g) && k <= |g.entities| && HitsOutside(g, k, done, v) > 0
    ensures u < k && u !in done && HasEdge(g, u, v)
  {
    if HitsOutside(g, k - 1, done, v) > 0 {
      u := HitsOutsideWitness(g, k - 1, done, v);
    } else {
      u := k - 1;
      CountPositive(Targets(g, u), v);
    }
  }

  // ---- cardinality facts ----

  lemma {:induction false} DistinctCard(s: seq<EntityId>)
    requires Distinct(s)
    ensures |Elems(s)| == |s|
  {
    if s != [] {
      var s' := s[..|s| - 1];
      DistinctCard(s');
      assert Elems(s) == Elems(s') + {s[|s| - 1]} by {
        assert s == s' + [s[|s| - 1]];
      }
    }
  }

  lemma {:induction false} RangeCard(n: nat)
    ensures |Range(n)| == n
  {
    if n > 0 {
      RangeCard(n - 1);
    }
  }

  lemma {:induction false} SubsetRangeCard(a: set<EntityId>, n: nat)
    requires a <= Range(n)
    ensures |a| <= n
  {
    if n > 0 {
      SubsetRangeCard(a - {n - 1}, n - 1);
    } else {
      assert a == {};
    }
  }

  /** Distinct entities of a graph number at most the graph's size, and
      exactly its size when every entity is among them. */
  lemma DistinctBound(g: Graph, s: seq<EntityId>)
    requires InRange(g, s) && Distinct(s)
    ensures |s| <= |g.entities|
    ensures (forall v :: 0 <= v < |g.entities| ==> v in s) ==> |s| == |g.entities|
  {
    DistinctCard(s);
    SubsetRangeCard(Elems(s), |g.entities|);
    if forall v :: 0 <= v < |g.entities| ==> v in s {
      assert Elems(s) == Range(|g.entities|);
      RangeCard(|g.entities|);
    }
  }
}

=== FILE: messages.dfy ===
/** The containers agents pass things around in: the FIFO `MessageQueue`,
    and the question/answer examples (`QAExample`, `QAExamples`) that are
    shown to the model as text. */
module Messages {
  import opened Wrappers
  import opened Text
  import PyList

  // ---------------------------------------------------------------------
  // `MessageQueue`
  // ---------------------------------------------------------------------

  /** `Message`: the agents at either end, when known, and the content.
      Agents are identified by a number; what an agent is lies outside
      this model. */
  datatype Message<C> = Message(sender: Option<nat>, receiver: Option<nat>, content: C)

  /** `setContent`: the content is replaced; the agents stay. */
  function SetContent<C>(m: Message<C>, content: C): (r: Message<C>)
    ensures r.content == content && r.sender == m.sender && r.receiver == m.receiver
  {
    m.(content := content)
  }

  /** `setSender`: the sender is replaced; receiver and content stay. */
  function SetSender<C>(m: Message<C>, sender: Option<nat>): (r: Message<C>)
    ensures r.sender == sender && r.receiver == m.receiver && r.content == m.content
  {
    m.(sender := sender)
  }

  /** `setReceiver`: the receiver is replaced; sender and content stay. */
  function SetReceiver<C>(m: Message<C>, receiver: Option<nat>): (r: Message<C>)
    ensures r.receiver == receiver && r.sender == m.sender && r.content == m.content
  {
    m.(receiver := receiver)
  }

  /** Setting what a getter returned changes nothing, and the setters of
      different fields can be applied in either order. */
  lemma SettersAgree<C>(m: Message<C>, sender: Option<nat>, receiver: Option<nat>, content: C)
    ensures SetContent(m, m.content) == m && SetSender(m, m.sender) == m && SetReceiver(m, m.receiver) == m
    ensures SetSender(SetReceiver(m, receiver), sender) == SetReceiver(SetSender(m, sender), receiver)
    ensures SetContent(SetSender(m, sender), content) == SetSender(SetContent(m, content), sender)
    ensures SetContent(SetReceiver(m, receiver), content) == SetReceiver(SetContent(m, content), receiver)
  {
  }

  /** `MessageQueue`: a deque used first in, first out. */
  datatype MessageQueue<T> = MessageQueue(items: seq<T>)

  /** `push`: the message joins at the back. */
  function Push<T>(q: MessageQueue<T>, m: T): (r: MessageQueue<T>)
    ensures |r.items| == |q.items| + 1 && r.items[|q.items|] == m
    ensures r.items[..|q.items|] == q.items
  {
    MessageQueue(q.items + [m])
  }

  /** `pop`: the oldest message leaves from the front; an empty queue gives
      None and stays empty. */
  function Pop<T>(q: MessageQueue<T>): (r: (Option<T>, MessageQueue<T>))
    ensures q.items == [] <==> r.0.None?
    ensures r.0.None? ==> r.1 == q
    ensures r.0.Some? ==> q.items == [r.0.value] + r.1.items
  {
    if |q.items| == 0 then (None, q)
    else (Some(q.items[0]), MessageQueue(q.items[1..]))
  }

  /** Pushing to a queue that is not empty does not change what the next
      pop returns: the pop and the push commute. */
  lemma PopPush<T>(q: MessageQueue<T>, m: T)
    requires q.items != []
    ensures Pop(Push(q, m)).0 == Pop(q).0
    ensures Pop(Push(q, m)).1 == Push(Pop(q).1, m)
  {
    assert (q.items + [m])[1..] == q.items[1..] + [m];
  }

  /** A message pushed to an empty queue is the next one popped. */
  lemma PopPushEmpty<T>(m: T)
    ensures Pop(Push(MessageQueue([]), m)) == (Some(m), MessageQueue([]))
  {
  }

  /** Popping until the queue reports empty: the messages come out in the
      order they were pushed, and the queue is left empty. */
  method Drain<T>(q: MessageQueue<T>) returns (out: seq<T>, rest: MessageQueue<T>)
    ensures out == q.items && rest.items == []
  {
    out := [];
    rest := q;
    var next := Pop(rest);
    while next.0.Some?
      invariant out + rest.items == q.items
      invariant next == Pop(rest)
      decreases |rest.items|
    {
      out := out + [next.0.value];
      rest := next.1;
      next := Pop(rest);
    }
  }

  // ---------------------------------------------------------------------
  // `QAExample` and `QAExamples`
  // ---------------------------------------------------------------------

  /** `QAExample`: a question and its answer, either of which may be None
      when the dictionary it was made from lacks the key. */
  datatype QAExample = QAExample(q: Option<string>, a: Option<string>)

  /** `str()` of an optional string. */
  function ShowOptional(s: Option<string>): string {
    match s
    case None => "None"
    case Some(t) => t
  }

  /** `QAExample.createQAExample`: the `Q` and `A` entries of the dictionary. */
  function CreateQAExample(qa: map<string, string>): (r: QAExample)
    ensures r.q.Some? <==> "Q" in qa
    ensures r.a.Some? <==> "A" in qa
    ensures r.q.Some? ==> r.q.value == qa["Q"]
    ensures r.a.Some? ==> r.a.value == qa["A"]
  {
    QAExample(if "Q" in qa then Some(qa["Q"]) else None, if "A" in qa then Some(qa["A"]) else None)
  }

  /** `QAExample.__str__`: `Q:` and the question, a newline, `A:` and the answer. */
  function ShowQA(e: QAExample): (s: string)
    ensures var q := ShowOptional(e.q); var n := |q|;
      && |s| == n + 5 + |ShowOptional(e.a)|
      && s[..2] == "Q:" && s[2..n + 2] == q && s[n + 2..n + 5] == "\nA:" && s[n + 5..] == ShowOptional(e.a)
  {
    var q := ShowOptional(e.q);
    var s := "Q:" + q + "\nA:" + ShowOptional(e.a);
    assert s == "Q:" + (q + ("\nA:" + ShowOptional(e.a)));
    s
  }

  predicate NotNewline(c: char) {
    c != '\n'
  }

  /** Reads a shown example back: the text up to the first newline after
      `Q:` is the question, the rest after `A:` the answer. */
  function ReadQA(s: string): Option<(string, string)> {
    if |s| < 2 || s[..2] != "Q:" then None
    else
      var e := RunEnd(s, 2, NotNewline);
      if e + 3 <= |s| && s[e..e + 3] == "\nA:" then Some((s[2..e], s[e + 3..])) else None
  }

  /** A question without a newline and its answer are read back from
      their text. */
  lemma ReadShownQA(q: string, a: string)
    requires forall k :: 0 <= k < |q| ==> q[k] != '\n'
    ensures ReadQA(ShowQA(QAExample(Some(q), Some(a)))) == Some((q, a))
  {
    var s := ShowQA(QAExample(Some(q), Some(a)));
    var e := 2 + |q|;
    assert s == "Q:" + (q + ("\nA:" + a));
    Piece(s, 0, 2, s[0..], "Q:", q + ("\nA:" + a));
    Skip(s, 0, 2, s[0..], "Q:", q + ("\nA:" + a));
    Piece(s, 2, e, s[2..], q, "\nA:" + a);
    Skip(s, 2, e, s[2..], q, "\nA:" + a);
    Piece(s, e, e + 3, s[e..], "\nA:", a);
    Skip(s, e, e + 3, s[e..], "\nA:", a);
    var p: char -> bool := NotNewline;
    forall k | 0 <= k < |q|
      ensures p(q[k])
    {
    }
    RunPiece(s, 2, e, q, "\nA:" + a, p);
    RunEndUnique(s, 2, e, p);
  }

  /** `QAExamples` */
  datatype QAExamples = QAExamples(examples: seq<QAExample>)

  /** `QAExamples.createQAExamples`: one example per dictionary, in order. */
  method CreateQAExamples(qas: seq<map<string, string>>) returns (r: QAExamples)
    ensures |r.examples| == |qas|
    ensures forall i :: 0 <= i < |qas| ==> r.examples[i] == CreateQAExample(qas[i])
  {
    var examples: seq<QAExample> := [];
    for i := 0 to |qas|
      invariant |examples| == i
      invariant forall j :: 0 <= j < i ==> examples[j] == CreateQAExample(qas[j])
    {
      examples := examples + [CreateQAExample(qas[i])];
    }
    r := QAExamples(examples);
  }

  /** `__len__` */
  function LenQA(xs: QAExamples): nat {
    |xs.examples|
  }

  /** `getExampleByIndex`, `IndexError` being None. */
  function GetExample(xs: QAExamples, index: int): (r: Option<QAExample>)
    ensures r.Some? <==> -(LenQA(xs) as int) <= index < LenQA(xs)
    ensures 0 <= index < LenQA(xs) ==> r == Some(xs.examples[index])
    ensures -(LenQA(xs) as int) <= index < 0 ==> r == Some(xs.examples[LenQA(xs) as int + index])
  {
    PyList.Get(xs.examples, index)
  }

  /** `setExampleByIndex`: only the addressed example is replaced. */
  function SetExample(xs: QAExamples, index: int, e: QAExample): (r: Option<QAExamples>)
    ensures r.Some? <==> -(LenQA(xs) as int) <= index < LenQA(xs)
    ensures r.Some? ==> LenQA(r.value) == LenQA(xs)
    ensures r.Some? ==> forall j :: 0 <= j < LenQA(xs) && Some(j) != PyList.Normalize(LenQA(xs), index) ==>
      r.value.examples[j] == xs.examples[j]
  {
    match PyList.Set(xs.examples, index, e)
    case None => None
    case Some(s) => Some(QAExamples(s))
  }

  /** An example set at an index is what is then got there. */
  lemma SetThenGet(xs: QAExamples, index: int, e: QAExample)
    requires -(LenQA(xs) as int) <= index < LenQA(xs)
    ensures GetExample(SetExample(xs, index, e).value, index) == Some(e)
  {
    var k := PyList.Normalize(LenQA(xs), index).value;
    assert SetExample(xs, index, e).value.examples[k] == e;
  }

  /** `delExampleByIndex`: exactly the addressed example leaves; putting it
      back where it was gives the list back. */
  function DelExample(xs: QAExamples, index: int): (r: Option<QAExamples>)
    ensures r.Some? <==> -(LenQA(xs) as int) <= index < LenQA(xs)
    ensures r.Some? ==> LenQA(r.value) == LenQA(xs) - 1
    ensures r.Some? ==> var k := PyList.Normalize(LenQA(xs), index).value;
      PyList.Insert(r.value.examples, k, xs.examples[k]) == xs.examples
  {
    match PyList.Delete(xs.examples, index)
    case None => None
    case Some(s) =>
      PyList.DeleteInsertRoundTrip(xs.examples, index);
      Some(QAExamples(s))
  }

  /** `addExample`: the example goes to the end. */
  function AddExample(xs: QAExamples, e: QAExample): (r: QAExamples)
    ensures LenQA(r) == LenQA(xs) + 1 && r.examples[LenQA(xs)] == e
    ensures r.examples[..LenQA(xs)] == xs.examples
  {
    QAExamples(xs.examples + [e])
  }

  /** Deleting the example just added gives the examples back. */
  lemma AddThenDelete(xs: QAExamples, e: QAExample)
    ensures DelExample(AddExample(xs, e), -1) == Some(xs)
  {
    var a := AddExample(xs, e);
    var d := DelExample(a, -1).value;
    assert PyList.Normalize(LenQA(a), -1) == Some(LenQA(xs));
    assert d.examples == PyList.Insert(d.examples, LenQA(xs), e)[..LenQA(xs)];
  }

  /** `QAExamples.__str__`: the examples' texts separated by a blank line. */
  function ShowQAs(xs: QAExamples): (s: string)
    ensures LenQA(xs) == 0 ==> s == ""
    ensures LenQA(xs) == 1 ==> s == ShowQA(xs.examples[0])
  {
    Join("\n\n", seq(|xs.examples|, i requires 0 <= i < |xs.examples| => ShowQA(xs.examples[i])))
  }

  /** Adding an example adds its text after a blank line. */
  lemma ShowQAsAdd(xs: QAExamples, e: QAExample)
    requires LenQA(xs) > 0
    ensures ShowQAs(AddExample(xs, e)) == ShowQAs(xs) + "\n\n" + ShowQA(e)
  {
    var shown := seq(|xs.examples|, i requires 0 <= i < |xs.examples| => ShowQA(xs.examples[i]));
    var a := AddExample(xs, e);
    assert seq(|a.examples|, i requires 0 <= i < |a.examples| => ShowQA(a.examples[i])) == shown + [ShowQA(e)];
    JoinAppend("\n\n", shown, ShowQA(e));
  }
}

=== FILE: plan_checker.dfy ===
/** `CodePlanFormatChecker`: the check an agent runs on a plan before the
    steps are read, and the `IssueReport` it files the rejected lines in.
    A line is accepted when it starts with one of two case-sensitive
    templates, one for classes and one for functions:

      Step <digits>:Create a class called <identifier>.This class will be responsible for <text>.

    Both templates are anchored at the start of the line only. */
module PlanChecker {
  import opened Wrappers
  import opened Text
  import PyList

  /** An entry of the report: `(i, line)`, the position of a rejected line
      among the plan's lines and the line itself. */
  datatype Issue = Issue(index: nat, line: string)

  /** `IssueReport` */
  datatype IssueReport = IssueReport(issues: seq<Issue>)

  /** `clear_issue_report` */
  function ClearIssueReport(r: IssueReport): (c: IssueReport)
    ensures Len(c) == 0
  {
    IssueReport([])
  }

  /** `append_issue`: the issue goes to the end; the earlier ones stay. */
  function AppendIssue(r: IssueReport, issue: Issue): (a: IssueReport)
    ensures Len(a) == Len(r) + 1
    ensures a.issues[..Len(r)] == r.issues && a.issues[Len(r)] == issue
  {
    IssueReport(r.issues + [issue])
  }

  /** `get_issue_by_index`, `IndexError` being `None`. */
  function GetIssueByIndex(r: IssueReport, index: int): (i: Option<Issue>)
    ensures i.Some? <==> -(Len(r) as int) <= index < Len(r)
    ensures 0 <= index < Len(r) ==> i == Some(r.issues[index])
    ensures -(Len(r) as int) <= index < 0 ==> i == Some(r.issues[Len(r) as int + index])
  {
    PyList.Get(r.issues, index)
  }

  /** `del_issue_by_index`: exactly the addressed issue leaves; putting it
      back where it was gives the report back. */
  function DelIssueByIndex(r: IssueReport, index: int): (d: Option<IssueReport>)
    ensures d.Some? <==> -(Len(r) as int) <= index < Len(r)
    ensures d.Some? ==> Len(d.value) == Len(r) - 1
    ensures d.Some? ==> var k := PyList.Normalize(Len(r), index).value;
      PyList.Insert(d.value.issues, k, r.issues[k]) == r.issues
  {
    match PyList.Delete(r.issues, index)
    case None => None
    case Some(rest) =>
      PyList.DeleteInsertRoundTrip(r.issues, index);
      Some(IssueReport(rest))
  }

  /** `__len__` */
  function Len(r: IssueReport): nat {
    |r.issues|
  }

  /** The issue just appended is the last one, and deleting it gives the
      report back. */
  lemma AppendIssueLast(r: IssueReport, issue: Issue)
    ensures GetIssueByIndex(AppendIssue(r, issue), -1) == Some(issue)
    ensures DelIssueByIndex(AppendIssue(r, issue), -1) == Some(r)
  {
    var a := AppendIssue(r, issue);
    var d := DelIssueByIndex(a, -1).value;
    assert PyList.Normalize(Len(a), -1) == Some(Len(r));
    assert d.issues == PyList.Insert(d.issues, Len(r), issue)[..Len(r)];
    assert d.issues == r.issues;
  }

  /** The noun of a template, written the same way in both places. */
  datatype Noun = ClassNoun | FunctionNoun

  function NounWord(n: Noun): string {
    match n
    case ClassNoun => "class"
    case FunctionNoun => "function"
  }

  /** The literal text between the step number and the identifier, */
  function CreatePart(n: Noun): string {
    ":Create a " + NounWord(n) + " called "
  }

  /** and between the identifier and the responsibility text. */
  function SentencePart(n: Noun): string {
    ".This " + NounWord(n) + " will be responsible for "
  }

  /** `[_a-zA-Z]`; the rest of an identifier is `[0-9_a-zA-Z]`, which is
      `IsWordChar`. */
  predicate IsIdentStart(c: char) {
    IsAsciiLetter(c) || c == '_'
  }

  /** The characters `.` matches. */
  predicate NotNewline(c: char) {
    c != '\n'
  }

  /** `lit` is at `i`, letter case included. */
  predicate LitIs(s: string, i: nat, lit: string) {
    i + |lit| <= |s| && s[i..i + |lit|] == lit
  }

  /** `[_a-zA-Z][0-9_a-zA-Z]*` spans `a..nameEnd`. */
  predicate IdentFits(s: string, a: nat, nameEnd: nat) {
    a < nameEnd && AllIn(s, a + 1, nameEnd, IsWordChar) && IsIdentStart(s[a])
  }

  /** `(.+)\.` from `b`: some text, the final `.` at `dotAt`. */
  predicate TextFits(s: string, b: nat, dotAt: nat) {
    b < dotAt < |s| && AllIn(s, b, dotAt, NotNewline) && s[dotAt] == '.'
  }

  /** The template for `n` matches at the start of `s`, with `(\d+)`
      spanning `5..colonAt`, the identifier ending at `nameEnd` and the
      final `\.` at `dotAt`. */
  predicate TemplateFits(s: string, n: Noun, colonAt: nat, nameEnd: nat, dotAt: nat) {
    && HeadFits(s, n, colonAt)
    && NameFits(s, n, colonAt + |CreatePart(n)|, nameEnd)
    && TextFits(s, nameEnd + |SentencePart(n)|, dotAt)
  }

  /** `Step (\d+):Create a <noun> called ` with `(\d+)` spanning
      `5..colonAt`. */
  predicate HeadFits(s: string, n: Noun, colonAt: nat) {
    LitIs(s, 0, "Step ") && 5 < colonAt && AllIn(s, 5, colonAt, IsDigit) && LitIs(s, colonAt, CreatePart(n))
  }

  /** The identifier from `a` to `nameEnd`, then `.This <noun> will be
      responsible for `. */
  predicate NameFits(s: string, n: Noun, a: nat, nameEnd: nat) {
    IdentFits(s, a, nameEnd) && LitIs(s, nameEnd, SentencePart(n))
  }

  /** Some template matches at the start of `line`. */
  ghost predicate Accepted(line: string) {
    exists n: Noun, colonAt: nat, nameEnd: nat, dotAt: nat :: TemplateFits(line, n, colonAt, nameEnd, dotAt)
  }

  /** A `.` somewhere in `s[i..e]`. */
  function DotWithin(s: string, i: nat, e: nat): (r: bool)
    requires e <= |s|
    ensures r <==> exists j :: i <= j < e && s[j] == '.'
    decreases e - i
  {
    if i >= e then false else s[i] == '.' || DotWithin(s, i + 1, e)
  }

  /** `Step (\d+):Create a <noun> called `: `\d+` is followed by `:`,
      which it cannot consume, so it takes its longest run. The result is
      where the identifier starts. */
  function MatchHead(s: string, n: Noun): (a: Option<nat>)
    ensures a.Some? ==> a.value <= |s|
  {
    if !LitIs(s, 0, "Step ") then None
    else
      var colonAt := RunEnd(s, 5, IsDigit);
      if colonAt == 5 || !LitIs(s, colonAt, CreatePart(n)) then None
      else Some(colonAt + |CreatePart(n)|)
  }

  /** The identifier and `.This <noun> will be responsible for `: the
      identifier is followed by `.`, so it takes its longest run. The
      result is where the text starts. */
  function MatchIdent(s: string, n: Noun, a: nat): (b: Option<nat>)
    requires a <= |s|
    ensures b.Some? ==> b.value <= |s|
  {
    if a == |s| || !IsIdentStart(s[a]) then None
    else
      var nameEnd := RunEnd(s, a + 1, IsWordChar);
      if !LitIs(s, nameEnd, SentencePart(n)) then None
      else Some(nameEnd + |SentencePart(n)|)
  }

  /** `(.+)\.`: a `.` after some text on the same line. */
  function MatchText(s: string, b: nat): bool
    requires b <= |s|
  {
    DotWithin(s, b + 1, RunEnd(s, b, NotNewline))
  }

  /** `re.match` of the template for `n`. */
  function MatchTemplate(s: string, n: Noun): bool {
    match MatchHead(s, n)
    case None => false
    case Some(a) =>
      match MatchIdent(s, n, a)
      case None => false
      case Some(b) => MatchText(s, b)
  }

  /** `check_one_line`: the class template or the function template
      matches; either way the line starts with `Step ` and a digit. */
  function CheckOneLine(line: string): (r: bool)
    ensures r ==> LitIs(line, 0, "Step ") && 5 < |line| && IsDigit(line[5])
  {
    if MatchTemplate(line, ClassNoun) then TemplateHead(line, ClassNoun); true
    else if MatchTemplate(line, FunctionNoun) then TemplateHead(line, FunctionNoun); true
    else false
  }

  /** A line either template accepts starts with `Step ` and a digit. */
  lemma TemplateHead(s: string, n: Noun)
    requires MatchTemplate(s, n)
    ensures LitIs(s, 0, "Step ") && 5 < |s| && IsDigit(s[5])
  {
    var colonAt := MatchHeadSound(s, n);
    var p: char -> bool := IsDigit;
    assert p(s[5]);
  }

  /** What the matcher finds is a match of the template. */
  lemma MatchTemplateSound(s: string, n: Noun) returns (colonAt: nat, nameEnd: nat, dotAt: nat)
    requires MatchTemplate(s, n)
    ensures TemplateFits(s, n, colonAt, nameEnd, dotAt)
  {
    var a := MatchHead(s, n).value;
    var b := MatchIdent(s, n, a).value;
    colonAt := MatchHeadSound(s, n);
    nameEnd := MatchIdentSound(s, n, a);
    dotAt := MatchTextSound(s, b);
  }

  /** The head the matcher finds, */
  lemma MatchHeadSound(s: string, n: Noun) returns (colonAt: nat)
    requires MatchHead(s, n).Some?
    ensures HeadFits(s, n, colonAt) && MatchHead(s, n).value == colonAt + |CreatePart(n)|
  {
    colonAt := RunEnd(s, 5, IsDigit);
  }

  /** the identifier, */
  lemma MatchIdentSound(s: string, n: Noun, a: nat) returns (nameEnd: nat)
    requires a <= |s| && MatchIdent(s, n, a).Some?
    ensures NameFits(s, n, a, nameEnd)
    ensures MatchIdent(s, n, a).value == nameEnd + |SentencePart(n)|
  {
    nameEnd := RunEnd(s, a + 1, IsWordChar);
  }

  /** and the text. */
  lemma MatchTextSound(s: string, b: nat) returns (dotAt: nat)
    requires b <= |s| && MatchText(s, b)
    ensures TextFits(s, b, dotAt)
  {
    var e := RunEnd(s, b, NotNewline);
    dotAt :| b + 1 <= dotAt < e && s[dotAt] == '.';
  }

  /** The first character of a literal found at `i`. */
  lemma LitIsFirst(s: string, i: nat, lit: string)
    requires LitIs(s, i, lit) && |lit| > 0
    ensures s[i] == lit[0]
  {
    assert s[i..i + |lit|][0] == s[i];
  }

  /** The head is determined, */
  lemma MatchHeadComplete(s: string, n: Noun, colonAt: nat)
    requires HeadFits(s, n, colonAt)
    ensures MatchHead(s, n) == Some(colonAt + |CreatePart(n)|)
  {
    LitIsFirst(s, colonAt, CreatePart(n));
    RunEndUnique(s, 5, colonAt, IsDigit);
  }

  /** and so is the identifier; */
  lemma MatchIdentComplete(s: string, n: Noun, a: nat, nameEnd: nat)
    requires NameFits(s, n, a, nameEnd)
    ensures MatchIdent(s, n, a) == Some(nameEnd + |SentencePart(n)|)
  {
    LitIsFirst(s, nameEnd, SentencePart(n));
    RunEndUnique(s, a + 1, nameEnd, IsWordChar);
  }

  /** any final `.` after some text on the line will do. */
  lemma MatchTextComplete(s: string, b: nat, dotAt: nat)
    requires TextFits(s, b, dotAt)
    ensures MatchText(s, b)
  {
    assert AllIn(s, b, dotAt + 1, NotNewline) by {
      var p: char -> bool := NotNewline;
      assert p(s[dotAt]);
    }
    RunEndCovers(s, b, dotAt + 1, NotNewline);
  }

  /** Whenever the template matches, the matcher finds it. */
  lemma MatchTemplateComplete(s: string, n: Noun, colonAt: nat, nameEnd: nat, dotAt: nat)
    requires TemplateFits(s, n, colonAt, nameEnd, dotAt)
    ensures MatchTemplate(s, n)
  {
    var a := MatchHeadStage(s, n, colonAt, nameEnd, dotAt);
    var b := MatchIdentStage(s, n, colonAt, nameEnd, dotAt);
    MatchTextComplete(s, b, dotAt);
  }

  /** The head stage of a template match, */
  lemma MatchHeadStage(s: string, n: Noun, colonAt: nat, nameEnd: nat, dotAt: nat) returns (a: nat)
    requires TemplateFits(s, n, colonAt, nameEnd, dotAt)
    ensures a == colonAt + |CreatePart(n)| && MatchHead(s, n) == Some(a)
  {
    a := colonAt + |CreatePart(n)|;
    MatchHeadComplete(s, n, colonAt);
  }

  /** and its identifier stage. */
  lemma MatchIdentStage(s: string, n: Noun, colonAt: nat, nameEnd: nat, dotAt: nat) returns (b: nat)
    requires TemplateFits(s, n, colonAt, nameEnd, dotAt)
    ensures b == nameEnd + |SentencePart(n)| && colonAt + |CreatePart(n)| <= |s|
    ensures MatchIdent(s, n, colonAt + |CreatePart(n)|) == Some(b) && TextFits(s, b, dotAt)
  {
    b := nameEnd + |SentencePart(n)|;
    MatchIdentComplete(s, n, colonAt + |CreatePart(n)|, nameEnd);
  }

  /** `check_one_line` accepts only lines a template matches, */
  lemma CheckedAccepted(line: string)
    requires CheckOneLine(line)
    ensures Accepted(line)
  {
    var n := if MatchTemplate(line, ClassNoun) then ClassNoun else FunctionNoun;
    var c, e, d := MatchTemplateSound(line, n);
  }

  /** and every one of them. */
  lemma AcceptedChecked(line: string)
    requires Accepted(line)
    ensures CheckOneLine(line)
  {
    var n: Noun, c: nat, e: nat, d: nat :| TemplateFits(line, n, c, e, d);
    MatchTemplateComplete(line, n, c, e, d);
    if n == ClassNoun {
      assert MatchTemplate(line, ClassNoun);
    } else {
      assert MatchTemplate(line, FunctionNoun);
    }
  }

  /** `check_one_line` accepts exactly the lines a template matches. */
  lemma CheckOneLineIff(line: string)
    ensures CheckOneLine(line) <==> Accepted(line)
  {
    if CheckOneLine(line) {
      CheckedAccepted(line);
    }
    if Accepted(line) {
      AcceptedChecked(line);
    }
  }

  /** Text after a match does not matter: the templates are anchored at
      the start of the line only. */
  lemma AnchoredAtStart(line: string, more: string)
    requires CheckOneLine(line)
    ensures CheckOneLine(line + more)
  {
    var n := if MatchTemplate(line, ClassNoun) then ClassNoun else FunctionNoun;
    var c, e, d := MatchTemplateSound(line, n);
    FitsExtend(line, more, n, c, e, d);
    MatchTemplateComplete(line + more, n, c, e, d);
  }

  lemma FitsExtend(s: string, more: string, n: Noun, colonAt: nat, nameEnd: nat, dotAt: nat)
    requires TemplateFits(s, n, colonAt, nameEnd, dotAt)
    ensures TemplateFits(s + more, n, colonAt, nameEnd, dotAt)
  {
    var t := s + more;
    assert forall k :: 0 <= k < |s| ==> t[k] == s[k];
    assert forall i, j :: 0 <= i <= j <= |s| ==> t[i..j] == s[i..j];
  }

  /** A step number: one or more digits. */
  predicate IsNumeral(w: string) {
    |w| > 0 && forall k :: 0 <= k < |w| ==> IsDigit(w[k])
  }

  /** `[_a-zA-Z][0-9_a-zA-Z]*` */
  predicate IsIdent(w: string) {
    |w| > 0 && IsIdentStart(w[0]) && forall k :: 1 <= k < |w| ==> IsWordChar(w[k])
  }

  /** Text `.` can match throughout. */
  predicate OneLineText(w: string) {
    |w| > 0 && forall k :: 0 <= k < |w| ==> NotNewline(w[k])
  }

  /** A line laid out like a template, with the noun `n1` after `Create a `
      and the noun `n2` after `This`. */
  function TemplateLine(digits: string, n1: Noun, ident: string, n2: Noun, text: string, rest: string): string {
    "Step " + (digits + (CreatePart(n1) + (ident + (SentencePart(n2) + (text + ("." + rest))))))
  }

  /** Where the parts of a `TemplateLine` start. */
  datatype Layout = Layout(colonAt: nat, identAt: nat, nameEnd: nat, textAt: nat, dotAt: nat)

  function LayoutOf(digits: string, n1: Noun, ident: string, n2: Noun, text: string): Layout {
    var colonAt := 5 + |digits|;
    var identAt := colonAt + |CreatePart(n1)|;
    var nameEnd := identAt + |ident|;
    var textAt := nameEnd + |SentencePart(n2)|;
    Layout(colonAt, identAt, nameEnd, textAt, textAt + |text|)
  }

  /** A `TemplateLine` in parts: each `r` is what follows a part. */
  predicate LineParts(s: string, digits: string, n1: Noun, ident: string, n2: Noun, text: string, rest: string,
                      r2: string, r3: string, r4: string, r5: string) {
    && r5 == text + ("." + rest) && r4 == SentencePart(n2) + r5 && r3 == ident + r4
    && r2 == CreatePart(n1) + r3 && s == "Step " + (digits + r2)
  }

  /** The suffixes of a line at the positions `p` gives. */
  predicate Placed(s: string, p: Layout, r2: string, r3: string, r4: string, r5: string) {
    && p.colonAt <= |s| && s[p.colonAt..] == r2
    && p.identAt <= |s| && s[p.identAt..] == r3
    && p.nameEnd <= |s| && s[p.nameEnd..] == r4
    && p.textAt <= |s| && s[p.textAt..] == r5
  }

  lemma LinePlaced(s: string, digits: string, n1: Noun, ident: string, n2: Noun, text: string, rest: string,
                   r2: string, r3: string, r4: string, r5: string)
    requires LineParts(s, digits, n1, ident, n2, text, rest, r2, r3, r4, r5)
    ensures Placed(s, LayoutOf(digits, n1, ident, n2, text), r2, r3, r4, r5)
    ensures s[5..] == digits + r2
  {
    var p := LayoutOf(digits, n1, ident, n2, text);
    assert s[0..] == s;
    Skip(s, 0, 5, s, "Step ", digits + r2);
    Skip(s, 5, p.colonAt, digits + r2, digits, r2);
    Skip(s, p.colonAt, p.identAt, r2, CreatePart(n1), r3);
    Skip(s, p.identAt, p.nameEnd, r3, ident, r4);
    Skip(s, p.nameEnd, p.textAt, r4, SentencePart(n2), r5);
  }

  /** The head of a `TemplateLine` is the head of the template for `n1`, */
  lemma LineHead(s: string, p: Layout, digits: string, n1: Noun, r2: string, r3: string)
    requires 5 <= |s| && s[0..5] == "Step " && s[5..] == digits + r2 && IsNumeral(digits)
    requires p.colonAt == 5 + |digits| && p.identAt == p.colonAt + |CreatePart(n1)|
    requires p.colonAt <= |s| && s[p.colonAt..] == r2 && r2 == CreatePart(n1) + r3
    ensures HeadFits(s, n1, p.colonAt)
  {
    RunPiece(s, 5, p.colonAt, digits, r2, IsDigit);
    Piece(s, p.colonAt, p.identAt, r2, CreatePart(n1), r3);
  }

  /** its identifier the identifier written, followed by the sentence
      for `n2`, */
  lemma LineIdent(s: string, p: Layout, ident: string, n2: Noun, r3: string, r4: string, r5: string)
    requires IsIdent(ident) && p.nameEnd == p.identAt + |ident|
    requires p.identAt <= |s| && s[p.identAt..] == r3 && r3 == ident + r4
    requires p.nameEnd <= |s| && s[p.nameEnd..] == r4 && r4 == SentencePart(n2) + r5
    requires p.textAt == p.nameEnd + |SentencePart(n2)|
    ensures NameFits(s, n2, p.identAt, p.nameEnd)
  {
    CharAt(s, p.identAt, r3, ident[0], ident[1..] + r4);
    Skip(s, p.identAt, p.identAt + 1, r3, [ident[0]], ident[1..] + r4);
    RunPiece(s, p.identAt + 1, p.nameEnd, ident[1..], r4, IsWordChar);
    Piece(s, p.nameEnd, p.textAt, r4, SentencePart(n2), r5);
  }

  /** and its text the text written, up to the final `.`. */
  lemma LineText(s: string, p: Layout, text: string, rest: string, r5: string)
    requires OneLineText(text) && p.dotAt == p.textAt + |text|
    requires p.textAt <= |s| && s[p.textAt..] == r5 && r5 == text + ("." + rest)
    ensures TextFits(s, p.textAt, p.dotAt)
  {
    RunPiece(s, p.textAt, p.dotAt, text, "." + rest, NotNewline);
    Skip(s, p.textAt, p.dotAt, r5, text, "." + rest);
    CharAt(s, p.dotAt, "." + rest, '.', rest);
  }

  /** A literal that differs from the one at `i` at some position is not
      at `i`. */
  lemma LitClash(s: string, i: nat, lit: string, other: string, k: nat)
    requires LitIs(s, i, other) && k < |lit| && k < |other| && lit[k] != other[k]
    ensures !LitIs(s, i, lit)
  {
    assert s[i..i + |other|][k] == s[i + k];
  }

  /** The two nouns differ in their first letter. */
  lemma NounsClash(n: Noun, m: Noun)
    requires n != m
    ensures CreatePart(n)[10] != CreatePart(m)[10] && SentencePart(n)[6] != SentencePart(m)[6]
  {
  }

  /** Only the template for the noun after `Create a ` gets past the head
      of a `TemplateLine`, */
  lemma LineHeadOnly(s: string, p: Layout, n1: Noun, n: Noun)
    requires HeadFits(s, n1, p.colonAt)
    requires n != n1
    ensures MatchHead(s, n).None?
  {
    LitIsFirst(s, p.colonAt, CreatePart(n1));
    RunEndUnique(s, 5, p.colonAt, IsDigit);
    NounsClash(n, n1);
    LitClash(s, p.colonAt, CreatePart(n), CreatePart(n1), 10);
  }

  /** and it stops at the sentence when the nouns differ. */
  lemma LineIdentOnly(s: string, p: Layout, n1: Noun, n2: Noun)
    requires NameFits(s, n2, p.identAt, p.nameEnd)
    requires n1 != n2
    ensures MatchIdent(s, n1, p.identAt).None?
  {
    LitIsFirst(s, p.nameEnd, SentencePart(n2));
    RunEndUnique(s, p.identAt + 1, p.nameEnd, IsWordChar);
    NounsClash(n1, n2);
    LitClash(s, p.nameEnd, SentencePart(n1), SentencePart(n2), 6);
  }

  /** What the parts of a `TemplateLine` match, */
  lemma LineFacts(s: string, p: Layout, digits: string, n1: Noun, ident: string, n2: Noun, text: string, rest: string,
                  r2: string, r3: string, r4: string, r5: string)
    requires IsNumeral(digits) && IsIdent(ident)
    requires p == LayoutOf(digits, n1, ident, n2, text)
    requires LineParts(s, digits, n1, ident, n2, text, rest, r2, r3, r4, r5)
    ensures HeadFits(s, n1, p.colonAt)
    ensures NameFits(s, n2, p.identAt, p.nameEnd)
    ensures p.textAt <= |s| && s[p.textAt..] == r5
  {
    LinePlaced(s, digits, n1, ident, n2, text, rest, r2, r3, r4, r5);
    Piece(s, 0, 5, s[0..], "Step ", digits + r2);
    LineHead(s, p, digits, n1, r2, r3);
    LineIdent(s, p, ident, n2, r3, r4, r5);
  }

  /** the same noun twice is accepted, */
  lemma LineAgreeing(s: string, p: Layout, n: Noun, text: string, rest: string, r5: string)
    requires OneLineText(text) && p.dotAt == p.textAt + |text|
    requires HeadFits(s, n, p.colonAt)
    requires p.identAt == p.colonAt + |CreatePart(n)| && p.textAt == p.nameEnd + |SentencePart(n)|
    requires NameFits(s, n, p.identAt, p.nameEnd)
    requires p.textAt <= |s| && s[p.textAt..] == r5 && r5 == text + ("." + rest)
    ensures CheckOneLine(s)
  {
    LineText(s, p, text, rest, r5);
    MatchTemplateComplete(s, n, p.colonAt, p.nameEnd, p.dotAt);
    if n == ClassNoun {
      assert MatchTemplate(s, ClassNoun);
    } else {
      assert MatchTemplate(s, FunctionNoun);
    }
  }

  /** and two different nouns are not. */
  lemma LineDisagreeing(s: string, p: Layout, n1: Noun, n2: Noun)
    requires n1 != n2
    requires HeadFits(s, n1, p.colonAt)
    requires p.identAt == p.colonAt + |CreatePart(n1)|
    requires NameFits(s, n2, p.identAt, p.nameEnd)
    ensures !CheckOneLine(s)
  {
    var other := if n1 == ClassNoun then FunctionNoun else ClassNoun;
    LineHeadOnly(s, p, n1, other);
    MatchHeadComplete(s, n1, p.colonAt);
    LineIdentOnly(s, p, n1, n2);
  }

  /** The nouns must agree: a line written by the template's layout is
      accepted exactly when it names the same kind in both places, so
      `class ... This function` is rejected. */
  lemma TemplateLineChecked(digits: string, n1: Noun, ident: string, n2: Noun, text: string, rest: string)
    requires IsNumeral(digits) && IsIdent(ident) && OneLineText(text)
    ensures CheckOneLine(TemplateLine(digits, n1, ident, n2, text, rest)) <==> n1 == n2
  {
    var s := TemplateLine(digits, n1, ident, n2, text, rest);
    var p := LayoutOf(digits, n1, ident, n2, text);
    var r5 := text + ("." + rest);
    var r4 := SentencePart(n2) + r5;
    var r3 := ident + r4;
    var r2 := CreatePart(n1) + r3;
    assert LineParts(s, digits, n1, ident, n2, text, rest, r2, r3, r4, r5);
    LineFacts(s, p, digits, n1, ident, n2, text, rest, r2, r3, r4, r5);
    if n1 == n2 {
      LineAgreeing(s, p, n1, text, rest, r5);
    } else {
      LineDisagreeing(s, p, n1, n2);
    }
  }

  /** The lines `check` goes through: the response stripped of surrounding
      white space, split at line boundaries. */
  function Lines(response: string): (lines: seq<string>)
    ensures forall j :: 0 <= j < |lines| ==> NoLineBreak(lines[j])
  {
    SplitLines(Strip(response))
  }

  /** `added` records the rejected lines among the first `n` of `lines`:
      each entry is a rejected line at its own position, entries follow the
      order of the lines, and no rejected line is missing. */
  predicate ReportsUpTo(lines: seq<string>, n: nat, added: seq<Issue>, accept: string -> bool)
    requires n <= |lines|
  {
    && (forall k :: 0 <= k < |added| ==> added[k].index < n && added[k].line == lines[added[k].index])
    && (forall k :: 0 <= k < |added| ==> !accept(added[k].line))
    && (forall k, l :: 0 <= k < l < |added| ==> added[k].index < added[l].index)
    && (forall i :: 0 <= i < n && !accept(lines[i]) ==> exists k :: 0 <= k < |added| && added[k].index == i)
  }

  /** `added` records the rejected lines of `lines`. */
  predicate Reports(lines: seq<string>, added: seq<Issue>, accept: string -> bool) {
    ReportsUpTo(lines, |lines|, added, accept)
  }

  /** Looking at line `n` extends the record to the first `n + 1` lines. */
  lemma ReportsStep(lines: seq<string>, accept: string -> bool, n: nat, added: seq<Issue>)
    requires n < |lines| && ReportsUpTo(lines, n, added, accept)
    ensures accept(lines[n]) ==> ReportsUpTo(lines, n + 1, added, accept)
    ensures !accept(lines[n]) ==> ReportsUpTo(lines, n + 1, added + [Issue(n, lines[n])], accept)
  {
    var more := added + [Issue(n, lines[n])];
    if !accept(lines[n]) {
      assert more[|added|].index == n;
      forall i | 0 <= i < n + 1 && !accept(lines[i])
        ensures exists k :: 0 <= k < |more| && more[k].index == i
      {
        if i < n {
          var k :| 0 <= k < |added| && added[k].index == i;
          assert more[k].index == i;
        }
      }
    }
  }

  /** A record is empty exactly when every line is accepted. */
  lemma ReportsEmpty(lines: seq<string>, accept: string -> bool, n: nat, added: seq<Issue>)
    requires n <= |lines| && ReportsUpTo(lines, n, added, accept)
    ensures added == [] <==> forall i :: 0 <= i < n ==> accept(lines[i])
  {
    if added != [] {
      assert !accept(lines[added[0].index]);
    }
  }

  /** The loop of `check` over `lines`, each line judged by `accept`. */
  method FileRejected(report: IssueReport, lines: seq<string>, accept: string -> bool) returns (ok: bool, r: IssueReport)
    ensures Len(report) <= Len(r) && r.issues[..Len(report)] == report.issues
    ensures Reports(lines, r.issues[Len(report)..], accept)
    ensures ok <==> forall i :: 0 <= i < |lines| ==> accept(lines[i])
    ensures ok <==> Len(r) == Len(report)
  {
    ok := true;
    r := report;
    var added: seq<Issue> := [];
    var i := 0;
    while i < |lines|
      invariant i <= |lines| && r.issues == report.issues + added
      invariant ReportsUpTo(lines, i, added, accept)
      invariant ok <==> added == []
    {
      ReportsStep(lines, accept, i, added);
      if !accept(lines[i]) {
        var issue := Issue(i, lines[i]);
        assert (report.issues + added) + [issue] == report.issues + (added + [issue]);
        r := AppendIssue(r, issue);
        added := added + [issue];
        ok := false;
      }
      i := i + 1;
    }
    ReportsEmpty(lines, accept, i, added);
    assert r.issues[Len(report)..] == added;
  }

  /** `CodePlanFormatChecker.check`: every line of the stripped response
      that `check_one_line` rejects is filed, as `(i, line)` in line order,
      after the issues already in the report (the report is not cleared
      first); the answer is whether no line was rejected. */
  method Check(report: IssueReport, response: string) returns (ok: bool, r: IssueReport)
    ensures Len(report) <= Len(r) && r.issues[..Len(report)] == report.issues
    ensures Reports(Lines(response), r.issues[Len(report)..], CheckOneLine)
    ensures ok <==> forall i :: 0 <= i < |Lines(response)| ==> CheckOneLine(Lines(response)[i])
    ensures ok <==> Len(r) == Len(report)
  {
    ok, r := FileRejected(report, Lines(response), CheckOneLine);
  }

  /** Records of the same lines that agree before position `k` cannot
      disagree at `k` in one direction, */
  lemma ReportsNotBelow(lines: seq<string>, accept: string -> bool, a: seq<Issue>, b: seq<Issue>, k: nat)
    requires Reports(lines, a, accept) && Reports(lines, b, accept) && k < |a| && k < |b|
    requires forall m :: 0 <= m < k ==> a[m].index == b[m].index
    ensures b[k].index <= a[k].index
  {
    var m :| 0 <= m < |b| && b[m].index == a[k].index;
    assert k <= m;
  }

  /** so two records of the same lines agree position by position, */
  lemma {:induction false} ReportsAgree(lines: seq<string>, accept: string -> bool, a: seq<Issue>, b: seq<Issue>, k: nat)
    requires Reports(lines, a, accept) && Reports(lines, b, accept)
    requires k < |a| && k < |b|
    ensures forall m :: 0 <= m <= k ==> a[m].index == b[m].index
    decreases k
  {
    if k > 0 {
      ReportsAgree(lines, accept, a, b, k - 1);
    }
    ReportsNotBelow(lines, accept, a, b, k);
    ReportsNotBelow(lines, accept, b, a, k);
  }

  /** the one is not longer than the other, */
  lemma ReportsNotLonger(lines: seq<string>, accept: string -> bool, a: seq<Issue>, b: seq<Issue>)
    requires Reports(lines, a, accept) && Reports(lines, b, accept)
    requires forall m :: 0 <= m < |a| && m < |b| ==> a[m].index == b[m].index
    ensures |b| <= |a|
  {
    if |b| > 0 {
      var n := |b| - 1;
      var m :| 0 <= m < |a| && a[m].index == b[n].index;
      assert n <= m;
    }
  }

  /** and they are the same. */
  lemma ReportsUnique(lines: seq<string>, accept: string -> bool, a: seq<Issue>, b: seq<Issue>)
    requires Reports(lines, a, accept) && Reports(lines, b, accept)
    ensures a == b
  {
    var n := if |a| < |b| then |a| else |b|;
    if n > 0 {
      ReportsAgree(lines, accept, a, b, n - 1);
    }
    ReportsNotLonger(lines, accept, a, b);
    ReportsNotLonger(lines, accept, b, a);
  }
}

=== FILE: planning.dfy ===
/** The dependency graph's entity list and the plan-to-entities pipeline:
    `DependencyGraph.append_entity`, `create_entities_from_steps` (one
    entity per plan step, in step order) and `_code_entities_to_dict` (an
    index by code definition, the later entity winning). */
module Planning {
  import opened Wrappers
  import opened CodeGraph
  import opened StepParser

  /** `DependencyGraph.append_entity`: the entity becomes the last one,
      under the next free identity, and nothing else changes. */
  function AppendEntity(g: Graph, e: CodeEntity): (r: Graph)
    ensures |r.entities| == |g.entities| + 1 && r.edges == g.edges
    ensures r.entities[|g.entities|] == e
    ensures forall j :: 0 <= j < |g.entities| ==> r.entities[j] == g.entities[j]
    ensures forall j :: 0 <= j < |g.entities| ==> InDegree(r, j) == InDegree(g, j)
    ensures Valid(g) && ValidEntity(r, e) ==> Valid(r)
  {
    Graph(g.entities + [e], g.edges)
  }

  /** `f` succeeds on every element of `xs` before position `i` and fails
      there with `err`. */
  predicate FailsFirstAt<A, B(==), E(==)>(xs: seq<A>, f: A -> Result<B, E>, i: nat, err: E) {
    && i < |xs|
    && f(xs[i]) == Err(err)
    && forall j :: 0 <= j < i ==> f(xs[j]).Ok?
  }

  /** A Python loop appending `f(x)` for each `x`, where `f` may raise:
      the results in order, or the first error. */
  method MapUntilError<A, B(==), E(==)>(xs: seq<A>, f: A -> Result<B, E>) returns (r: Result<seq<B>, E>)
    ensures r.Ok? <==> forall i :: 0 <= i < |xs| ==> f(xs[i]).Ok?
    ensures r.Ok? ==> |r.value| == |xs| && forall i :: 0 <= i < |xs| ==> Ok(r.value[i]) == f(xs[i])
    ensures r.Err? ==> exists i :: 0 <= i < |xs| && FailsFirstAt(xs, f, i, r.error)
  {
    var ys: seq<B> := [];
    var k := 0;
    while k < |xs|
      invariant k <= |xs| && |ys| == k
      invariant forall i :: 0 <= i < k ==> Ok(ys[i]) == f(xs[i])
    {
      var y := f(xs[k]);
      if y.Err? {
        assert FailsFirstAt(xs, f, k, y.error);
        return Err(y.error);
      }
      ys := ys + [y.value];
      k := k + 1;
    }
    return Ok(ys);
  }

  /** `create_entities_from_steps` once the YAML list of steps is read:
      each step becomes an unlinked entity with no parent, in step order;
      the first step that does not read raises, and no list is returned. */
  method CreateEntitiesFromSteps(steps: seq<string>) returns (r: Result<seq<CodeEntity>, ExtractError>)
    ensures r.Ok? <==> forall i :: 0 <= i < |steps| ==> ExtractCodeEntity(steps[i], None).Ok?
    ensures r.Ok? ==> |r.value| == |steps|
    ensures r.Ok? ==> forall i :: 0 <= i < |steps| ==> Ok(r.value[i]) == ExtractCodeEntity(steps[i], None)
    ensures r.Err? ==> exists i :: 0 <= i < |steps| && ExtractCodeEntity(steps[i], None) == Err(r.error) && (forall j :: 0 <= j < i ==> ExtractCodeEntity(steps[j], None).Ok?)
  {
    r := MapUntilError(steps, step => ExtractCodeEntity(step, None));
  }

  /** The entity of a plan all of whose steps read carries no parent, no
      edges and no sub-entities, and so refers to nothing: a graph of such
      entities is valid. */
  lemma PlanEntitiesValid(entities: seq<CodeEntity>)
    requires forall i :: 0 <= i < |entities| ==> IsUnlinked(entities[i], None)
    ensures Valid(Graph(entities, []))
  {
    forall i | 0 <= i < |entities|
      ensures ValidEntity(Graph(entities, []), entities[i])
    {
      assert entities[i] == Unlinked(entities[i].name, entities[i].kind.value, entities[i].desc.value, None);
    }
  }

  /** The last entity of the list with a given definition. */
  predicate LastWith(entities: seq<CodeEntity>, i: nat) {
    && i < |entities|
    && forall j :: i < j < |entities| ==> entities[j].definition != entities[i].definition
  }

  /** The definitions the entities carry. */
  function Definitions(entities: seq<CodeEntity>): set<Option<string>> {
    set i | 0 <= i < |entities| :: entities[i].definition
  }

  /** `d` is the dictionary built from the first `k` entities. */
  ghost predicate IndexedUpTo(entities: seq<CodeEntity>, k: nat, d: map<Option<string>, EntityId>)
    requires k <= |entities|
  {
    && d.Keys == Definitions(entities[..k])
    && forall i: nat :: LastWith(entities[..k], i) ==> entities[i].definition in d && d[entities[i].definition] == i
  }

  /** The definitions of a list grown by one entity. */
  lemma DefinitionsAppend(pre: seq<CodeEntity>, e: CodeEntity)
    ensures Definitions(pre + [e]) == Definitions(pre) + {e.definition}
  {
    var pre' := pre + [e];
    forall key | key in Definitions(pre')
      ensures key in Definitions(pre) + {e.definition}
    {
      var i :| 0 <= i < |pre'| && pre'[i].definition == key;
      if i < |pre| {
        assert pre[i].definition == key;
      }
    }
    forall key | key in Definitions(pre)
      ensures key in Definitions(pre')
    {
      var i :| 0 <= i < |pre| && pre[i].definition == key;
      assert pre'[i].definition == key;
    }
    assert pre'[|pre|].definition == e.definition;
  }

  /** The last holder of a definition among the first `k + 1` entities is
      entity `k` or was already the last among the first `k`. */
  lemma LastWithStep(entities: seq<CodeEntity>, k: nat, i: nat)
    requires k < |entities| && LastWith(entities[..k + 1], i) && i < k
    ensures LastWith(entities[..k], i) && entities[i].definition != entities[k].definition
  {
    assert entities[..k + 1][k] == entities[k];
  }

  /** Entering entity `k` extends the dictionary to the first `k + 1`. */
  lemma IndexStep(entities: seq<CodeEntity>, k: nat, d: map<Option<string>, EntityId>)
    requires k < |entities| && IndexedUpTo(entities, k, d)
    ensures IndexedUpTo(entities, k + 1, d[entities[k].definition := k])
  {
    var e := entities[k];
    var d' := d[e.definition := k];
    assert entities[..k + 1] == entities[..k] + [e];
    DefinitionsAppend(entities[..k], e);
    forall i: nat | LastWith(entities[..k + 1], i)
      ensures entities[i].definition in d' && d'[entities[i].definition] == i
    {
      if i < k {
        LastWithStep(entities, k, i);
      }
    }
  }

  /** `_code_entities_to_dict`: entities keyed by `code_definition` (which
      may be `None`), a later entity overwriting an earlier one with the
      same definition. An entity is identified by its position in the
      list. */
  method EntitiesByDefinition(entities: seq<CodeEntity>) returns (d: map<Option<string>, EntityId>)
    ensures d.Keys == Definitions(entities)
    ensures forall i: nat :: LastWith(entities, i) ==> d[entities[i].definition] == i
  {
    d := map[];
    var k := 0;
    assert entities[..0] == [];
    while k < |entities|
      invariant k <= |entities| && IndexedUpTo(entities, k, d)
    {
      IndexStep(entities, k, d);
      d := d[entities[k].definition := k];
      k := k + 1;
    }
    assert entities[..k] == entities;
  }

  /** Every definition is a key, and its entry is an entity at or after
      `i` with that definition and no later entity shares it. */
  lemma DefinitionIndexed(entities: seq<CodeEntity>, d: map<Option<string>, EntityId>, i: nat)
    requires d.Keys == Definitions(entities)
    requires forall i: nat :: LastWith(entities, i) ==> d[entities[i].definition] == i
    requires i < |entities|
    ensures entities[i].definition in d && i <= d[entities[i].definition]
    ensures LastWith(entities, d[entities[i].definition])
    ensures entities[d[entities[i].definition]].definition == entities[i].definition
  {
    var j := LastIndex(entities, i);
  }

  /** The last position holding the definition at `i`. */
  lemma {:induction false} LastIndex(entities: seq<CodeEntity>, i: nat) returns (j: nat)
    requires i < |entities|
    ensures i <= j && LastWith(entities, j) && entities[j].definition == entities[i].definition
    decreases |entities| - i
  {
    if LastWith(entities, i) {
      j := i;
    } else {
      var k :| i < k < |entities| && entities[k].definition == entities[i].definition;
      j := LastIndex(entities, k);
    }
  }
}

=== FILE: pylist.dfy ===
/** Python list indexing as used by the containers of the system:
    `lst[i]`, `lst[i] = x` and `del lst[i]` accept an index in
    `[-len, len)`, a negative index counting from the end, and raise
    `IndexError` otherwise (modelled as `None`). */
module PyList {
  import opened Wrappers

  /** The position a Python index denotes in a list of length `n`. */
  function Normalize(n: nat, i: int): (k: Option<nat>)
    ensures k.Some? <==> -(n as int) <= i < n
    ensures k.Some? ==> k.value < n && (k.value == i || k.value == i + n)
  {
    if 0 <= i < n then Some(i)
    else if -(n as int) <= i < 0 then Some(i + n)
    else None
  }

  /** `lst[i]` */
  function Get<T>(s: seq<T>, i: int): (r: Option<T>)
    ensures r.Some? <==> -|s| <= i < |s|
    ensures 0 <= i < |s| ==> r == Some(s[i])
    ensures -|s| <= i < 0 ==> r == Some(s[|s| + i])
  {
    match Normalize(|s|, i)
    case None => None
    case Some(k) => Some(s[k])
  }

  /** `lst[i] = x`: only the addressed slot changes. */
  function Set<T>(s: seq<T>, i: int, x: T): (r: Option<seq<T>>)
    ensures r.Some? <==> -|s| <= i < |s|
    ensures r.Some? ==> |r.value| == |s|
    ensures r.Some? ==> forall j :: 0 <= j < |s| ==>
      r.value[j] == if Normalize(|s|, i) == Some(j) then x else s[j]
  {
    match Normalize(|s|, i)
    case None => None
    case Some(k) => Some(s[k := x])
  }

  /** `del lst[i]`: exactly the addressed element leaves, the others keep
      their order. */
  function Delete<T>(s: seq<T>, i: int): (r: Option<seq<T>>)
    ensures r.Some? <==> -|s| <= i < |s|
    ensures r.Some? ==> |r.value| == |s| - 1
    ensures r.Some? ==> var k := Normalize(|s|, i).value;
      && (forall j :: 0 <= j < k ==> r.value[j] == s[j])
      && (forall j :: k <= j < |r.value| ==> r.value[j] == s[j + 1])
      && multiset(r.value) + multiset{s[k]} == multiset(s)
  {
    match Normalize(|s|, i)
    case None => None
    case Some(k) =>
      assert s == s[..k] + [s[k]] + s[k + 1..];
      Some(s[..k] + s[k + 1..])
  }

  /** `lst.insert(k, x)` for an in-range position, used only to state that
      deletion loses exactly one element. */
  function Insert<T>(s: seq<T>, k: nat, x: T): (r: seq<T>)
    requires k <= |s|
    ensures |r| == |s| + 1 && r[k] == x
  {
    s[..k] + [x] + s[k..]
  }

  /** Deleting an element and putting it back where it was restores the list. */
  lemma DeleteInsertRoundTrip<T>(s: seq<T>, i: int)
    requires -|s| <= i < |s|
    ensures var k := Normalize(|s|, i).value;
      Delete(s, i).Some? && Insert(Delete(s, i).value, k, s[k]) == s
  {
    var k := Normalize(|s|, i).value;
    var d := Delete(s, i).value;
    var r := Insert(d, k, s[k]);
    assert forall j :: 0 <= j < |s| ==> r[j] == s[j] by {
      forall j | 0 <= j < |s|
        ensures r[j] == s[j]
      {
        if j < k {
          assert r[j] == d[j];
        } else if j > k {
          assert r[j] == d[j - 1];
        }
      }
    }
  }
}

=== FILE: step_parser.dfy ===
/** `ContentExtractor`: a plan step line becomes an unlinked `CodeEntity`
    through `STEP_PATTERN`,
    `Step\s+\d\s*:\s*Create a (\w+) called (\w+).This class will be responsible for (\w+)`,
    matched with `re.I` at the start of the stripped line.

    A match of the pattern is described declaratively (`Fits`): an
    assignment of positions to the pattern's elements under which every
    element accepts the text it spans. `MatchStep` is the greedy,
    backtracking search `re.match` performs; it is proved to find a match
    whenever one exists, and to prefer the longest name, as the regex
    engine's backtracking order does. */
module StepParser {
  import opened Wrappers
  import opened Text
  import opened CodeGraph

  /** The literal parts of the pattern, in lower case; with `re.I` a text
      matches one when its lower-case form equals it. */
  const StepWord := "step"
  const CreateWords := "create a "
  const CalledWords := " called "
  const ResponsibleWords := "this class " + "will be " + "responsible for "

  /** The literal `lit` (in lower case) matches case-insensitively at `i`. */
  predicate LitAt(s: string, i: nat, lit: string) {
    i + |lit| <= |s| && LitFrom(s, i, lit, 0)
  }

  /** `lit[k..]` matches case-insensitively at `i + k`. */
  predicate LitFrom(s: string, i: nat, lit: string, k: nat)
    decreases |lit| - k
  {
    k >= |lit| || (i + k < |s| && LowerChar(s[i + k]) == lit[k] && LitFrom(s, i, lit, k + 1))
  }

  /** Where each element of the pattern sits in a match. `Step` is at 0;
      `\s+` spans `4..digitAt`; `\d` is at `digitAt`; `\s*` spans up to
      `colonAt`, where `:` is; `\s*` spans up to `createAt`, where
      `Create a ` starts; group 1 ends at `kindEnd`, where ` called `
      starts; group 2 ends at `nameEnd`, where `.` matches one character;
      `This class will be responsible for ` follows, then group 3 up to
      `descEnd`. */
  datatype StepMatch = StepMatch(digitAt: nat, colonAt: nat, createAt: nat, kindEnd: nat, nameEnd: nat, descEnd: nat)

  /** `Step\s+\d\s*:\s*Create a ` matches `s[..createAt + 9]`, with the
      digit at `digitAt` and the colon at `colonAt`. */
  predicate HeadFits(s: string, digitAt: nat, colonAt: nat, createAt: nat) {
    && LitAt(s, 0, StepWord)
    && 4 < digitAt < |s| && AllIn(s, 4, digitAt, IsSpace) && IsDigit(s[digitAt])
    && digitAt < colonAt < |s| && AllIn(s, digitAt + 1, colonAt, IsSpace) && s[colonAt] == ':'
    && colonAt < createAt && AllIn(s, colonAt + 1, createAt, IsSpace)
    && LitAt(s, createAt, CreateWords)
  }

  /** `(\w+) called ` matches from `from`, with group 1 ending at `kindEnd`. */
  predicate KindFits(s: string, from: nat, kindEnd: nat) {
    && from < kindEnd && AllIn(s, from, kindEnd, IsWordChar)
    && LitAt(s, kindEnd, CalledWords)
  }

  /** `.This class will be responsible for (\w` matches once group 2 has
      ended at `n`: `.` takes any character but a newline, the sentence
      follows, and group 3 gets at least one word character. */
  predicate TailFits(s: string, n: nat) {
    && n < |s| && s[n] != '\n'
    && LitAt(s, n + 1, ResponsibleWords)
    && n + 1 + |ResponsibleWords| < |s|
    && IsWordChar(s[n + 1 + |ResponsibleWords|])
  }

  /** `m` is a match of the pattern at the start of `s`. */
  predicate Fits(s: string, m: StepMatch) {
    && HeadFits(s, m.digitAt, m.colonAt, m.createAt)
    && KindFits(s, m.createAt + |CreateWords|, m.kindEnd)
    && m.kindEnd + |CalledWords| < m.nameEnd && AllIn(s, m.kindEnd + |CalledWords|, m.nameEnd, IsWordChar)
    && TailFits(s, m.nameEnd)
    && m.nameEnd + 1 + |ResponsibleWords| < m.descEnd && AllIn(s, m.nameEnd + 1 + |ResponsibleWords|, m.descEnd, IsWordChar)
  }

  /** The three groups of `m` lie in order within `s`. */
  predicate Spans(s: string, m: StepMatch) {
    && m.createAt + |CreateWords| <= m.kindEnd
    && m.kindEnd + |CalledWords| <= m.nameEnd
    && m.nameEnd + 1 + |ResponsibleWords| <= m.descEnd <= |s|
  }

  /** `obj.group(1)`, `obj.group(2)` and `obj.group(3)`. */
  function KindGroup(s: string, m: StepMatch): string
    requires Spans(s, m)
  {
    s[m.createAt + |CreateWords|..m.kindEnd]
  }

  function NameGroup(s: string, m: StepMatch): string
    requires Spans(s, m)
  {
    s[m.kindEnd + |CalledWords|..m.nameEnd]
  }

  function DescGroup(s: string, m: StepMatch): string
    requires Spans(s, m)
  {
    s[m.nameEnd + 1 + |ResponsibleWords|..m.descEnd]
  }

  /** A run of word characters, sliced out, is a word. */
  lemma {:induction false} WordSlice(s: string, i: nat, j: nat)
    requires i < j && AllIn(s, i, j, IsWordChar)
    ensures IsWord(s[i..j])
  {
    forall k | 0 <= k < j - i
      ensures IsWordChar(s[i..j][k])
    {
      var p: char -> bool := IsWordChar;
      assert p(s[i + k]);
    }
  }

  /** The three groups of a match are words. */
  lemma GroupsAreWords(s: string, m: StepMatch)
    requires Spans(s, m)
    requires m.createAt + |CreateWords| < m.kindEnd && AllIn(s, m.createAt + |CreateWords|, m.kindEnd, IsWordChar)
    requires m.kindEnd + |CalledWords| < m.nameEnd && AllIn(s, m.kindEnd + |CalledWords|, m.nameEnd, IsWordChar)
    requires m.nameEnd + 1 + |ResponsibleWords| < m.descEnd && AllIn(s, m.nameEnd + 1 + |ResponsibleWords|, m.descEnd, IsWordChar)
    ensures IsWord(KindGroup(s, m)) && IsWord(NameGroup(s, m)) && IsWord(DescGroup(s, m))
  {
    WordSlice(s, m.createAt + |CreateWords|, m.kindEnd);
    WordSlice(s, m.kindEnd + |CalledWords|, m.nameEnd);
    WordSlice(s, m.nameEnd + 1 + |ResponsibleWords|, m.descEnd);
  }

  /** The backtracking of group 2 from `p`: the ends `n`, `n - 1`, ...,
      `p + 1` are tried in turn, and the first one after which the rest of
      the pattern fits wins. */
  function LongestFit(s: string, p: nat, n: nat): (r: Option<nat>)
    ensures r.Some? ==> p < r.value <= n && TailFits(s, r.value)
    ensures forall j :: (if r.Some? then r.value else p) < j <= n ==> !TailFits(s, j)
    decreases n
  {
    if n <= p then None
    else if TailFits(s, n) then Some(n)
    else LongestFit(s, p, n - 1)
  }

  /** The part of `re.match` up to `Create a `: each repetition is
      followed by something it cannot consume, so it takes its longest
      run. */
  function MatchHead(s: string): (r: Option<(nat, nat, nat)>)
    ensures r.Some? ==> HeadFits(s, r.value.0, r.value.1, r.value.2)
  {
    if !LitAt(s, 0, StepWord) then None
    else
      var i1 := RunEnd(s, 4, IsSpace);
      if i1 == 4 || i1 == |s| || !IsDigit(s[i1]) then None
      else
        var i2 := RunEnd(s, i1 + 1, IsSpace);
        if i2 == |s| || s[i2] != ':' then None
        else
          var i3 := RunEnd(s, i2 + 1, IsSpace);
          if !LitAt(s, i3, CreateWords) then None
          else Some((i1, i2, i3))
  }

  /** Group 1 and ` called `, after `Create a ` at `createAt`: group 1 is
      followed by a space, so it takes its longest run. */
  function MatchKind(s: string, createAt: nat): (r: Option<nat>)
    ensures r.Some? ==> KindFits(s, createAt + |CreateWords|, r.value)
  {
    var from := createAt + |CreateWords|;
    if from > |s| then None
    else
      var k1 := RunEnd(s, from, IsWordChar);
      if k1 == from || !LitAt(s, k1, CalledWords) then None else Some(k1)
  }

  /** Group 2, after ` called ` at `kindEnd`, over the run of word
      characters there. */
  function MatchName(s: string, kindEnd: nat): (r: Option<nat>)
    ensures var p := kindEnd + |CalledWords|;
      r.Some? ==> p < r.value && AllIn(s, p, r.value, IsWordChar) && TailFits(s, r.value)
  {
    var p := kindEnd + |CalledWords|;
    if p > |s| then None else LongestFit(s, p, RunEnd(s, p, IsWordChar))
  }

  /** Group 3, after group 2 ended at `nameEnd`: the run of word characters
      after the sentence. */
  function MatchDesc(s: string, nameEnd: nat): (e: nat)
    ensures var i := nameEnd + 1 + |ResponsibleWords|;
      i <= |s| ==> AllIn(s, i, e, IsWordChar) && (e == |s| || !IsWordChar(s[e]))
  {
    var i := nameEnd + 1 + |ResponsibleWords|;
    if i > |s| then i else RunEnd(s, i, IsWordChar)
  }

  /** `re.match(STEP_PATTERN, s)`: the head and group 1 are determined,
      group 2 backtracks, and group 3 takes its longest run. */
  function MatchStep(s: string): Option<StepMatch> {
    match MatchHead(s)
    case None => None
    case Some(h) =>
      match MatchKind(s, h.2)
      case None => None
      case Some(k) =>
        match MatchName(s, k)
        case None => None
        case Some(n) => Some(StepMatch(h.0, h.1, h.2, k, n, MatchDesc(s, n)))
  }

  /** `MatchStep` assembled from its stages. */
  lemma MatchStepUnfold(s: string, digitAt: nat, colonAt: nat, createAt: nat, k: nat, n: nat)
    requires MatchHead(s) == Some((digitAt, colonAt, createAt))
    requires MatchKind(s, createAt) == Some(k)
    requires MatchName(s, k) == Some(n)
    ensures MatchStep(s) == Some(StepMatch(digitAt, colonAt, createAt, k, n, MatchDesc(s, n)))
  {
  }

  /** What `MatchStep` finds is a match, and its group 3 cannot be
      extended. */
  lemma MatchStepSound(s: string)
    ensures MatchStep(s).Some? ==> Fits(s, MatchStep(s).value) && Spans(s, MatchStep(s).value)
    ensures MatchStep(s).Some? ==> var e := MatchStep(s).value.descEnd; e == |s| || !IsWordChar(s[e])
  {
    if MatchStep(s).Some? {
      var h := MatchHead(s).value;
      var k := MatchKind(s, h.2).value;
      var n := MatchName(s, k).value;
      MatchStepUnfold(s, h.0, h.1, h.2, k, n);
    }
  }

  /** A literal that starts with a letter or a space starts with a
      character that is neither white space nor, for the space, a word
      character. */
  lemma LitAtFirst(s: string, i: nat, lit: string)
    requires LitAt(s, i, lit) && |lit| > 0
    ensures i < |s| && LowerChar(s[i]) == lit[0]
  {
  }

  /** Whenever the pattern matches at the start of `s`, `MatchStep` finds a
      match: the same one up to group 2, and with a group 2 at least as
      long, which is the match `re.match` reports. */
  lemma MatchStepComplete(s: string, m: StepMatch)
    requires Fits(s, m)
    ensures MatchStep(s).Some?
    ensures var r := MatchStep(s).value;
      && r.digitAt == m.digitAt && r.colonAt == m.colonAt && r.createAt == m.createAt
      && r.kindEnd == m.kindEnd && m.nameEnd <= r.nameEnd
  {
    MatchHeadComplete(s, m.digitAt, m.colonAt, m.createAt);
    MatchKindComplete(s, m.createAt, m.kindEnd);
    var n := MatchNameAtLeast(s, m.kindEnd, m.nameEnd);
    MatchStepUnfold(s, m.digitAt, m.colonAt, m.createAt, m.kindEnd, n);
  }

  /** Group 2's search ends it no earlier than any end that fits. */
  lemma MatchNameAtLeast(s: string, kindEnd: nat, n0: nat) returns (n: nat)
    requires kindEnd + |CalledWords| < n0 && AllIn(s, kindEnd + |CalledWords|, n0, IsWordChar)
    requires TailFits(s, n0)
    ensures MatchName(s, kindEnd) == Some(n) && n0 <= n
  {
    RunEndCovers(s, kindEnd + |CalledWords|, n0, IsWordChar);
    n := MatchName(s, kindEnd).value;
  }

  /** The head is determined: `MatchHead` finds every head that fits. */
  lemma MatchHeadComplete(s: string, digitAt: nat, colonAt: nat, createAt: nat)
    requires HeadFits(s, digitAt, colonAt, createAt)
    ensures MatchHead(s) == Some((digitAt, colonAt, createAt))
  {
    HeadRuns(s, digitAt, colonAt, createAt);
  }

  /** Each run of white space in a head that fits ends where the head says. */
  lemma HeadRuns(s: string, digitAt: nat, colonAt: nat, createAt: nat)
    requires HeadFits(s, digitAt, colonAt, createAt)
    ensures RunEnd(s, 4, IsSpace) == digitAt && RunEnd(s, digitAt + 1, IsSpace) == colonAt
    ensures RunEnd(s, colonAt + 1, IsSpace) == createAt
  {
    RunEndUnique(s, 4, digitAt, IsSpace);
    RunEndUnique(s, digitAt + 1, colonAt, IsSpace);
    LitAtFirst(s, createAt, CreateWords);
    assert !IsSpace(s[createAt]);
    RunEndUnique(s, colonAt + 1, createAt, IsSpace);
  }

  /** Group 1 is determined. */
  lemma MatchKindComplete(s: string, createAt: nat, kindEnd: nat)
    requires KindFits(s, createAt + |CreateWords|, kindEnd)
    ensures MatchKind(s, createAt) == Some(kindEnd)
  {
    LitAtFirst(s, kindEnd, CalledWords);
    RunEndUnique(s, createAt + |CreateWords|, kindEnd, IsWordChar);
  }

  /** Group 2 never extends past the run of word characters it starts. */
  lemma NameWithinRun(s: string, m: StepMatch)
    requires Fits(s, m)
    ensures m.nameEnd <= RunEnd(s, m.kindEnd + |CalledWords|, IsWordChar)
  {
    RunEndCovers(s, m.kindEnd + |CalledWords|, m.nameEnd, IsWordChar);
  }

  /** `re.match` fails exactly when no match exists. */
  lemma MatchStepNoneIff(s: string)
    ensures MatchStep(s).None? <==> forall m :: !Fits(s, m)
  {
    MatchStepSound(s);
    if exists m :: Fits(s, m) {
      var m :| Fits(s, m);
      MatchStepComplete(s, m);
    }
  }

  /** Why a step line yields no entity: the pattern does not match the
      stripped line (the failed assertion), or group 1 names no kind (the
      exception of `_get_code_entity_type`). */
  datatype ExtractError = FormatError(step: string) | UnsupportedKind(kind: string)

  /** The word naming each kind, as `_get_code_entity_type` compares it. */
  function KindWord(k: Kind): (w: string)
    ensures IsWord(w) && Lower(w) == w
  {
    match k
    case Package => "package"
    case Class => "class"
    case Function => "function"
  }

  /** `_get_code_entity_type`: the kind whose word equals the lower-cased
      text; any other text is unsupported. */
  function KindOf(word: string): (r: Result<Kind, ExtractError>)
    ensures forall k :: r == Ok(k) <==> Lower(word) == KindWord(k)
    ensures r.Err? ==> r.error == UnsupportedKind(word)
  {
    var w := Lower(word);
    if w == "package" then Ok(Package)
    else if w == "class" then Ok(Class)
    else if w == "function" then Ok(Function)
    else Err(UnsupportedKind(word))
  }

  /** `e` is as `CodeEntity(...)` creates it under `parent`, with a kind
      and a description. */
  predicate IsUnlinked(e: CodeEntity, parent: Option<EntityId>) {
    e.kind.Some? && e.desc.Some? && e == Unlinked(e.name, e.kind.value, e.desc.value, parent)
  }

  /** The entity a stripped step line `t` describes, if the pattern
      matches it. */
  function EntityOfLine(t: string, parent: Option<EntityId>): (r: Result<CodeEntity, ExtractError>)
    ensures r.Err? ==> r.error == FormatError(t) || r.error.UnsupportedKind?
    ensures r.Ok? ==> IsUnlinked(r.value, parent) && IsWord(r.value.name) && IsWord(r.value.desc.value)
  {
    match MatchStep(t)
    case None => Err(FormatError(t))
    case Some(m) =>
      MatchStepSound(t);
      GroupsAreWords(t, m);
      match KindOf(KindGroup(t, m))
      case Err(e) => Err(e)
      case Ok(k) => Ok(Unlinked(NameGroup(t, m), k, DescGroup(t, m), parent))
  }

  /** `extract_code_entity_from_step`: strip the line, match the pattern,
      and build an entity of group 1's kind named by group 2 and described
      by group 3, under `parent`. */
  function ExtractCodeEntity(step: string, parent: Option<EntityId>): (r: Result<CodeEntity, ExtractError>)
    ensures r.Err? ==> r.error == FormatError(Strip(step)) || r.error.UnsupportedKind?
    ensures r.Ok? ==> IsUnlinked(r.value, parent) && IsWord(r.value.name) && IsWord(r.value.desc.value)
  {
    EntityOfLine(Strip(step), parent)
  }

  /** A stripped line is rejected as malformed exactly when the matcher
      finds nothing. */
  lemma EntityOfLineFormatError(t: string, parent: Option<EntityId>)
    ensures EntityOfLine(t, parent) == Err(FormatError(t)) <==> MatchStep(t).None?
  {
  }

  /** A step line is rejected as malformed exactly when the pattern has no
      match in the stripped line. */
  lemma ExtractFormatErrorIff(step: string, parent: Option<EntityId>)
    ensures ExtractCodeEntity(step, parent) == Err(FormatError(Strip(step))) <==> forall m :: !Fits(Strip(step), m)
  {
    var t := Strip(step);
    MatchStepNoneIff(t);
    EntityOfLineFormatError(t, parent);
  }

  /** The sentence as a plan writes it. */
  const Sentence := "This class " + "will be " + "responsible for "

  /** The line a plan writes for one entity: step number `digit`, the
      entity's kind, name and description, and whatever `rest` follows the
      description (a closing period, say). */
  function StepLine(digit: char, k: Kind, name: string, desc: string, rest: string): string {
    "Step" + (" " + ([digit] + (":" + ("Create a " + (KindWord(k) + (" called " + (name
      + ("." + (Sentence + (desc + rest))))))))))
  }

  /** `lit[k..]` matches where `s` holds it up to letter case. */
  lemma {:induction false} LitFromOf(s: string, i: nat, lit: string, k: nat)
    requires i + |lit| <= |s|
    requires forall j :: k <= j < |lit| ==> LowerChar(s[i + j]) == lit[j]
    ensures LitFrom(s, i, lit, k)
    decreases |lit| - k
  {
    if k < |lit| {
      LitFromOf(s, i, lit, k + 1);
    }
  }

  /** A text read at `i` matches its own lower-case form there. */
  lemma LitPiece(s: string, i: nat, w: string, t: string)
    requires i <= |s| && s[i..] == w + t
    ensures LitAt(s, i, Lower(w))
  {
    PieceAt(s, i, i + |w|, w + t, w, t);
    LitFromOf(s, i, Lower(w), 0);
  }

  /** A word read at `i`, up to `e`, is a run of word characters there. */
  lemma WordPiece(s: string, i: nat, e: nat, w: string, t: string)
    requires i <= |s| && s[i..] == w + t && IsWord(w) && e == i + |w|
    ensures i < e && AllIn(s, i, e, IsWordChar)
  {
    PieceAt(s, i, e, w + t, w, t);
    forall j | i <= j < e
      ensures IsWordChar(s[j])
    {
      assert s[j] == w[j - i];
    }
  }

  /** Where the pattern's elements sit in a `StepLine`. */
  function LineMatch(k: Kind, name: string, desc: string): StepMatch {
    var kindEnd := 7 + |CreateWords| + |KindWord(k)|;
    var nameEnd := kindEnd + |CalledWords| + |name|;
    StepMatch(5, 6, 7, kindEnd, nameEnd, nameEnd + 1 + |ResponsibleWords| + |desc|)
  }

  /** The words of a `StepLine` are the pattern's literals, up to case. */
  lemma LowerWords()
    ensures Lower("Step") == StepWord && Lower("Create a ") == CreateWords
    ensures Lower(" called ") == CalledWords
  {
  }

  lemma LowerSentence()
    ensures Lower(Sentence) == ResponsibleWords
  {
    LowerConcat("This class ", "will be ");
    LowerConcat("This class " + "will be ", "responsible for ");
    assert Lower("This class ") == "this class ";
    assert Lower("will be ") == "will be " && Lower("responsible for ") == "responsible for ";
  }

  /** A `StepLine` in parts: `r2` follows `Create a `, `r4` follows
      ` called `, and `r7` follows the sentence. */
  predicate LineParts(s: string, digit: char, k: Kind, name: string, desc: string, rest: string,
                      r2: string, r4: string, r7: string) {
    && TailParts(k, name, desc, rest, r2, r4, r7)
    && s == "Step" + (" " + ([digit] + (":" + ("Create a " + r2))))
  }

  /** The parts of a `StepLine` after its head. */
  predicate TailParts(k: Kind, name: string, desc: string, rest: string, r2: string, r4: string, r7: string) {
    r7 == desc + rest && r4 == name + ("." + (Sentence + r7)) && r2 == KindWord(k) + (" called " + r4)
  }

  /** Where each part of a `StepLine` starts: `r2` after `Create a `, */
  lemma LayoutKind(s: string, digit: char, k: Kind, name: string, desc: string, rest: string,
                   r2: string, r4: string, r7: string)
    requires LineParts(s, digit, k, name, desc, rest, r2, r4, r7)
    ensures s[LineMatch(k, name, desc).createAt + |CreateWords|..] == r2
  {
    var m := LineMatch(k, name, desc);
    assert s[0..] == s;
    Skip(s, 0, 4, "Step" + (" " + ([digit] + (":" + ("Create a " + r2)))), "Step", " " + ([digit] + (":" + ("Create a " + r2))));
    Skip(s, 4, 5, " " + ([digit] + (":" + ("Create a " + r2))), " ", [digit] + (":" + ("Create a " + r2)));
    Skip(s, 5, 6, [digit] + (":" + ("Create a " + r2)), [digit], ":" + ("Create a " + r2));
    Skip(s, 6, 7, ":" + ("Create a " + r2), ":", "Create a " + r2);
    Skip(s, 7, m.createAt + |CreateWords|, "Create a " + r2, "Create a ", r2);
  }

  /** `r4` after ` called `, */
  lemma LayoutName(s: string, digit: char, k: Kind, name: string, desc: string, rest: string,
                   r2: string, r4: string, r7: string)
    requires LineParts(s, digit, k, name, desc, rest, r2, r4, r7)
    requires s[LineMatch(k, name, desc).createAt + |CreateWords|..] == r2
    ensures s[LineMatch(k, name, desc).kindEnd + |CalledWords|..] == r4
  {
    var m := LineMatch(k, name, desc);
    Skip(s, m.createAt + |CreateWords|, m.kindEnd, r2, KindWord(k), " called " + r4);
    Skip(s, m.kindEnd, m.kindEnd + |CalledWords|, " called " + r4, " called ", r4);
  }

  /** and `r7` after the sentence. */
  lemma LayoutDesc(s: string, digit: char, k: Kind, name: string, desc: string, rest: string,
                   r2: string, r4: string, r7: string)
    requires LineParts(s, digit, k, name, desc, rest, r2, r4, r7)
    requires s[LineMatch(k, name, desc).kindEnd + |CalledWords|..] == r4
    ensures s[LineMatch(k, name, desc).nameEnd + 1 + |ResponsibleWords|..] == r7
  {
    var m := LineMatch(k, name, desc);
    Skip(s, m.kindEnd + |CalledWords|, m.nameEnd, r4, name, "." + (Sentence + r7));
    Skip(s, m.nameEnd, m.nameEnd + 1, "." + (Sentence + r7), ".", Sentence + r7);
    Skip(s, m.nameEnd + 1, m.nameEnd + 1 + |ResponsibleWords|, Sentence + r7, Sentence, r7);
  }

  /** `Step <digit>:Create a ` at the start of a line is the head the
      matcher finds. */
  lemma HeadPiece(s: string, digit: char, r: string)
    requires IsDigit(digit) && s == "Step" + (" " + ([digit] + (":" + ("Create a " + r))))
    ensures MatchHead(s) == Some((5, 6, 7))
  {
    var q := [digit] + (":" + ("Create a " + r));
    assert s[0..] == s;
    LitPiece(s, 0, "Step", " " + q);
    Skip(s, 0, 4, "Step" + (" " + q), "Step", " " + q);
    CharAt(s, 4, " " + q, ' ', q);
    Skip(s, 4, 5, " " + q, " ", q);
    CharAt(s, 5, [digit] + (":" + ("Create a " + r)), digit, ":" + ("Create a " + r));
    Skip(s, 5, 6, [digit] + (":" + ("Create a " + r)), [digit], ":" + ("Create a " + r));
    CharAt(s, 6, ":" + ("Create a " + r), ':', "Create a " + r);
    Skip(s, 6, 7, ":" + ("Create a " + r), ":", "Create a " + r);
    LitPiece(s, 7, "Create a ", r);
    var p: char -> bool := IsSpace;
    assert p(s[4]);
    LowerWords();
    MatchHeadComplete(s, 5, 6, 7);
  }

  /** Group 1 and ` called ` after `Create a ` at `createAt`: the matcher
      ends group 1 at `e`. */
  lemma KindPiece(s: string, createAt: nat, e: nat, u: string, kw: string, r: string)
    requires createAt + |CreateWords| <= |s| && s[createAt + |CreateWords|..] == u && u == kw + (" called " + r)
    requires IsWord(kw) && e == createAt + |CreateWords| + |kw|
    ensures MatchKind(s, createAt) == Some(e)
  {
    var from := createAt + |CreateWords|;
    WordPiece(s, from, e, kw, " called " + r);
    Skip(s, from, e, kw + (" called " + r), kw, " called " + r);
    LitPiece(s, e, " called ", r);
    LowerWords();
    MatchKindComplete(s, createAt, e);
  }

  /** Group 2 and `.This class will be responsible for ` after ` called `
      at `kindEnd`: a run of word characters up to `n` where the tail
      fits, */
  lemma NameTail(s: string, kindEnd: nat, n: nat, u: string, name: string, r: string)
    requires kindEnd + |CalledWords| <= |s| && s[kindEnd + |CalledWords|..] == u && u == name + ("." + (Sentence + r))
    requires IsWord(name) && n == kindEnd + |CalledWords| + |name|
    requires r != [] && IsWordChar(r[0])
    ensures kindEnd + |CalledWords| < n && AllIn(s, kindEnd + |CalledWords|, n, IsWordChar)
    ensures TailFits(s, n) && !IsWordChar(s[n])
  {
    var p := kindEnd + |CalledWords|;
    WordPiece(s, p, n, name, "." + (Sentence + r));
    Skip(s, p, n, name + ("." + (Sentence + r)), name, "." + (Sentence + r));
    CharAt(s, n, "." + (Sentence + r), '.', Sentence + r);
    Skip(s, n, n + 1, "." + (Sentence + r), ".", Sentence + r);
    LitPiece(s, n + 1, Sentence, r);
    Skip(s, n + 1, n + 1 + |ResponsibleWords|, Sentence + r, Sentence, r);
    LowerSentence();
    assert s[n + 1 + |ResponsibleWords|..][0] == r[0];
  }

  /** so the matcher ends group 2 at `n`. */
  lemma NamePiece(s: string, kindEnd: nat, n: nat, u: string, name: string, r: string)
    requires kindEnd + |CalledWords| <= |s| && s[kindEnd + |CalledWords|..] == u && u == name + ("." + (Sentence + r))
    requires IsWord(name) && n == kindEnd + |CalledWords| + |name|
    requires r != [] && IsWordChar(r[0])
    ensures MatchName(s, kindEnd) == Some(n)
  {
    NameTail(s, kindEnd, n, u, name, r);
    var n' := MatchNameAtLeast(s, kindEnd, n);
    NameAtMost(s, kindEnd, n);
  }

  /** Group 3 after group 2 ended at `nameEnd`, with `rest` after it: the
      matcher ends group 3 at `e`. */
  lemma DescPiece(s: string, nameEnd: nat, e: nat, u: string, desc: string, rest: string)
    requires nameEnd + 1 + |ResponsibleWords| <= |s| && s[nameEnd + 1 + |ResponsibleWords|..] == u && u == desc + rest
    requires IsWord(desc) && e == nameEnd + 1 + |ResponsibleWords| + |desc|
    requires rest == [] || !IsWordChar(rest[0])
    ensures MatchDesc(s, nameEnd) == e
  {
    var i := nameEnd + 1 + |ResponsibleWords|;
    WordPiece(s, i, e, desc, rest);
    Skip(s, i, e, desc + rest, desc, rest);
    MatchDescExact(s, nameEnd, e);
  }

  /** The suffixes of a line after `Create a `, after ` called ` and
      after the sentence, at the positions `m` gives. */
  predicate Placed(s: string, m: StepMatch, r2: string, r4: string, r7: string) {
    && m.createAt + |CreateWords| <= |s| && s[m.createAt + |CreateWords|..] == r2
    && m.kindEnd + |CalledWords| <= |s| && s[m.kindEnd + |CalledWords|..] == r4
    && m.nameEnd + 1 + |ResponsibleWords| <= |s| && s[m.nameEnd + 1 + |ResponsibleWords|..] == r7
  }

  lemma LinePlaced(s: string, digit: char, k: Kind, name: string, desc: string, rest: string,
                   r2: string, r4: string, r7: string)
    requires LineParts(s, digit, k, name, desc, rest, r2, r4, r7)
    ensures Placed(s, LineMatch(k, name, desc), r2, r4, r7)
  {
    LayoutKind(s, digit, k, name, desc, rest, r2, r4, r7);
    LayoutName(s, digit, k, name, desc, rest, r2, r4, r7);
    LayoutDesc(s, digit, k, name, desc, rest, r2, r4, r7);
  }

  /** The first two stages of the matcher find a `StepLine`'s head and
      group 1 where they were written. */
  lemma LineHeadKind(s: string, digit: char, k: Kind, name: string, desc: string, rest: string,
                     r2: string, r4: string, r7: string)
    requires IsDigit(digit) && LineParts(s, digit, k, name, desc, rest, r2, r4, r7)
    requires Placed(s, LineMatch(k, name, desc), r2, r4, r7)
    ensures MatchHead(s) == Some((5, 6, 7))
    ensures MatchKind(s, 7) == Some(LineMatch(k, name, desc).kindEnd)
  {
    var m := LineMatch(k, name, desc);
    HeadPiece(s, digit, r2);
    KindPiece(s, m.createAt, m.kindEnd, r2, KindWord(k), r4);
  }

  /** The third stage of the matcher finds a `StepLine`'s group 2 where
      it was written, */
  lemma LineNameFound(s: string, k: Kind, name: string, desc: string, rest: string,
                      r2: string, r4: string, r7: string)
    requires IsWord(name) && IsWord(desc)
    requires TailParts(k, name, desc, rest, r2, r4, r7) && Placed(s, LineMatch(k, name, desc), r2, r4, r7)
    ensures MatchName(s, LineMatch(k, name, desc).kindEnd) == Some(LineMatch(k, name, desc).nameEnd)
  {
    var m := LineMatch(k, name, desc);
    var i := m.kindEnd + |CalledWords|;
    assert i <= |s| && s[i..] == r4 == name + ("." + (Sentence + r7));
    assert m.nameEnd == i + |name|;
    DescWordFirst(desc, rest, r7);
    NamePiece(s, m.kindEnd, m.nameEnd, r4, name, r7);
  }

  /** and the last stage its group 3. */
  lemma LineDescFound(s: string, k: Kind, name: string, desc: string, rest: string,
                      r2: string, r4: string, r7: string)
    requires IsWord(desc) && (rest == [] || !IsWordChar(rest[0]))
    requires TailParts(k, name, desc, rest, r2, r4, r7) && Placed(s, LineMatch(k, name, desc), r2, r4, r7)
    ensures MatchDesc(s, LineMatch(k, name, desc).nameEnd) == LineMatch(k, name, desc).descEnd
  {
    var m := LineMatch(k, name, desc);
    var i := m.nameEnd + 1 + |ResponsibleWords|;
    assert i <= |s| && s[i..] == r7 == desc + rest;
    assert m.descEnd == i + |desc|;
    DescPiece(s, m.nameEnd, m.descEnd, r7, desc, rest);
  }

  /** Text that starts with a word starts with a word character. */
  lemma DescWordFirst(desc: string, rest: string, r7: string)
    requires IsWord(desc) && r7 == desc + rest
    ensures r7 != [] && IsWordChar(r7[0])
  {
    var p: char -> bool := IsWordChar;
    assert p(desc[0]) && r7[0] == desc[0];
  }

  /** `re.match` finds a `StepLine`'s elements where they were written,
      whatever non-word text follows the description. */
  lemma LineMatchesAt(s: string, digit: char, k: Kind, name: string, desc: string, rest: string,
                      r2: string, r4: string, r7: string)
    requires IsDigit(digit) && IsWord(name) && IsWord(desc)
    requires rest == [] || !IsWordChar(rest[0])
    requires LineParts(s, digit, k, name, desc, rest, r2, r4, r7)
    requires Placed(s, LineMatch(k, name, desc), r2, r4, r7)
    ensures MatchStep(s) == Some(LineMatch(k, name, desc))
  {
    var m := LineMatch(k, name, desc);
    LineHeadKind(s, digit, k, name, desc, rest, r2, r4, r7);
    LineNameFound(s, k, name, desc, rest, r2, r4, r7);
    LineDescFound(s, k, name, desc, rest, r2, r4, r7);
    MatchStepUnfold(s, 5, 6, 7, m.kindEnd, m.nameEnd);
  }

  /** Group 1 of a `StepLine` is the kind word written, */
  lemma LineKind(s: string, m: StepMatch, k: Kind, r2: string, r4: string)
    requires m.createAt + |CreateWords| <= |s| && s[m.createAt + |CreateWords|..] == r2
    requires r2 == KindWord(k) + (" called " + r4) && m.kindEnd == m.createAt + |CreateWords| + |KindWord(k)|
    ensures m.kindEnd <= |s| && s[m.createAt + |CreateWords|..m.kindEnd] == KindWord(k)
  {
    Piece(s, m.createAt + |CreateWords|, m.kindEnd, r2, KindWord(k), " called " + r4);
  }

  /** group 2 the name, */
  lemma LineName(s: string, m: StepMatch, name: string, r4: string, r7: string)
    requires m.kindEnd + |CalledWords| <= |s| && s[m.kindEnd + |CalledWords|..] == r4
    requires r4 == name + ("." + (Sentence + r7)) && m.nameEnd == m.kindEnd + |CalledWords| + |name|
    ensures m.nameEnd <= |s| && s[m.kindEnd + |CalledWords|..m.nameEnd] == name
  {
    Piece(s, m.kindEnd + |CalledWords|, m.nameEnd, r4, name, "." + (Sentence + r7));
  }

  /** and group 3 the description. */
  lemma LineDesc(s: string, m: StepMatch, desc: string, rest: string, r7: string)
    requires m.nameEnd + 1 + |ResponsibleWords| <= |s| && s[m.nameEnd + 1 + |ResponsibleWords|..] == r7 && r7 == desc + rest
    requires m.descEnd == m.nameEnd + 1 + |ResponsibleWords| + |desc|
    ensures m.descEnd <= |s| && s[m.nameEnd + 1 + |ResponsibleWords|..m.descEnd] == desc
  {
    Piece(s, m.nameEnd + 1 + |ResponsibleWords|, m.descEnd, r7, desc, rest);
  }

  /** The groups of a `StepLine`'s match are what was written. */
  lemma LineGroupsAt(s: string, m: StepMatch, k: Kind, name: string, desc: string, rest: string,
                     r2: string, r4: string, r7: string)
    requires Placed(s, m, r2, r4, r7) && r7 == desc + rest
    requires r4 == name + ("." + (Sentence + r7)) && r2 == KindWord(k) + (" called " + r4)
    requires m.kindEnd == m.createAt + |CreateWords| + |KindWord(k)|
    requires m.nameEnd == m.kindEnd + |CalledWords| + |name|
    requires m.descEnd == m.nameEnd + 1 + |ResponsibleWords| + |desc|
    ensures Spans(s, m)
    ensures KindGroup(s, m) == KindWord(k) && NameGroup(s, m) == name && DescGroup(s, m) == desc
  {
    LineKind(s, m, k, r2, r4);
    LineName(s, m, name, r4, r7);
    LineDesc(s, m, desc, rest, r7);
  }

  /** A line is its own strip when it starts with `S` and what follows the
      description does not end in white space. */
  lemma LineStripped(s: string, m: StepMatch, desc: string, rest: string, r2: string, r4: string, r7: string)
    requires |s| > 0 && s[0] == 'S'
    requires IsWord(desc) && (rest == [] || !IsSpace(rest[|rest| - 1]))
    requires Placed(s, m, r2, r4, r7) && r7 == desc + rest
    ensures Strip(s) == s
  {
    var i := m.nameEnd + 1 + |ResponsibleWords|;
    assert s[|s| - 1] == r7[|r7| - 1] by {
      assert s[i..][|r7| - 1] == r7[|r7| - 1];
    }
    StripUnchanged(s);
  }

  /** Group 3 is the whole run of word characters after the sentence. */
  lemma MatchDescExact(s: string, nameEnd: nat, e: nat)
    requires nameEnd + 1 + |ResponsibleWords| <= e && AllIn(s, nameEnd + 1 + |ResponsibleWords|, e, IsWordChar)
    requires e == |s| || !IsWordChar(s[e])
    ensures MatchDesc(s, nameEnd) == e
  {
    RunEndUnique(s, nameEnd + 1 + |ResponsibleWords|, e, IsWordChar);
  }

  /** Group 2 ends no later than the first non-word character. */
  lemma NameAtMost(s: string, kindEnd: nat, n0: nat)
    requires AllIn(s, kindEnd + |CalledWords|, n0, IsWordChar) && n0 < |s| && !IsWordChar(s[n0])
    ensures MatchName(s, kindEnd).Some? ==> MatchName(s, kindEnd).value <= n0
  {
    RunEndUnique(s, kindEnd + |CalledWords|, n0, IsWordChar);
  }

  /** A line whose match has the groups of a supported kind, a name and a
      description reads as the entity with those. */
  lemma EntityOfMatch(t: string, m: StepMatch, k: Kind, name: string, desc: string, parent: Option<EntityId>)
    requires MatchStep(t) == Some(m) && Spans(t, m)
    requires KindGroup(t, m) == KindWord(k) && NameGroup(t, m) == name && DescGroup(t, m) == desc
    ensures EntityOfLine(t, parent) == Ok(Unlinked(name, k, desc, parent))
  {
    assert KindOf(KindWord(k)) == Ok(k);
  }

  /** The matcher reads a `StepLine` as written, and stripping leaves it
      alone. */
  lemma LineRead(s: string, digit: char, k: Kind, name: string, desc: string, rest: string,
                 r2: string, r4: string, r7: string)
    requires IsDigit(digit) && IsWord(name) && IsWord(desc)
    requires rest == [] || (!IsWordChar(rest[0]) && !IsSpace(rest[|rest| - 1]))
    requires LineParts(s, digit, k, name, desc, rest, r2, r4, r7)
    ensures Strip(s) == s && MatchStep(s) == Some(LineMatch(k, name, desc))
    ensures Spans(s, LineMatch(k, name, desc))
    ensures KindGroup(s, LineMatch(k, name, desc)) == KindWord(k)
    ensures NameGroup(s, LineMatch(k, name, desc)) == name && DescGroup(s, LineMatch(k, name, desc)) == desc
  {
    var m := LineMatch(k, name, desc);
    LinePlaced(s, digit, k, name, desc, rest, r2, r4, r7);
    LineMatchesAt(s, digit, k, name, desc, rest, r2, r4, r7);
    LineGroupsAt(s, m, k, name, desc, rest, r2, r4, r7);
    LineStripped(s, m, desc, rest, r2, r4, r7);
  }

  /** Round trip: the entity a plan writes as a `StepLine` is the entity
      read back from that line, whatever non-word text without trailing
      white space follows the description. */
  lemma ExtractStepLine(digit: char, k: Kind, name: string, desc: string, rest: string, parent: Option<EntityId>)
    requires IsDigit(digit) && IsWord(name) && IsWord(desc)
    requires rest == [] || (!IsWordChar(rest[0]) && !IsSpace(rest[|rest| - 1]))
    ensures ExtractCodeEntity(StepLine(digit, k, name, desc, rest), parent) == Ok(Unlinked(name, k, desc, parent))
  {
    var s := StepLine(digit, k, name, desc, rest);
    var r7 := desc + rest;
    var r4 := name + ("." + (Sentence + r7));
    var r2 := KindWord(k) + (" called " + r4);
    assert LineParts(s, digit, k, name, desc, rest, r2, r4, r7);
    LineRead(s, digit, k, name, desc, rest, r2, r4, r7);
    EntityOfMatch(s, LineMatch(k, name, desc), k, name, desc, parent);
  }

  /** The step number is a single digit: a match's digit has white space
      before it and white space or the colon after it. */
  lemma SingleDigitStep(s: string, m: StepMatch)
    requires Fits(s, m)
    ensures !IsDigit(s[m.digitAt - 1]) && !IsDigit(s[m.digitAt + 1])
  {
    var p: char -> bool := IsSpace;
    assert p(s[m.digitAt - 1]);
    if m.digitAt + 1 < m.colonAt {
      assert p(s[m.digitAt + 1]);
    }
  }
}

=== FILE: text.dfy ===
/** Python string primitives the system relies on, with the character
    classes they use: `str.isspace` (also regex `\s`), the line boundaries
    of `str.splitlines`, the ASCII part of `\w` and `\d`, and ASCII case
    mapping for `lower()`, `upper()` and `re.I`. */
module Text {

  /** Python's `str.isspace`, which is also what a regex `\s` matches. */
  predicate IsSpace(c: char) {
    var n := c as int;
    || (9 <= n <= 13) || (0x1C <= n <= 0x20) || n == 0x85 || n == 0xA0
    || n == 0x1680 || (0x2000 <= n <= 0x200A) || n == 0x2028 || n == 0x2029
    || n == 0x202F || n == 0x205F || n == 0x3000
  }

  /** The characters at which `str.splitlines` ends a line. */
  predicate IsLineBreak(c: char) {
    var n := c as int;
    || (10 <= n <= 13) || (0x1C <= n <= 0x1E) || n == 0x85 || n == 0x2028 || n == 0x2029
  }

  predicate IsDigit(c: char) {
    '0' <= c <= '9'
  }

  predicate IsAsciiLetter(c: char) {
    ('a' <= c <= 'z') || ('A' <= c <= 'Z')
  }

  /** Regex `\w`, restricted to ASCII. */
  predicate IsWordChar(c: char) {
    IsAsciiLetter(c) || IsDigit(c) || c == '_'
  }

  predicate IsWord(s: string) {
    |s| > 0 && forall k :: 0 <= k < |s| ==> IsWordChar(s[k])
  }

  function LowerChar(c: char): (r: char)
    ensures IsAsciiLetter(c) ==> 'a' <= r <= 'z'
    ensures !('A' <= c <= 'Z') ==> r == c
  {
    if 'A' <= c <= 'Z' then (c as int + 32) as char else c
  }

  function UpperChar(c: char): (r: char)
    ensures !('a' <= c <= 'z') ==> r == c
    ensures 'a' <= c <= 'z' ==> 'A' <= r <= 'Z' && LowerChar(r) == c
  {
    if 'a' <= c <= 'z' then (c as int - 32) as char else c
  }

  function Lower(s: string): (r: string)
    ensures |r| == |s|
    ensures forall k :: 0 <= k < |s| ==> r[k] == LowerChar(s[k])
  {
    seq(|s|, k requires 0 <= k < |s| => LowerChar(s[k]))
  }

  lemma LowerConcat(a: string, b: string)
    ensures Lower(a + b) == Lower(a) + Lower(b)
  {
  }

  function Upper(s: string): (r: string)
    ensures |r| == |s|
    ensures forall k :: 0 <= k < |s| ==> r[k] == UpperChar(s[k])
  {
    seq(|s|, k requires 0 <= k < |s| => UpperChar(s[k]))
  }

  /** `s.replace(a, b)` for single characters. */
  function ReplaceChar(s: string, a: char, b: char): (r: string)
    ensures |r| == |s|
    ensures a != b ==> forall k :: 0 <= k < |r| ==> r[k] != a
    ensures forall k :: 0 <= k < |s| && s[k] != a ==> r[k] == s[k]
  {
    seq(|s|, k requires 0 <= k < |s| => if s[k] == a then b else s[k])
  }

  /** `c * n` */
  function Repeat(c: char, n: nat): (r: string)
    ensures |r| == n
    ensures forall k :: 0 <= k < n ==> r[k] == c
  {
    seq(n, _ => c)
  }

  /** The end of the run of characters satisfying `p` that starts at `i`:
      what a greedy regex class repetition consumes. */
  function RunEnd(s: string, i: nat, p: char -> bool): (e: nat)
    requires i <= |s|
    ensures i <= e <= |s|
    ensures forall k {:trigger p(s[k])} :: i <= k < e ==> p(s[k])
    ensures e == |s| || !p(s[e])
    decreases |s| - i
  {
    if i == |s| || !p(s[i]) then i else RunEnd(s, i + 1, p)
  }

  /** A run end is the only position that both closes a run of `p` and is
      followed by a character outside `p` (or the end). */
  lemma {:induction false} RunEndUnique(s: string, i: nat, e: nat, p: char -> bool)
    requires i <= e <= |s|
    requires forall k {:trigger p(s[k])} :: i <= k < e ==> p(s[k])
    requires e == |s| || !p(s[e])
    ensures RunEnd(s, i, p) == e
    decreases e - i
  {
    if i < e {
      RunEndUnique(s, i + 1, e, p);
    }
  }

  /** Every character in `s[i..j]` satisfies `p`. */
  predicate AllIn(s: string, i: nat, j: nat, p: char -> bool) {
    i <= j <= |s| && forall k {:trigger p(s[k])} :: i <= k < j ==> p(s[k])
  }

  /** A run of `p` reaches at least as far as any stretch of `p` from the
      same start. */
  lemma {:induction false} RunEndCovers(s: string, i: nat, j: nat, p: char -> bool)
    requires AllIn(s, i, j, p)
    ensures j <= RunEnd(s, i, p)
    decreases j - i
  {
    if i < j {
      RunEndCovers(s, i + 1, j, p);
    }
  }

  /** Reading a text `w` at `i` of `s`, with `t` after it. */
  lemma Skip(s: string, i: nat, e: nat, u: string, w: string, t: string)
    requires i <= |s| && s[i..] == u && u == w + t && e == i + |w|
    ensures e <= |s| && s[e..] == t
  {
  }

  /** Reading a text `w` at `i` of `s`, up to `e`. */
  lemma Piece(s: string, i: nat, e: nat, u: string, w: string, t: string)
    requires i <= |s| && s[i..] == u && u == w + t && e == i + |w|
    ensures e <= |s| && s[i..e] == w
  {
    assert s[i..][..|w|] == w;
  }

  /** The same, letter by letter. */
  lemma PieceAt(s: string, i: nat, e: nat, u: string, w: string, t: string)
    requires i <= |s| && s[i..] == u && u == w + t && e == i + |w|
    ensures e <= |s| && forall j :: i <= j < e ==> s[j] == w[j - i]
  {
    Piece(s, i, e, u, w, t);
    forall j | i <= j < e
      ensures s[j] == w[j - i]
    {
      assert s[i..e][j - i] == s[j];
    }
  }

  /** Reading one character `c` at `i`. */
  lemma CharAt(s: string, i: nat, u: string, c: char, t: string)
    requires i <= |s| && s[i..] == u && u == [c] + t
    ensures i < |s| && s[i] == c
  {
    assert s[i..][0] == c;
  }

  /** Reading `w` at `i` shows where every character of `w` is in `s`:
      if all of them satisfy `p`, `s[i..e]` is a run of `p`. */
  lemma RunPiece(s: string, i: nat, e: nat, w: string, t: string, p: char -> bool)
    requires i <= |s| && s[i..] == w + t && e == i + |w|
    requires forall k {:trigger p(w[k])} :: 0 <= k < |w| ==> p(w[k])
    ensures AllIn(s, i, e, p)
  {
    PieceAt(s, i, e, w + t, w, t);
    forall j | i <= j < e
      ensures p(s[j])
    {
      assert s[j] == w[j - i];
    }
  }

  /** `s.lstrip()` */
  function LStrip(s: string): (r: string)
    ensures |r| <= |s| && r == s[|s| - |r|..]
    ensures forall k :: 0 <= k < |s| - |r| ==> IsSpace(s[k])
    ensures |r| > 0 ==> !IsSpace(r[0])
  {
    s[RunEnd(s, 0, IsSpace)..]
  }

  /** `s.rstrip()` */
  function RStrip(s: string): (r: string)
    ensures |r| <= |s| && r == s[..|r|]
    ensures forall k :: |r| <= k < |s| ==> IsSpace(s[k])
    ensures |r| > 0 ==> !IsSpace(r[|r| - 1])
    decreases |s|
  {
    if |s| > 0 && IsSpace(s[|s| - 1]) then RStrip(s[..|s| - 1]) else s
  }

  /** `s.strip()` */
  function Strip(s: string): (r: string)
    ensures |r| > 0 ==> !IsSpace(r[0]) && !IsSpace(r[|r| - 1])
    ensures var i := RunEnd(s, 0, IsSpace);
      && i + |r| <= |s| && r == s[i..i + |r|]
      && (forall k :: 0 <= k < i ==> IsSpace(s[k]))
      && (forall k :: i + |r| <= k < |s| ==> IsSpace(s[k]))
  {
    RStrip(LStrip(s))
  }

  /** Stripping leaves a string alone that already begins with `p`, a
      non-empty text with no white space at either end, apart from white
      space trailing the whole string: the result still starts with `p`. */
  lemma StripKeepsPrefix(p: string, t: string)
    requires |p| > 0 && !IsSpace(p[0]) && !IsSpace(p[|p| - 1])
    ensures var r := Strip(p + t);
      |p| <= |r| && r[..|p|] == p && r == (p + t)[..|r|]
  {
    var s := p + t;
    assert LStrip(s) == s by {
      RunEndUnique(s, 0, 0, IsSpace);
    }
    assert s[|p| - 1] == p[|p| - 1];
  }

  /** A string without white space at either end is its own strip. */
  lemma StripUnchanged(s: string)
    requires |s| > 0 && !IsSpace(s[0]) && !IsSpace(s[|s| - 1])
    ensures Strip(s) == s
  {
    RunEndUnique(s, 0, 0, IsSpace);
  }

  /** `sep.join(parts)` */
  function Join(sep: string, parts: seq<string>): string
    decreases |parts|
  {
    if |parts| == 0 then []
    else if |parts| == 1 then parts[0]
    else parts[0] + sep + Join(sep, parts[1..])
  }

  lemma JoinAppend(sep: string, a: seq<string>, x: string)
    requires |a| > 0
    ensures Join(sep, a + [x]) == Join(sep, a) + sep + x
    decreases |a|
  {
    if |a| == 1 {
      assert a + [x] == [a[0], x];
      assert [a[0], x][1..] == [x];
    } else {
      assert (a + [x])[1..] == a[1..] + [x];
      JoinAppend(sep, a[1..], x);
    }
  }

  predicate NotLineBreak(c: char) {
    !IsLineBreak(c)
  }

  predicate NoLineBreak(s: string) {
    forall k :: 0 <= k < |s| ==> !IsLineBreak(s[k])
  }

  /** `s.splitlines()`: `\r\n` ends a line as one boundary, and a final
      boundary does not open an extra empty line. */
  function SplitLines(s: string): (lines: seq<string>)
    ensures forall j :: 0 <= j < |lines| ==> NoLineBreak(lines[j])
    ensures s == [] <==> lines == []
    decreases |s|
  {
    if s == [] then []
    else
      var i := RunEnd(s, 0, NotLineBreak);
      assert NoLineBreak(s[..i]) by {
        forall k | 0 <= k < i ensures !IsLineBreak(s[k]) {
          var p: char -> bool := NotLineBreak;
          assert p(s[k]);
        }
      }
      if i == |s| then [s]
      else
        var skip := if s[i] == '\r' && i + 1 < |s| && s[i + 1] == '\n' then 2 else 1;
        [s[..i]] + SplitLines(s[i + skip..])
  }

  /** Joining break-free lines with `\n` and splitting the text again gives
      the lines back, provided the last one is not empty. */
  lemma {:induction false} SplitLinesJoin(lines: seq<string>)
    requires forall j :: 0 <= j < |lines| ==> NoLineBreak(lines[j])
    requires |lines| > 0 ==> lines[|lines| - 1] != []
    ensures SplitLines(Join("\n", lines)) == lines
    decreases |lines|
  {
    if |lines| == 1 {
      var s := lines[0];
      RunEndUnique(s, 0, |s|, NotLineBreak);
    } else if |lines| > 1 {
      var rest := Join("\n", lines[1..]);
      var s := lines[0] + "\n" + rest;
      assert s == Join("\n", lines);
      RunEndUnique(s, 0, |lines[0]|, NotLineBreak);
      assert s[|lines[0]|] == '\n' && s[..|lines[0]|] == lines[0];
      assert s[|lines[0]| + 1..] == rest;
      SplitLinesJoin(lines[1..]);
      assert lines == [lines[0]] + lines[1..];
    }
  }

  function DigitChar(d: nat): (c: char)
    requires d < 10
    ensures IsDigit(c)
  {
    ('0' as int + d) as char
  }

  /** `str(n)` for a natural number. */
  function NatToString(n: nat): (r: string)
    ensures |r| > 0 && forall k :: 0 <= k < |r| ==> IsDigit(r[k])
    ensures n < 10 <==> |r| == 1
    ensures n < 10 ==> r == [DigitChar(n)]
  {
    if n < 10 then [DigitChar(n)] else NatToString(n / 10) + [DigitChar(n % 10)]
  }

  /** `str(i)` for an integer. */
  function IntToString(i: int): (r: string)
    ensures |r| > 0
    ensures i < 0 ==> r[0] == '-'
    ensures 0 <= i < 10 <==> |r| == 1 && IsDigit(r[0])
    ensures 0 <= i < 10 ==> r == [DigitChar(i)]
  {
    if i < 0 then "-" + NatToString(-i) else NatToString(i)
  }

  /** The digits of a decimal numeral, read back. */
  function DigitsValue(s: string): nat
    requires forall k :: 0 <= k < |s| ==> IsDigit(s[k])
  {
    if s == [] then 0
    else
      assert IsDigit(s[|s| - 1]);
      DigitsValue(s[..|s| - 1]) * 10 + (s[|s| - 1] as int - '0' as int)
  }

  /** `str(n)` is read back as `n`. */
  lemma {:induction false} NatToStringRoundTrip(n: nat)
    ensures DigitsValue(NatToString(n)) == n
  {
    if n >= 10 {
      NatToStringRoundTrip(n / 10);
      var s := NatToString(n);
      assert s[..|s| - 1] == NatToString(n / 10);
    }
  }
}

=== FILE: toposort.dfy ===
/** `DependencyGraph.top_sort_entities`: Kahn's algorithm over a queue that
    only grows, read through a `head` cursor, and what its result means for
    the dependency edges and for cycles. */
module TopSort {
  import opened CodeGraph
  import opened Kahn

  /** `top_sort_entities`. The graph is a value, so the call changes no
      entity or edge, and the result is `KahnOrder(g)`, a function of the graph
      alone: two calls on an unchanged graph return the same sequence. */
  method TopSortEntities(g: Graph) returns (order: seq<EntityId>)
    requires Valid(g)
    ensures order == KahnOrder(g)
    ensures KahnOutput(g, order)
    ensures Consistent(g) ==> RespectsEdges(g, order)
  {
    var n := |g.entities|;
    var deg := ComputeDegrees(g);
    assert deg == InitialDegrees(g);
    var queue := CollectSeeds(g, deg);
    DrainingStart(g);
    var head := 0;
    while head < |queue|
      invariant Draining(g, deg, queue, head)
      invariant Run(g, deg, queue, head, n - head) == KahnOrder(g)
      decreases n - head
    {
      var u := queue[head];
      ghost var r := Release(g, deg, queue, Targets(g, u));
      ghost var queue0 := queue;
      ghost var fuel := n - head;
      RunStep(g, deg, queue, head, fuel);
      head := head + 1;
      ReleasingStart(g, deg, queue, head);
      deg, queue := ReleaseTargets(g, deg, queue, Targets(g, u), head);
      ReleasingDone(g, queue0, head, Targets(g, u), deg, queue);
      assert deg == r.0 && queue == r.1;
      assert n - head == fuel - 1;
      assert Run(g, deg, queue, head, n - head) == KahnOrder(g);
    }
    order := queue;
    DrainingDone(g, deg, queue, head);
    if Consistent(g) {
      EdgesRespected(g, order);
    }
  }

  /** The first loop of `top_sort_entities`: every entity's in-degree. */
  method ComputeDegrees(g: Graph) returns (deg: seq<int>)
    requires Valid(g)
    ensures |deg| == |g.entities|
    ensures forall v :: 0 <= v < |g.entities| ==> deg[v] == |g.entities[v].inEdges|
  {
    deg := [];
    for i := 0 to |g.entities|
      invariant |deg| == i
      invariant forall v :: 0 <= v < i ==> deg[v] == |g.entities[v].inEdges|
    {
      deg := deg + [InDegree(g, i)];
    }
  }

  /** The second loop of `top_sort_entities`: the entities with no incoming
      edge, in `entities` order. */
  method CollectSeeds(g: Graph, deg: seq<int>) returns (queue: seq<EntityId>)
    requires Valid(g) && |deg| == |g.entities|
    requires forall v :: 0 <= v < |g.entities| ==> deg[v] == InDegree(g, v)
    ensures queue == Seeds(g)
    ensures forall v: EntityId :: v in queue <==> v < |g.entities| && |g.entities[v].inEdges| == 0
  {
    queue := [];
    for i := 0 to |g.entities|
      invariant queue == SeedsBelow(g, i)
    {
      if deg[i] == 0 {
        queue := queue + [i];
      }
    }
  }

  /** The outer loop's invariant: `deg` holds each entity's in-degree less
      the out-edges from the entities before the cursor, the queue holds
      exactly the entities whose count reached zero, each placed after what
      covers it. */
  predicate Draining(g: Graph, deg: seq<int>, queue: seq<EntityId>, head: nat)
    requires Valid(g)
  {
    && |deg| == |g.entities| && InRange(g, queue) && Distinct(queue)
    && head <= |queue| <= |g.entities|
    && Seeds(g) <= queue
    && (forall v :: 0 <= v < |g.entities| ==> deg[v] == InDegree(g, v) - Hits(g, queue[..head], v))
    && (forall v :: 0 <= v < |g.entities| ==> (v in queue <==> deg[v] <= 0))
    && (forall p :: 0 <= p < |queue| ==> CoveredAt(g, queue, p))
  }

  /** Before the outer loop the invariant holds of the initial state. */
  lemma DrainingStart(g: Graph)
    requires Valid(g)
    ensures Draining(g, InitialDegrees(g), Seeds(g), 0)
    ensures Run(g, InitialDegrees(g), Seeds(g), 0, |g.entities|) == KahnOrder(g)
  {
    DistinctBound(g, Seeds(g));
  }

  /** When the cursor reaches the end of the queue, the queue is the
      result the reference definition describes. */
  lemma DrainingDone(g: Graph, deg: seq<int>, queue: seq<EntityId>, head: nat)
    requires Valid(g) && Draining(g, deg, queue, head) && head == |queue|
    ensures KahnOutput(g, queue)
  {
    assert queue[..|queue|] == queue;
  }

  /** One iteration of the outer loop of the reference definition. */
  lemma RunStep(g: Graph, deg: seq<int>, queue: seq<EntityId>, head: nat, fuel: nat)
    requires Valid(g) && |deg| == |g.entities| && InRange(g, queue)
    requires head < |queue| && fuel > 0
    ensures var r := Release(g, deg, queue, Targets(g, queue[head]));
      Run(g, deg, queue, head, fuel) == Run(g, r.0, r.1, head + 1, fuel - 1)
  {
  }

  /** The inner `for out_edge in from_entity.out_edges` loop for the entity
      just dequeued at `head - 1`, whose out-edge targets are `ts`: every
      target is decremented, and one that reaches exactly zero is enqueued.
      The loop keeps the count of every entity equal to its in-degree less
      the out-edge slots released so far. */
  method ReleaseTargets(g: Graph, deg: seq<int>, queue: seq<EntityId>, ts: seq<EntityId>, ghost head: nat)
    returns (deg': seq<int>, queue': seq<EntityId>)
    requires Valid(g) && InRange(g, queue) && 1 <= head <= |queue| && ts == Targets(g, queue[head - 1])
    requires Releasing(g, queue, head, ts, 0, deg, queue)
    ensures (deg', queue') == Release(g, deg, queue, ts)
    ensures Releasing(g, queue, head, ts, |ts|, deg', queue')
  {
    deg', queue' := deg, queue;
    for k := 0 to |ts|
      invariant Releasing(g, queue, head, ts, k, deg', queue')
      invariant Release(g, deg', queue', ts[k..]) == Release(g, deg, queue, ts)
    {
      var v := ts[k];
      var d := deg'[v := deg'[v] - 1];
      var q := if d[v] == 0 then queue' + [v] else queue';
      ReleasingStep(g, queue, head, ts, k, deg', queue', d, q);
      ReleaseAt(g, deg', queue', ts, k);
      deg', queue' := d, q;
    }
    assert ts[|ts|..] == [];
  }

  /** Dequeuing the entity at `head - 1` starts the inner loop in its
      invariant. */
  lemma ReleasingStart(g: Graph, deg: seq<int>, queue: seq<EntityId>, head: nat)
    requires Valid(g) && 1 <= head && Draining(g, deg, queue, head - 1) && head <= |queue|
    ensures Releasing(g, queue, head, Targets(g, queue[head - 1]), 0, deg, queue)
  {
    assert Targets(g, queue[head - 1])[..0] == [];
  }

  /** The inner loop's invariant once the first `k` targets in `ts`, the
      out-edge targets of the entity dequeued at `head - 1`, have been
      released into the degrees `d` and the queue `q`. */
  predicate Releasing(g: Graph, queue: seq<EntityId>, head: nat, ts: seq<EntityId>, k: nat,
                      d: seq<int>, q: seq<EntityId>)
    requires Valid(g) && InRange(g, queue) && 1 <= head <= |queue| && k <= |ts|
  {
    && |d| == |g.entities| && EmittedAfterCover(g, q) && queue <= q
    && ReleasedDegrees(g, queue, head, ts, k, d)
    && Enqueued(g, d, q)
  }

  /** `d` is each entity's in-degree less the out-edges from the entities
      before the one dequeued at `head - 1` and from the first `k` of its
      targets `ts`. */
  predicate ReleasedDegrees(g: Graph, queue: seq<EntityId>, head: nat, ts: seq<EntityId>, k: nat, d: seq<int>)
    requires Valid(g) && InRange(g, queue) && 1 <= head <= |queue| && k <= |ts| && |d| == |g.entities|
  {
    forall v :: 0 <= v < |g.entities| ==>
      d[v] == InDegree(g, v) - Hits(g, queue[..head - 1], v) - Count(ts[..k], v)
  }

  /** The queue holds exactly the entities whose count has reached zero. */
  predicate Enqueued(g: Graph, d: seq<int>, q: seq<EntityId>)
    requires |d| == |g.entities|
  {
    forall v :: 0 <= v < |g.entities| ==> (v in q <==> d[v] <= 0)
  }

  /** Releasing one more target keeps the inner loop's invariant. */
  lemma ReleasingStep(g: Graph, queue: seq<EntityId>, head: nat, ts: seq<EntityId>, k: nat,
                      d: seq<int>, q: seq<EntityId>, d': seq<int>, q': seq<EntityId>)
    requires Valid(g) && InRange(g, queue) && 1 <= head <= |queue| && k < |ts|
    requires ts == Targets(g, queue[head - 1])
    requires Releasing(g, queue, head, ts, k, d, q)
    requires d' == d[ts[k] := d[ts[k]] - 1]
    requires q' == if d'[ts[k]] == 0 then q + [ts[k]] else q
    ensures Releasing(g, queue, head, ts, k + 1, d', q')
  {
    var v := ts[k];
    DegreesStep(g, queue, head, ts, k, d, d');
    if d'[v] == 0 {
      EnqueueCovered(g, queue, head, ts, k, d, q);
    }
    assert Enqueued(g, d', q');
  }

  /** Releasing the `k`-th target decrements its count by one slot. */
  lemma DegreesStep(g: Graph, queue: seq<EntityId>, head: nat, ts: seq<EntityId>, k: nat,
                    d: seq<int>, d': seq<int>)
    requires Valid(g) && InRange(g, queue) && 1 <= head <= |queue| && k < |ts| && InRange(g, ts) && |d| == |g.entities|
    requires ReleasedDegrees(g, queue, head, ts, k, d)
    requires d' == d[ts[k] := d[ts[k]] - 1]
    ensures ReleasedDegrees(g, queue, head, ts, k + 1, d')
  {
    CountStep(ts, k);
  }

  /** A target whose count reaches zero is covered by the entities dequeued
      so far, so appending it keeps every queued entity after its cover. */
  lemma EnqueueCovered(g: Graph, queue: seq<EntityId>, head: nat, ts: seq<EntityId>, k: nat,
                       d: seq<int>, q: seq<EntityId>)
    requires Valid(g) && InRange(g, queue) && 1 <= head <= |queue| && k < |ts|
    requires ts == Targets(g, queue[head - 1])
    requires Releasing(g, queue, head, ts, k, d, q)
    requires d[ts[k]] == 1
    ensures ts[k] !in q && EmittedAfterCover(g, q + [ts[k]])
  {
    var v := ts[k];
    CountStep(ts, k);
    assert q[..head - 1] == queue[..head - 1];
    HitsAfterDequeue(g, q, head, queue[..head - 1], queue[head - 1], ts, v);
    AppendCovered(g, q, head, v);
  }

  /** Counting through one more element of `ts` adds one for that element
      only. */
  lemma CountStep(ts: seq<EntityId>, k: nat)
    requires k < |ts|
    ensures Count(ts[..k + 1], ts[k]) == Count(ts[..k], ts[k]) + 1 <= Count(ts, ts[k])
    ensures forall w :: w != ts[k] ==> Count(ts[..k + 1], w) == Count(ts[..k], w)
  {
    var v := ts[k];
    CountPrefix(ts, k, v);
    if k + 1 < |ts| {
      CountPrefix(ts, k + 1, v);
    } else {
      assert ts[..k + 1] == ts;
    }
    forall w | w != v
      ensures Count(ts[..k + 1], w) == Count(ts[..k], w)
    {
      CountPrefix(ts, k, w);
      if k + 1 == |ts| {
        assert ts[..k + 1] == ts;
      }
    }
  }

  /** Once every target is released, the inner loop's invariant is the outer
      loop's, with the cursor past the dequeued entity. */
  lemma ReleasingDone(g: Graph, queue: seq<EntityId>, head: nat, ts: seq<EntityId>,
                      d: seq<int>, q: seq<EntityId>)
    requires Valid(g) && InRange(g, queue) && 1 <= head <= |queue| && Seeds(g) <= queue
    requires ts == Targets(g, queue[head - 1])
    requires Releasing(g, queue, head, ts, |ts|, d, q)
    ensures Draining(g, d, q, head)
  {
    DistinctBound(g, q);
    assert ts[..|ts|] == ts;
    assert q[..head - 1] == queue[..head - 1];
    forall v | 0 <= v < |g.entities|
      ensures d[v] == InDegree(g, v) - Hits(g, q[..head], v)
    {
      HitsAfterDequeue(g, q, head, queue[..head - 1], queue[head - 1], ts, v);
    }
  }

  /** One iteration of the inner loop of the reference definition, at the
      `k`-th target. */
  lemma ReleaseAt(g: Graph, deg: seq<int>, queue: seq<EntityId>, ts: seq<EntityId>, k: nat)
    requires |deg| == |g.entities| && InRange(g, ts) && InRange(g, queue) && k < |ts|
    ensures var v := ts[k]; var d := deg[v := deg[v] - 1];
      Release(g, deg, queue, ts[k..]) == Release(g, d, if d[v] == 0 then queue + [v] else queue, ts[k + 1..])
  {
    assert ts[k..][0] == ts[k] && ts[k..][1..] == ts[k + 1..];
  }

  /** Dequeuing `u` adds its out-edge slots to the hits. */
  lemma HitsAfterDequeue(g: Graph, queue: seq<EntityId>, head: nat, done: seq<EntityId>, u: EntityId,
                         ts: seq<EntityId>, v: EntityId)
    requires Valid(g) && InRange(g, queue) && 1 <= head <= |queue|
    requires queue[..head - 1] == done && queue[head - 1] == u && ts == Targets(g, u)
    ensures InRange(g, done)
    ensures Hits(g, queue[..head], v) == Hits(g, done, v) + Count(ts, v)
  {
    assert queue[..head][..head - 1] == done;
  }

  /** An entity whose in-degree is covered by the entities dequeued so far
      may go to the end of the queue without breaking the emission rule. */
  lemma AppendCovered(g: Graph, queue: seq<EntityId>, head: nat, v: EntityId)
    requires Valid(g) && InRange(g, queue) && head <= |queue| && v < |g.entities|
    requires forall p :: 0 <= p < |queue| ==> CoveredAt(g, queue, p)
    requires InDegree(g, v) <= Hits(g, queue[..head], v)
    ensures forall p :: 0 <= p < |queue| + 1 ==> CoveredAt(g, queue + [v], p)
  {
    forall p | 0 <= p < |queue| + 1
      ensures CoveredAt(g, queue + [v], p)
    {
      if p < |queue| {
        assert (queue + [v])[..p] == queue[..p];
        assert CoveredAt(g, queue, p);
      } else {
        HitsPrefixMono(g, queue, head, |queue|, v);
        assert (queue + [v])[..p] == queue[..|queue|];
      }
    }
  }

  /** With consistent edge lists, an entity is returned only after every
      entity that has an out-edge to it. */
  lemma PredecessorFirst(g: Graph, order: seq<EntityId>, p: nat, u: EntityId) returns (q: nat)
    requires Consistent(g) && EmittedAfterCover(g, order)
    requires p < |order| && u < |g.entities| && HasEdge(g, u, order[p])
    ensures q < p && order[q] == u
  {
    var v := order[p];
    var before := order[..p];
    assert CoveredAt(g, order, p);
    assert InRange(g, before) && Distinct(before);
    HitsSplit(g, before, v);
    assert HitsOutside(g, |g.entities|, Elems(before), v) == 0;
    if u !in Elems(before) {
      HitsOutsideRemove(g, |g.entities|, Elems(before), u, v);
      CountPositive(Targets(g, u), v);
      assert false;
    }
    assert u in before;
    q :| 0 <= q < p && before[q] == u;
  }

  /** With consistent edge lists, every edge between returned entities
      points forward in the result. */
  lemma EdgesRespected(g: Graph, order: seq<EntityId>)
    requires Consistent(g) && EmittedAfterCover(g, order)
    ensures RespectsEdges(g, order)
  {
    forall i, j | 0 <= i < |order| && 0 <= j < |order| && HasEdge(g, order[i], order[j])
      ensures i < j
    {
      var q := PredecessorFirst(g, order, j, order[i]);
    }
  }

  /** A closed walk along out-edges: `c[0] -> c[1] -> ... -> c[|c|-1] == c[0]`. */
  predicate IsCycle(g: Graph, c: seq<EntityId>)
    requires Valid(g)
  {
    && |c| >= 2
    && InRange(g, c)
    && c[0] == c[|c| - 1]
    && forall k :: 0 <= k < |c| - 1 ==> HasEdge(g, c[k], c[k + 1])
  }

  ghost predicate Acyclic(g: Graph)
    requires Valid(g)
  {
    forall c :: !IsCycle(g, c)
  }

  /** Walking a path backwards from a returned entity, each step lands on
      an entity returned strictly earlier. */
  lemma {:induction false} ChainDown(g: Graph, order: seq<EntityId>, c: seq<EntityId>, k: nat, p: nat) returns (q: nat)
    requires Consistent(g) && EmittedAfterCover(g, order)
    requires InRange(g, c) && k < |c| && p < |order| && order[p] == c[k]
    requires forall j :: 0 <= j < |c| - 1 ==> HasEdge(g, c[j], c[j + 1])
    ensures q + k <= p && order[q] == c[0]
  {
    if k == 0 {
      q := p;
    } else {
      var p' := PredecessorFirst(g, order, p, c[k - 1]);
      q := ChainDown(g, order, c, k - 1, p');
    }
  }

  /** With consistent edge lists, no entity on a cycle is returned: the
      cycle is dropped silently rather than reported. */
  lemma CycleOmitted(g: Graph, order: seq<EntityId>, c: seq<EntityId>)
    requires Consistent(g) && EmittedAfterCover(g, order) && IsCycle(g, c)
    ensures forall m :: 0 <= m < |c| ==> c[m] !in order
  {
    forall m | 0 <= m < |c|
      ensures c[m] !in order
    {
      if c[m] in order {
        var p :| 0 <= p < |order| && order[p] == c[m];
        var q0 := ChainDown(g, order, c, m, p);
        var q1 := ChainDown(g, order, c, |c| - 1, q0);
      }
    }
  }

  /** With consistent edge lists, an entity that is not returned has an
      out-edge into it from another entity that is not returned. */
  lemma OmittedPredecessor(g: Graph, order: seq<EntityId>, v: EntityId) returns (u: EntityId)
    requires Consistent(g) && EmittedAfterCover(g, order) && CoveredMembers(g, order)
    requires v < |g.entities| && v !in order
    ensures u < |g.entities| && u !in order && HasEdge(g, u, v)
  {
    HitsSplit(g, order, v);
    u := HitsOutsideWitness(g, |g.entities|, Elems(order), v);
  }

  /** A walk of `len` steps backwards along edges from an omitted entity,
      through omitted entities only. */
  lemma {:induction false} BackwardWalk(g: Graph, order: seq<EntityId>, v: EntityId, len: nat) returns (w: seq<EntityId>)
    requires Consistent(g) && EmittedAfterCover(g, order) && CoveredMembers(g, order)
    requires v < |g.entities| && v !in order
    ensures |w| == len + 1 && w[0] == v && InRange(g, w)
    ensures forall k :: 0 <= k < |w| ==> w[k] !in order
    ensures forall k :: 0 <= k < len ==> HasEdge(g, w[k + 1], w[k])
  {
    if len == 0 {
      w := [v];
    } else {
      var w' := BackwardWalk(g, order, v, len - 1);
      var u := OmittedPredecessor(g, order, w'[len - 1]);
      w := w' + [u];
    }
  }

  /** With consistent edge lists, an omitted entity lies downstream of a
      cycle of omitted entities. */
  lemma OmittedImpliesCycle(g: Graph, order: seq<EntityId>, v: EntityId) returns (c: seq<EntityId>)
    requires Consistent(g) && EmittedAfterCover(g, order) && CoveredMembers(g, order)
    requires v < |g.entities| && v !in order
    ensures IsCycle(g, c)
    ensures forall m :: 0 <= m < |c| ==> c[m] !in order
  {
    var n := |g.entities|;
    var w := BackwardWalk(g, order, v, n);
    if Distinct(w) {
      DistinctBound(g, w);
      assert false;
    }
    var i, j :| 0 <= i < j < |w| && w[i] == w[j];
    c := ReversedWalk(g, w, i, j);
  }

  /** A backward walk that revisits an entity, read forwards between the
      two visits, is a cycle. */
  lemma ReversedWalk(g: Graph, w: seq<EntityId>, i: nat, j: nat) returns (c: seq<EntityId>)
    requires Valid(g) && InRange(g, w) && i < j < |w| && w[i] == w[j]
    requires forall k :: 0 <= k < |w| - 1 ==> HasEdge(g, w[k + 1], w[k])
    ensures IsCycle(g, c)
    ensures forall m :: 0 <= m < |c| ==> c[m] in w
  {
    c := seq(j - i + 1, m requires 0 <= m <= j - i => w[j - m]);
    forall k | 0 <= k < |c| - 1
      ensures HasEdge(g, c[k], c[k + 1])
    {
      var t := j - k - 1;
      assert c[k + 1] == w[t];
      assert c[k] == w[t + 1];
    }
  }

  /** With consistent edge lists, every entity is returned exactly when the
      graph has no cycle, and then the result is a permutation of the
      entities. */
  lemma CompleteIffAcyclic(g: Graph, order: seq<EntityId>)
    requires Consistent(g) && EmittedAfterCover(g, order) && CoveredMembers(g, order)
    ensures (forall v :: 0 <= v < |g.entities| ==> v in order) <==> Acyclic(g)
    ensures Acyclic(g) ==> |order| == |g.entities|
  {
    if forall v :: 0 <= v < |g.entities| ==> v in order {
      forall c | IsCycle(g, c)
        ensures false
      {
        CycleOmitted(g, order, c);
      }
      DistinctBound(g, order);
    } else {
      var v :| 0 <= v < |g.entities| && v !in order;
      var c := OmittedImpliesCycle(g, order, v);
    }
  }
}

=== FILE: wrappers.dfy ===
/** Failure-compatible wrappers shared by every module of the model.
    `Option` stands for Python's `Optional[...]` (None / a value), `Result`
    for a computation that either returns or raises. */
module Wrappers {

  datatype Option<+T> = None | Some(value: T) {
    predicate IsFailure() {
      None?
    }

    function PropagateFailure<U>(): Option<U>
      requires None?
    {
      None
    }

    function Extract(): T
      requires Some?
    {
      value
    }
  }

  datatype Result<+T, +E> = Ok(value: T) | Err(error: E) {
    predicate IsFailure() {
      Err?
    }

    function PropagateFailure<U>(): Result<U, E>
      requires Err?
    {
      Err(error)
    }

    function Extract(): T
      requires Ok?
    {
      value
    }
  }
}
